=== FILE: README.md ===
# photo-tools, modelled in Dafny

This project models the decision logic of photo-tools, a set of scripts for a photo and video library. The modelled parts are:

- **Capture-time inference** (`common/datetime_utils.py`, `common/file_datetime.py`):
  - timestamps are read from exiftool, ffprobe, the file system and the path;
  - the candidates are ranked and fused into one context.
- **Media-count report** (`count_media_files.py`):
  - per-directory image and video counts and city-POI votes;
  - their roll-up into parent directories and the report's rollup self-check;
  - the top-two ranking and the row order.
- **Map browser server** (`media-map-browser/server.py`):
  - the HTTP `Range` header;
  - administrative codes;
  - the media type of a file;
  - the merge of cached scans.
- **Photo organizer** (`photo_organizer.py`):
  - the time estimate and the `YYYYMMDD` date key;
  - the quarter folder;
  - the plan that gives sidecars the date of their primary file;
  - the copy-or-skip run over the output tree.

How the source is represented:

- Datetimes are wall clocks of Python's proleptic Gregorian calendar (years 1..9999), with an optional fixed UTC offset in seconds.
- Their instant is an integer count of microseconds.
- Paths are sequences of parts.
- JSON values are a datatype.
- Whatever comes from outside is a parameter:
  - tool output, `stat` results and file listings;
  - the local UTC offset, the ISO parser fallback and the SHA-1 digest;
  - reverse geocoding.

Modules:

- `Wrappers`, `Text`, `Order`, `Seqs`, `Calendar`, `Json` and `Media` hold the Python built-ins the scripts lean on: `strip`, `zfill`, `f"{n:0Nd}"`, path and string order, stable sorting, `datetime` arithmetic, `dict.get` and the extension tables.
- `DatetimeUtils`, `Candidates`, `MediaSources`, `PathCandidates` and `FileContext` follow the two `common` modules.
- `DirectoryCounts` follows the report script.
- `MapServer` follows the server.
- `Organizer` follows the organizer.

## Model

| member | source | states |
|---|---|---|
| DatetimeUtils.ParseDatetime | common/datetime_utils.py:8-39 | Integers and `bool`s (a `bool` is an `int`) are read as epoch seconds. Strings go to the text reading, and any other value gives nothing. |
| DatetimeUtils.FromEpochSeconds | common/datetime_utils.py:9-13 | The epoch reading is aware, at the local offset, at exactly the given instant, and absent when the UTC or local wall clock leaves years 1..9999. |
| DatetimeUtils.ExifPrefix | common/datetime_utils.py:21-23 | A successful reading comes from a 19-character prefix and is a real calendar wall clock with no microseconds; `ExifPrefixOfFormat` shows every such clock is read back. |
| DatetimeUtils.OffsetSuffix | common/datetime_utils.py:28-31 | A successful reading is an offset strictly inside one day; `OffsetSuffixOfFormat` shows every such offset is read back. |
| DatetimeUtils.ReadSuffix | common/datetime_utils.py:24-38 | `Z` makes the wall clock UTC. Any remainder that is neither `Z` nor a signed 5- or 6-character offset, the empty one included, leaves it naive. A signed offset is widened to `+HH:MM` and attached when it parses. When it does not, the whole text goes to the ISO parser with `Z` replaced. |
| DatetimeUtils.ParseText | common/datetime_utils.py:17-38 | A text that is empty once cleaned gives nothing. Without a valid EXIF prefix the cleaned text goes to the ISO parser with `Z` replaced. With one, the cleaned remainder decides. |
| DatetimeUtils.ParseTextOfPrefix | common/datetime_utils.py:21-32 | A cleaned text that starts with a valid EXIF prefix is decided by its cleaned remainder alone. |
| DatetimeUtils.CleanTextUnchanged | common/datetime_utils.py:17 | Cleaning leaves alone a text with no NUL and no surrounding whitespace. |
| DatetimeUtils.ReplaceZ | common/datetime_utils.py:37 | Replacing `Z` leaves no `Z` behind. |
| DatetimeUtils.ReplaceZIdentity | common/datetime_utils.py:37 | A text without `Z` is left unchanged. |
| DatetimeUtils.ReplaceZConcat | common/datetime_utils.py:37 | Replacement works piecewise over a concatenation. |
| DatetimeUtils.ReplaceZAround | common/datetime_utils.py:37 | Each `Z` becomes `+00:00` and the text on either side is replaced independently. |
| DatetimeUtils.WithLocalTimezoneIfNaive | common/datetime_utils.py:42-45 | An aware value comes back unchanged; a naive one keeps its wall clock and gains the local offset. |
| DatetimeUtils.WithLocalTimezoneIdempotent | common/datetime_utils.py:42-45 | Applying the normalisation twice is the same as once. |
| DatetimeUtils.ExifPrefixOfFormat | common/datetime_utils.py:21-23 | The EXIF reader reads back every wall clock written in EXIF form. |
| DatetimeUtils.OffsetSuffixOfFormat | common/datetime_utils.py:28-31 | The offset reader reads back every offset written as `+HH:MM`. |
| DatetimeUtils.ParseExifNaive | common/datetime_utils.py:21-32 | A bare EXIF timestamp parses to exactly that naive wall clock. |
| DatetimeUtils.ParseExifThen | common/datetime_utils.py:21-32 | After a well-formed EXIF timestamp only the cleaned remainder decides the zone. |
| DatetimeUtils.ParseExifUtc | common/datetime_utils.py:26-27 | An EXIF timestamp followed by `Z` parses to that wall clock at UTC. |
| DatetimeUtils.ParseExifWithOffset | common/datetime_utils.py:28-31 | An EXIF timestamp followed by `+HH:MM` parses to that wall clock at that offset. |
| DatetimeUtils.ParseExifWithCompactOffset | common/datetime_utils.py:29-30 | The compact `+HHMM` form is widened and gives the same result as `+HH:MM`. |
| DatetimeUtils.FormatExifClean | common/datetime_utils.py:17 | The EXIF spelling survives cleaning unchanged. |
| DatetimeUtils.FormatOffsetClean | common/datetime_utils.py:24 | The offset spelling survives the suffix clean-up unchanged. |
| Candidates.InferPathPrecision | common/file_datetime.py:73-84 | A label not starting with `path:` has no precision. The date-time precision goes exactly to `path:` labels containing a date-time pattern name. |
| Candidates.CandidateFrom | common/file_datetime.py:103-104 | The effective label is either the candidate's own label or its back-reference. |
| Candidates.PrecisionDigits | common/file_datetime.py:107-118 | 4, 6, 8 or 17 digits, and 17 for every label that does not come from a path pattern. |
| Candidates.PrecisionToken | common/file_datetime.py:125-127 | The token is the first `PrecisionDigits` characters of the full timestamp token. |
| Candidates.HasPrefixRelation | common/file_datetime.py:130-137 | One precision token is a prefix of the other. Its meaning is given by `HasPrefixRelationSymmetric` and `PrefixRelationMeansSamePeriod`. |
| Candidates.Compare | common/file_datetime.py:140-161 | The comparator returns -1, 0 or 1. Its stages are stated by `FinerWins` and `EarlierWins`, its symmetry by `CompareAntisymmetric` and its ties by `CompareZeroIff`. |
| Calendar.Token | common/file_datetime.py:121-122 | The timestamp token is 17 decimal digits. `Candidates.TokenPieces` places each field. |
| Candidates.PrefixRelationMeansSamePeriod | common/file_datetime.py:130-137 | Two candidates are prefix-related exactly when their wall clocks lie in the same period at the coarser of the two precisions. |
| Candidates.HasPrefixRelationSymmetric | common/file_datetime.py:130-137 | The prefix relation is symmetric. |
| Candidates.CompareReflexive | common/file_datetime.py:140-161 | A candidate ties with itself. |
| Candidates.CompareAntisymmetric | common/file_datetime.py:140-161 | Swapping the arguments negates the result. |
| Candidates.CompareZeroIff | common/file_datetime.py:140-161 | A tie means the same instant, the same precision and the same effective label. |
| Candidates.FinerWins | common/file_datetime.py:143-144 | A finer candidate whose token extends a coarser one's ranks first, whatever the instants. |
| Candidates.SamePrecisionLt | common/file_datetime.py:146-161 | Between candidates of one precision the order is by instant, then by label. |
| Candidates.EarlierWins | common/file_datetime.py:146-161 | Unless the prefix rule decides, `a` ranks first exactly when it is earlier, or equally early and more precise, or equally early and precise with a smaller label. |
| Candidates.UniformPrecisionStrict | common/file_datetime.py:140-161 | On candidates of one precision the comparator is a strict order. |
| Candidates.SortCandidates | common/file_datetime.py:171-172 | The result is a permutation of the input. |
| Candidates.SortCandidatesSorted | common/file_datetime.py:171-172 | Sorting candidates of one precision orders them by instant and label. |
| Candidates.ChooseMostLikely | common/file_datetime.py:164-168 | Empty input gives nothing; otherwise the result is a member of the input. |
| Candidates.ChooseOfPair | common/file_datetime.py:164-168 | Of two candidates the second is chosen exactly when it ranks strictly before the first. |
| Candidates.ChooseMostLikelyEarliest | common/file_datetime.py:164-168 | Among candidates of one precision the choice has the earliest instant and, among those, the least label. |
| Candidates.ChooseMostLikelyNonPath | common/file_datetime.py:164-168 | Among candidates not from a path pattern the choice is the earliest. |
| Candidates.TokenPrefixEq | common/file_datetime.py:121-127 | Equal token prefixes at a field boundary mean equal calendar fields up to that boundary. |
| MediaSources.ExiftoolCandidates | common/file_datetime.py:175-216 | Nothing unless the payload's first record is an object. There are at most as many candidates as priority fields, each labelled `exiftool:` with no back-reference. |
| MediaSources.ExiftoolCandidatesFields | common/file_datetime.py:192-214 | Every candidate is the outcome of some priority field, and every priority field whose value parses contributes its candidate. |
| MediaSources.ExifFields | common/file_datetime.py:202-214 | There is one outcome per priority field, present exactly when its value parses. |
| MediaSources.Stamp | common/file_datetime.py:204-207 | A tag value yields a time exactly when it parses. |
| MediaSources.FfprobeCandidates | common/file_datetime.py:219-276 | Nothing unless the payload is an object. At most one candidate more than there are streams, each labelled `ffprobe:` with no back-reference. |
| MediaSources.FfprobeCandidatesFields | common/file_datetime.py:241-274 | The container candidate leads exactly when its tag parses. Stream `j` contributes exactly when its tag parses, under its own label. |
| MediaSources.FfprobeCandidatesValues | common/file_datetime.py:241-274 | Every candidate is the parsed container tag or the parsed tag of some stream, and every stream tag that parses is among the candidates. |
| MediaSources.StreamFields | common/file_datetime.py:255-274 | There is one outcome per stream; a non-object stream or non-object tags give none. |
| MediaSources.StreamCandidatesLabelled | common/file_datetime.py:257-274 | Each kept stream candidate names its stream, and a stream contributes exactly when its outcome is present. |
| MediaSources.StreamLabel | common/file_datetime.py:270 | The label is `ffprobe:streams[<idx>].tags.creation_time`. |
| MediaSources.StreamLabelInjective | common/file_datetime.py:270 | Distinct streams get distinct labels. |
| MediaSources.StreamLabelNotFormat | common/file_datetime.py:249-270 | No stream label equals the container label. |
| PathCandidates.BuildCandidate | common/file_datetime.py:87-100 | A calendar-invalid hit gives nothing. A valid one gives a candidate at that wall clock in the local zone, under `path:<scope>:<label>`. |
| PathCandidates.Outcomes | common/file_datetime.py:381-428 | There is one outcome per hit, in discovery order. |
| PathCandidates.Entries | common/file_datetime.py:341-342 | The entries are the present outcomes in order. |
| PathCandidates.EntriesFromHits | common/file_datetime.py:381-428 | Every entry comes from a calendar-valid hit, with its scope and family in the label. |
| PathCandidates.PathInferredCandidatesFacts | common/file_datetime.py:430-446 | Each survivor is the first entry with its precision key and no two survivors share a key. None is a coarser same-period match of another, and they ascend by instant. |
| PathCandidates.PathInferredCandidates | common/file_datetime.py:430-446 | The survivors come out in ascending order of instant. |
| PathCandidates.PrecisionLevel | common/file_datetime.py:344-353 | The level is between 0 and 4. |
| PathCandidates.PrecisionKey | common/file_datetime.py:355-364 | The key records the label's level, with labels of no known family at level 4, and the candidate's year. |
| PathCandidates.KeyLevel | common/file_datetime.py:355-364 | Levels 1 to 3 are kept, and level 0 is recorded as 4. |
| PathCandidates.PrecisionKeyEq | common/file_datetime.py:355-364 | Two keys are equal exactly when the key levels are equal and the wall clocks agree on the year, on the month from level 2, on the day from level 3, and on hour, minute and second at level 4. |
| PathCandidates.PathInferredSurvivors | common/file_datetime.py:437-444 | A deduplicated entry survives exactly when no other deduplicated entry refines it. |
| PathCandidates.PathInferredNonEmpty | common/file_datetime.py:381-446 | The extractor yields something exactly when some hit is calendar-valid. |
| PathCandidates.Finest | common/file_datetime.py:366-379 | The chosen element has the highest precision level, so nothing refines it. |
| PathCandidates.LabelPrecision | common/file_datetime.py:73-84 | Both precision readers agree with the per-family tables on labels with a plain prefix. |
| PathCandidates.PathLabelPrecision | common/file_datetime.py:344-353 | Both precision readers agree with the per-family tables on every label the extractor writes. |
| PathCandidates.LabelEnding | common/file_datetime.py:347-351 | A label ends with a `:`-prefixed pattern name exactly when that name is its own family's. |
| PathCandidates.LabelStampTests | common/file_datetime.py:345 | The date-time pattern names occur only in date-time labels. |
| FileContext.FsList | common/file_datetime.py:459-481 | The list holds 2 to 4 entries, all labelled `fs:`: mtime and ctime always, birth time exactly when reported, and `fs:path` exactly when there is a path candidate. |
| FileContext.FsPathCandidate | common/file_datetime.py:471-481 | `fs:path` carries the best path candidate's time and its label as back-reference, and is absent when the extractor finds nothing. |
| FileContext.FsCandidates | common/file_datetime.py:449-484 | The list is `FsList` with `fs:path` exactly when the path extractor found something, and the chosen candidate is a member of it. |
| FileContext.FsPathIffValidHit | common/file_datetime.py:471-472 | `fs:path` is offered exactly when some hit is calendar-valid. |
| FileContext.MediaCandidates | common/file_datetime.py:498-511 | exiftool's candidates come first. ffprobe's follow for videos, and for unknown kinds when asked. |
| FileContext.ImageIgnoresFfprobe | common/file_datetime.py:505 | Images never use ffprobe output. |
| FileContext.MediaNotFs | common/file_datetime.py:524-526 | No media label is a filesystem label, so lookups by value cannot confuse the two. |
| FileContext.CollectContext | common/file_datetime.py:487-534 | The candidates are media then filesystem. The media index is -1 exactly when there are no media candidates. Every index points at an equal candidate in its own part. The overall choice is the media one exactly when there are media candidates and their choice ranks strictly before the filesystem choice. |
| FileContext.Fuse | common/file_datetime.py:513-527 | The overall index is the media index exactly when the media choice ranks strictly before the filesystem choice. Both indices point at equal candidates in their own parts. |
| FileContext.Better | common/file_datetime.py:519-522 | The filesystem choice wins unless a media choice ranks strictly before it. |
| FileContext.IndexOf | common/file_datetime.py:525-527 | `list.index` finds the first equal element, or nothing. |
| FileContext.IndexOfMember | common/file_datetime.py:525-527 | A member is found at or before its own position. |
| FileContext.IndexInFirst | common/file_datetime.py:526 | A member of the first part is found inside the first part. |
| FileContext.IndexInSecond | common/file_datetime.py:525 | A member of the second part that nothing in the first part equals is found in the second part. |
| FileContext.CandEqFacts | common/file_datetime.py:17-41 | Candidates equal by value have the same label. |
| Media.Extension | common/file_datetime.py:493 | Lower-casing keeps the suffix's length. |
| Media.ExtensionTablesDisjoint | common/media.py:3-38 | The image and video tables share no suffix, and neither shares one with the organizer's sidecar table. |
| Media.ImageNotVideo | common/media.py:3-38 | No file name is both an image and a video. |
| DirectoryCounts.MediaTotal | count_media_files.py:66-72 | The total bounds both counts and is zero exactly for empty counts. |
| DirectoryCounts.MediaTotalAdds | count_media_files.py:70-72 | The media total of a sum is the sum of the totals. |
| DirectoryCounts.CountWhereUnion | count_media_files.py:335-340 | Counting two exclusive classes counts their union. |
| DirectoryCounts.ScanCounts | count_media_files.py:335-340 | The loop counts exactly the files of each kind, given that no file is of both. |
| DirectoryCounts.ScanDirectCounts | count_media_files.py:327-344 | Image and video counts are the numbers of image and video names, and their total is the number of media files. |
| DirectoryCounts.DirectVotes | count_media_files.py:356-389 | There are exactly as many votes as media files whose location resolves to a non-empty label. Each vote is such a label. |
| DirectoryCounts.DirectVotesTally | count_media_files.py:356-389 | Each non-empty label has exactly as many votes as media files that resolve to it. |
| DirectoryCounts.RollupStep | count_media_files.py:401-408 | A step keeps the set of directories. |
| DirectoryCounts.RollupOver | count_media_files.py:401-408 | The rollup keeps the set of directories. |
| DirectoryCounts.Aggregate | count_media_files.py:392-413 | The totals cover exactly the directories of the direct values. |
| DirectoryCounts.AggregateMediaCounts | count_media_files.py:392-413 | Count totals are the generic rollup with component-wise addition. |
| DirectoryCounts.AggregateVotes | count_media_files.py:416-430 | Vote totals are the generic rollup with multiset union. |
| DirectoryCounts.BuildChildrenMap | count_media_files.py:433-441 | Every known directory maps to exactly its known children other than the root, in listing order. |
| DirectoryCounts.Kids | count_media_files.py:435-440 | An element is a child of `d` exactly when it is listed, is not the root and has parent `d`. |
| DirectoryCounts.AggregateRollup | count_media_files.py:444-473 | After the rollup every directory's total is its direct value plus its children's totals, for any commutative monoid. |
| DirectoryCounts.RollupHolds | count_media_files.py:444-473 | Every directory's total equals its direct value plus the sum of its children's totals, the test of `verify_parent_rollup` and `verify_vote_rollup`. |
| DirectoryCounts.RollupInvariant | count_media_files.py:401-408 | After any depth-ordered prefix of the loop, each directory's total is its direct value plus its processed children's totals. |
| DirectoryCounts.RollupStepKeeps | count_media_files.py:404-408 | One step keeps that equation for every directory. |
| DirectoryCounts.SumOfPermutation | count_media_files.py:450-455 | Under a commutative monoid a sum does not depend on the order of its terms. |
| DirectoryCounts.SumOfRemove | count_media_files.py:450-455 | Taking a term out and adding it last keeps the sum. |
| DirectoryCounts.SumOfFrame | count_media_files.py:450-455 | A sum reads only the entries it adds. |
| DirectoryCounts.KidsMultiset | count_media_files.py:435-440 | Children of a permuted listing are a permutation of the children. |
| DirectoryCounts.KidsSumReordered | count_media_files.py:450-455 | The children's sum does not depend on listing order. |
| DirectoryCounts.DepthOrderedInit | count_media_files.py:401 | Dropping the last directory of a deepest-first order keeps it ordered. |
| DirectoryCounts.CountsMonoid | count_media_files.py:407-408 | Count addition is a commutative monoid with zero counts. |
| DirectoryCounts.VotesMonoid | count_media_files.py:428 | `Counter.update` on multisets is a commutative monoid with the empty counter. |
| DirectoryCounts.ReportRollupsVerify | count_media_files.py:521-531 | Both rollup checks of the report pass for every scan, so its abort never fires. |
| DirectoryCounts.ToCityPoi | count_media_files.py:295-302 | Nothing exactly when both parts are empty. With both, the label is the city, `-`, then the POI. With one, the label is that part. |
| DirectoryCounts.ToCityPoiInjective | count_media_files.py:295-302 | When cities hold no `-`, a joined label determines both its parts. |
| DirectoryCounts.RankLtStrict | count_media_files.py:477 | The `(-count, name)` key is a strict order on entries with distinct names. |
| DirectoryCounts.TopTwo | count_media_files.py:476-480 | Always two entries. Each is a vote entry or the `("N/A", 0)` padding, and padding appears only when there are fewer than two entries. With two or more entries the pair is drawn from them without repetition (a sub-multiset). |
| DirectoryCounts.TopTwoBest | count_media_files.py:476-480 | Nothing outranks the first entry, and only the first outranks the second. |
| DirectoryCounts.SortDirectoryRows | count_media_files.py:483-489 | The rows are a permutation of the input. |
| DirectoryCounts.SortDirectoryRowsOrdered | count_media_files.py:483-489 | Rows come out by descending media total then path text, or by path text alone. |
| MapServer.FindChar | media-map-browser/server.py:395 | The first position of the character, or nothing exactly when it is absent. |
| MapServer.MatchRangeSpec | media-map-browser/server.py:395-399 | A match gives two digit strings that rebuild the text as `bytes=<a>-<b>`. |
| MapServer.MatchRangeSpecComplete | media-map-browser/server.py:395-399 | Every `bytes=<digits>-<digits>` text matches with exactly those groups. |
| MapServer.RequestedRange | media-map-browser/server.py:400-414 | `bytes=-N` asks for the last N bytes, and not at all when N is 0. `bytes=S-` runs to the end, and `bytes=S-E` asks for exactly that range. |
| MapServer.CheckRange | media-map-browser/server.py:416-419 | A range is refused exactly when it starts before 0, ends before it starts, or starts past the last byte. The end is clamped to the last byte. |
| MapServer.ParseRangeHeader | media-map-browser/server.py:392-419 | An accepted range lies within the file. A missing or empty header, or an empty file, gives nothing; an accepted header is a matched spec. |
| MapServer.ParseRangeHeaderOfSpec | media-map-browser/server.py:392-419 | A well-formed header is read through its two digit groups. |
| MapServer.RangeExplicit | media-map-browser/server.py:410-419 | `bytes=S-E` inside the file yields exactly S..E, and E is clamped when past the end. |
| MapServer.RangeOpenEnd | media-map-browser/server.py:410-419 | `bytes=S-` yields S..size-1 exactly when S is inside the file. |
| MapServer.RangeSuffix | media-map-browser/server.py:404-409 | `bytes=-N` yields the last N bytes, the whole file when N exceeds it, and nothing for N = 0 or an empty file. |
| MapServer.RangeEmptySpec | media-map-browser/server.py:400-401 | `bytes=-` yields nothing. |
| MapServer.AdcodeString | media-map-browser/server.py:166-173 | A non-negative integer is spelled in digits with its own value, six characters when below a million. A negative one is `-` followed by its magnitude zero-filled to five digits, or more when it has more. `True` and `False` give `000001` and `000000`. A digit string is trimmed and zero-filled to at least six characters, keeping its value. Other strings and non-scalar values give the empty string. |
| MapServer.IntAdcode | media-map-browser/server.py:167-168 | `f"{i:06d}"`: the digits of a non-negative value, six when below a million. A negative value gives `-` and its magnitude padded so the whole is at least six characters. |
| MapServer.BoolAdcode | media-map-browser/server.py:167-168 | A `bool` formats as the integer 1 or 0: `000001` or `000000`. |
| MapServer.TextAdcode | media-map-browser/server.py:169-173 | A string that is digits once trimmed keeps its value and is zero-filled to at least six characters. Any other string gives the empty string. |
| MapServer.PrefectureLevelByValue | media-map-browser/server.py:176-180 | A six-digit code is prefecture-level exactly when its value is a multiple of 100 whose hundreds are not a multiple of 100. |
| MapServer.IsPrefectureLevelAdcode | media-map-browser/server.py:176-180 | Six digits whose middle pair is not `00` and whose last pair is. `PrefectureLevelByValue` states the same test on the code's value. |
| MapServer.AdcodeOfIntPrefecture | media-map-browser/server.py:166-180 | For integers 0..999999, the formatted code passes the test exactly when the number's test holds. |
| MapServer.GuessMediaType | media-map-browser/server.py:103-109 | `image` exactly for image suffixes, `video` exactly for video suffixes, nothing otherwise. |
| MapServer.UniqueScanIds | media-map-browser/server.py:594-601 | The kept ids are distinct, and an id is kept exactly when it is non-empty and some requested id strips to it. |
| MapServer.UniqueScanIdsMembers | media-map-browser/server.py:594-601 | An id is kept exactly when it is a non-empty stripped id of the request. The kept ids are distinct. |
| MapServer.UniqueScanIdsPrefix | media-map-browser/server.py:596-601 | Ids keep the order of first appearance: a prefix of the request yields a prefix of the result. |
| MapServer.FirstOccurrencesStep | media-map-browser/server.py:596-601 | One more requested id only ever appends. |
| MapServer.MediaKey | media-map-browser/server.py:609-616 | The key is the id, else the path, else a digest, each under its own tag. |
| MapServer.MediaKeySameIff | media-map-browser/server.py:609-616 | Two entries share a key exactly when they share a basis of the same kind. |
| MapServer.ObjectKeysMember | media-map-browser/server.py:627-645 | A key is among the keys exactly when some object entry has it. |
| MapServer.AddUnseen | media-map-browser/server.py:627-645 | Seen keys grow by the keys of the object entries. Each kept entry is an object with a key unseen before it. |
| MapServer.AddUnseenKept | media-map-browser/server.py:627-645 | The kept entries are unique by key, and the keys they add are exactly the newly seen ones. |
| MapServer.AddUnseenCount | media-map-browser/server.py:627-645 | Seen keys grow by exactly as many as entries are kept. |
| MapServer.MergeScans | media-map-browser/server.py:618-645 | Each id is loaded or missing exactly by whether its cache reads. Every merged entry is an object from a scan that reads, and the key of every object entry of such a scan is seen. Seen keys number exactly the merged entries. |
| MapServer.MergePayloadKeys | media-map-browser/server.py:627-645 | One scan's step keeps the seen keys equal to the keys of the merged entries. |
| MapServer.MergeScansKeys | media-map-browser/server.py:618-645 | The merged entries are unique by media key, and the seen keys are exactly their keys. |
| MapServer.MergeScansSeen | media-map-browser/server.py:618-645 | The seen keys are exactly the keys of the merged entries. |
| MapServer.MergeScansSeenStep | media-map-browser/server.py:618-645 | One more scan keeps the seen keys equal to the keys of the merged entries. |
| MapServer.MergedCovers | media-map-browser/server.py:618-645 | Every object entry of a readable scan has a merged entry with the same media key. |
| MapServer.KeysCountDistinct | media-map-browser/server.py:627-645 | As many keys as object entries means no two entries share a key. |
| MapServer.LoadScanCaches | media-map-browser/server.py:579-658 | `total == located + unlocated` and equals the number of distinct keys. The merged entries are unique by media key, and the seen keys are exactly theirs. Loaded and missing ids partition the de-duplicated request. |
| Organizer.ArgMin | photo_organizer.py:273 | The position holds a least key, and every earlier position a strictly greater key. |
| Organizer.Earliest | photo_organizer.py:302 | The result is a member with the earliest instant. It sits at the first position holding that instant, the element `min` returns on ties. |
| Organizer.FirstEarliestUnique | photo_organizer.py:302 | Only one position is first among the earliest, so the tie rule fixes the choice. |
| Organizer.FilesystemCandidate | photo_organizer.py:261-281 | The result is the oldest of mtime, ctime and birth time under the fixed label, and names the time chosen. ctime is chosen only when strictly older than mtime, and birth time only when strictly older than both. |
| Organizer.RunsFfprobeByKind | photo_organizer.py:294 | Images and sidecars are never probed; videos always are. |
| Organizer.EstimateTime | photo_organizer.py:284-316 | The estimate is a considered candidate no later than any other, nor than the filesystem time. On ties it is the first in the order exiftool, ffprobe, filesystem. So a media candidate at the filesystem's instant or earlier supplies the source, and the filesystem candidate supplies it only when every media candidate is strictly later. The media estimate is absent exactly when there are no media candidates. Otherwise it is the time of the first earliest media candidate, no earlier than the estimate. |
| Organizer.EstimateFrom | photo_organizer.py:298-316 | Given the gathered media candidates, the estimate and the media estimate are the first earliest of their lists, so a tie goes to the candidate listed first. |
| Organizer.ImageEstimateIgnoresProbe | photo_organizer.py:294-296 | An image's estimate does not depend on ffprobe's output. |
| Organizer.GetDateKey | photo_organizer.py:319-320 | The key exists exactly when the local wall clock is in range. It is 8 digits spelling that year, month and day. |
| Organizer.DateDigitsFields | photo_organizer.py:320 | `%Y%m%d` spells the year, month and day in digit fields 0-4, 4-6 and 6-8. |
| Organizer.Slice | photo_organizer.py:377-378 | Python slicing clamps both bounds. |
| Organizer.QuarterKey | photo_organizer.py:377-380 | A key exists exactly when the month slice is non-empty digits. It is then the year slice, `Q`, and `(month-1)//3+1`. The month is the one digit after the year for a 5-character key, and the two digits after it otherwise. |
| Organizer.QuarterOfMonth | photo_organizer.py:379 | Months 1..12 fall in quarters 1..4, each quarter holding its three months. |
| Organizer.QuarterKeyOfDateKey | photo_organizer.py:319-380 | Every produced date key has the quarter folder `<year>Q<1..4>` of its month. |
| Organizer.LastWrites | photo_organizer.py:344-349 | The map's keys are exactly the stems written. |
| Organizer.LastWritesLast | photo_organizer.py:349 | The map holds the value of the last file written under each key. |
| Organizer.InheritedKey | photo_organizer.py:335 | An empty or absent inherited key falls back to the file's own. |
| Organizer.Primaries | photo_organizer.py:344-346 | Exactly the non-sidecar files. |
| Organizer.PrimariesAndSidecars | photo_organizer.py:344-355 | The two passes together cover every file once. |
| Organizer.PlanPasses | photo_organizer.py:344-357 | Records list the primary files then the sidecars, each in sorted order: a permutation of the files. |
| Organizer.PlanPassesKeys | photo_organizer.py:347-355 | A primary gets its own key; a sidecar gets the inherited-or-own key. |
| Organizer.PlanOrder | photo_organizer.py:323-340 | The files are exactly the supported ones, each as often as found. |
| Organizer.PlanOrderSorted | photo_organizer.py:340 | The files are in path order. |
| Organizer.CollectPlan | photo_organizer.py:339-357 | One record per file of the sorted list, primaries first, sidecars after, each group in sorted order. The count is the number of records. |
| Organizer.CollectPlanCounts | photo_organizer.py:339-357 | The records are exactly the supported files found, and the count is how many there are. |
| Organizer.CollectPlanKeys | photo_organizer.py:344-355 | A primary keeps its own key, and so does a sidecar with no primary sharing its parent and stem. |
| Organizer.SidecarInheritsLastPrimary | photo_organizer.py:349-355 | A sidecar takes the non-empty key of the last sorted primary sharing its parent and stem. |
| Organizer.FirstSorted | photo_organizer.py:384-387 | `sorted(...)[0]` is a member that no other member precedes, and absent exactly for an empty list. |
| Organizer.TargetDir | photo_organizer.py:384-387 | The result is the first existing date directory of the quarter folder whose name starts with the key, or else a new directory named by the key. |
| Organizer.MakeDir | photo_organizer.py:382-388 | The directory exists afterwards and none is lost. |
| Organizer.CopyStep | photo_organizer.py:376-404 | A record with no month fails. An existing target is skipped and logged with the source written there earlier, if any. Otherwise the file is written, logged and recorded. Copy mode adds exactly the target to the files. Move mode also removes the source. |
| Organizer.CopyByPlan | photo_organizer.py:360-406 | The run fails exactly when some key has no month. Copied plus skipped is the number of records, each log matches its count, date folders are the keys, and written targets are the map's keys. |
| Organizer.CopiedTargetsDistinct | photo_organizer.py:392-404 | In copy mode every written target exists at the end and no two copies share a target. |
| Organizer.CopyStepKeepsTargets | photo_organizer.py:392-404 | One copy-mode step keeps both facts. |
| Order.PathLtTransitive | photo_organizer.py:340 | Path order is transitive. |
| Order.PathLtTotal | photo_organizer.py:340 | Path order is total and asymmetric. |
| Order.SortBy | common/file_datetime.py:171-172 | Sorting returns a permutation. |
| Order.SortBySorted | common/file_datetime.py:171-172 | Under a strict order the result is sorted. |
| Text.Suffix | common/file_datetime.py:493 | The suffix is empty, or a `.`-led tail of the name, at least 2 characters long and shorter than the name, with no other `.`: it starts at the last dot. When empty, no dot strictly inside the name is the last one. |
| Text.Stem | photo_organizer.py:349 | The stem followed by the suffix is the name. |
| Text.Strip | common/datetime_utils.py:17 | The result is a slice of the input with only whitespace outside it, and it neither starts nor ends with whitespace. |
| Seqs.DedupKeepsFirst | common/file_datetime.py:430-435 | Each kept element is the first with its key. |
| Seqs.DedupKeysDistinct | common/file_datetime.py:430-435 | No two kept elements share a key. |
| Seqs.DedupCoversKeys | common/file_datetime.py:430-435 | Every key of the input is kept. |

## Left out

- Regular expressions. The path patterns and `re.finditer` are not modelled; the path extractor receives the matches as (scope, family, fields) in discovery order.
- Lenient `strptime`. One-digit fields and similar leniencies are not modelled; the EXIF prefix is exactly `YYYY:MM:DD HH:MM:SS`.
- Floats. Floating-point timestamps are exact integer microseconds, so `.timestamp()` rounding and float JSON numbers are not modelled, and the organizer's confidence scores are dropped.
- Daylight saving time. The local zone is one fixed UTC offset, a parameter.
- Unicode. `str.lower`, `str.isdigit` and `\d` are ASCII-only.
- Operating system and tools. Process execution, `stat`, `os.walk`, `rglob`, file copying, JSON files, HTTP and threads are not modelled; their results are parameters. For the same reason `allow_nonzero_tool_exit` and `require_success` are not modelled.
- Sorting algorithm. `Order.SortBy` is a stable insertion sort with the same comparator. TimSort agrees with it when the comparator is a strict weak order. The candidate comparator is not transitive across precisions: when `x < p`, `p < y` and `y < x`, TimSort returns `[x, p, y]` and the insertion sort `[y, x, p]`. On such inputs the order differs, so `Candidates.ChooseMostLikely` and `Candidates.SortCandidates` claim only membership and permutation; the ordering lemmas are stated for one precision or for candidates outside path patterns.
- `infer_path_precision` and the delimited patterns. The function tests for `.YYYY-MM-DD.` and `:YYYYMMDD`, but the extractor writes labels ending in `:YYYY-MM-DD` and `:YYYY-MM`. Those labels therefore get full precision. The model follows the code (`PathCandidates.FamilyPrecision`).
- Geocoding and GPS. Reverse geocoding, its cache and GPS extraction are a lookup parameter of `DirectoryCounts.DirectVotes`.
- Organizer copies of the shared readers. The organizer has its own `parse_datetime`, `exiftool_candidates` and `ffprobe_candidates`. They read the same fields under the same labels; the only difference is the scores. `Organizer.EstimateTime` takes their candidate lists as inputs.
- Organizer.CollectPlan: the date key of each file's own estimate is a parameter. When the key cannot be formed (`GetDateKey` is nothing), the source raises and the run stops.
- Organizer.QuarterKey: Python's `int()` also accepts surrounding whitespace, a sign and underscores; the model accepts digits only. Date keys written by `strftime` are digits.
- Organizer.CopyStep: a move whose target equals its source is not modelled separately. Creating a directory over an existing file, where `mkdir` would raise, is not modelled either.
- MapServer.MergeScans: a scan cache file is a lookup parameter from id to payload. Registering items into the server's state, the lock and the SHA-1 digest (a parameter) are not modelled.
- MapServer.UniqueScanIds: scan ids are strings, so `str()` of other JSON values is not modelled.
- Calendar.AtOffset: `astimezone()` overflow outside years 1..9999 gives nothing where Python raises.
- Calendar years below 1000. The date keys pad the year to four digits. glibc's `strftime("%Y")` may print fewer digits for such years; that platform behaviour is not modelled.
- MediaSources.FfprobeCandidates: a payload whose `format` is not an object makes Python raise `AttributeError` at the next `.get`. The model requires `format`, when present, to be an object and does not model that failure.
- Report output. Printing and table layout are not modelled, nor is the check that `main` makes before printing (`DirectoryCounts.ReportRollupsVerify` shows that check always passes).
- `Path('/').parent`. The empty path is its own parent (`Order.Parent`), as for the filesystem root.

=== FILE: calendar.dfy ===
/** Python `datetime` values: the proleptic Gregorian calendar of years 1..9999,
    wall-clock fields, an optional fixed UTC offset, and the instant an aware
    value denotes (integer microseconds since 1970-01-01T00:00:00Z). */
module Calendar {
  import opened Wrappers
  import Text

  const MinYear := 1
  const MaxYear := 9999

  predicate IsLeap(y: int) {
    y % 4 == 0 && (y % 100 != 0 || y % 400 == 0)
  }

  function DaysInYear(y: int): int {
    if IsLeap(y) then 366 else 365
  }

  function DaysInMonth(y: int, m: int): int
    requires 1 <= m <= 12
  {
    if m == 2 then (if IsLeap(y) then 29 else 28)
    else if m == 4 || m == 6 || m == 9 || m == 11 then 30
    else 31
  }

  /** Days in the months before `m` of year `y`; `m == 13` gives the whole year. */
  function DaysBeforeMonth(y: int, m: int): int
    requires 1 <= m <= 13
  {
    var common :=
      if m <= 6 then
        (if m == 1 then 0 else if m == 2 then 31 else if m == 3 then 59
         else if m == 4 then 90 else if m == 5 then 120 else 151)
      else
        (if m == 7 then 181 else if m == 8 then 212 else if m == 9 then 243
         else if m == 10 then 273 else if m == 11 then 304 else if m == 12 then 334 else 365);
    common + (if m > 2 && IsLeap(y) then 1 else 0)
  }

  lemma DaysBeforeMonthStep(y: int, m: int)
    requires 1 <= m <= 12
    ensures DaysBeforeMonth(y, m + 1) == DaysBeforeMonth(y, m) + DaysInMonth(y, m)
    ensures DaysBeforeMonth(y, 1) == 0 && DaysBeforeMonth(y, 13) == DaysInYear(y)
  {
  }

  /** Days in the years before `y` (Python's `_days_before_year`). */
  function DaysBeforeYear(y: int): int
    requires y >= 1
  {
    var p := y - 1;
    365 * p + p / 4 - p / 100 + p / 400
  }

  lemma DaysBeforeYearStep(y: int)
    requires y >= 1
    ensures DaysBeforeYear(y + 1) == DaysBeforeYear(y) + DaysInYear(y)
  {
    QuotientStep4(y);
    QuotientStep100(y);
    QuotientStep400(y);
    LeapDays(y);
  }

  /** Stepping to year `y` adds one multiple of 4 exactly when 4 divides `y`;
      likewise for 100 and 400 below. */
  lemma QuotientStep4(y: int)
    ensures y / 4 == (y - 1) / 4 + (if y % 4 == 0 then 1 else 0)
  {
  }

  lemma QuotientStep100(y: int)
    ensures y / 100 == (y - 1) / 100 + (if y % 100 == 0 then 1 else 0)
  {
  }

  lemma QuotientStep400(y: int)
    ensures y / 400 == (y - 1) / 400 + (if y % 400 == 0 then 1 else 0)
  {
  }

  /** The Gregorian rule as a sum of three divisibility terms. */
  lemma LeapDays(y: int)
    ensures DaysInYear(y) == 365 + (if y % 4 == 0 then 1 else 0) - (if y % 100 == 0 then 1 else 0)
                                 + (if y % 400 == 0 then 1 else 0)
  {
    if y % 100 == 0 {
      MultipleDivides(y, 100, 4);
    }
    if y % 400 == 0 {
      MultipleDivides(y, 400, 100);
    }
  }

  /** A multiple of `a` is a multiple of each divisor `b` of `a`. */
  lemma MultipleDivides(y: int, a: int, b: int)
    requires (a == 100 && b == 4) || (a == 400 && b == 100)
    requires y % a == 0
    ensures y % b == 0
  {
    var q := y / a;
    assert y == a * q;
    if a == 100 {
      assert y == 4 * (25 * q);
    } else {
      assert y == 100 * (4 * q);
    }
  }

  lemma {:induction false} DaysBeforeYearMonotonic(a: int, b: int)
    requires 1 <= a <= b
    ensures DaysBeforeYear(a) + 365 * (b - a) <= DaysBeforeYear(b)
    decreases b - a
  {
    if a < b {
      DaysBeforeYearStep(a);
      DaysBeforeYearMonotonic(a + 1, b);
    }
  }

  predicate ValidDate(y: int, m: int, d: int) {
    MinYear <= y <= MaxYear && 1 <= m <= 12 && 1 <= d <= DaysInMonth(y, m)
  }

  /** Python's `date.toordinal()`: 0001-01-01 is day 1. */
  function Ordinal(y: int, m: int, d: int): int
    requires y >= 1 && 1 <= m <= 12
  {
    DaysBeforeYear(y) + DaysBeforeMonth(y, m) + d
  }

  const EpochOrdinal := 719163
  const MaxOrdinal := 3652059

  lemma OrdinalConstants()
    ensures Ordinal(1970, 1, 1) == EpochOrdinal
    ensures Ordinal(9999, 12, 31) == MaxOrdinal
    ensures DaysBeforeYear(MaxYear + 1) == MaxOrdinal
  {
  }

  datatype Ymd = Ymd(year: int, month: int, day: int)

  function YearSearch(n: int, y: int): (r: int)
    requires y >= 1 && DaysBeforeYear(y) < n
    ensures r >= y && DaysBeforeYear(r) < n <= DaysBeforeYear(r + 1)
    decreases n - DaysBeforeYear(y)
  {
    DaysBeforeYearStep(y);
    if n <= DaysBeforeYear(y + 1) then y else YearSearch(n, y + 1)
  }

  function MonthSearch(y: int, doy: int, m: int): (r: int)
    requires 1 <= m <= 12 && DaysBeforeMonth(y, m) < doy <= DaysBeforeMonth(y, 13)
    ensures m <= r <= 12 && DaysBeforeMonth(y, r) < doy <= DaysBeforeMonth(y, r + 1)
    decreases 12 - m
  {
    if doy <= DaysBeforeMonth(y, m + 1) then m else MonthSearch(y, doy, m + 1)
  }

  /** Python's `date.fromordinal(n)`. */
  function FromOrdinal(n: int): (r: Ymd)
    requires 1 <= n <= MaxOrdinal
    ensures ValidDate(r.year, r.month, r.day)
    ensures Ordinal(r.year, r.month, r.day) == n
  {
    assert DaysBeforeYear(1) == 0;
    var y := YearSearch(n, 1);
    if y > MaxYear then
      DaysBeforeYearMonotonic(MaxYear + 1, y);
      assert false;
      Ymd(1, 1, 1)
    else
      DaysBeforeYearStep(y);
      var doy := n - DaysBeforeYear(y);
      DaysBeforeMonthStep(y, 1);
      var m := MonthSearch(y, doy, 1);
      DaysBeforeMonthStep(y, m);
      Ymd(y, m, doy - DaysBeforeMonth(y, m))
  }

  lemma OrdinalBounds(y: int, m: int, d: int)
    requires ValidDate(y, m, d)
    ensures DaysBeforeYear(y) < Ordinal(y, m, d) <= DaysBeforeYear(y + 1)
    ensures 1 <= Ordinal(y, m, d) <= MaxOrdinal
  {
    DaysBeforeMonthStep(y, m);
    MonthsMonotonic(y, m + 1, 13);
    DaysBeforeMonthStep(y, 12);
    DaysBeforeYearStep(y);
    DaysBeforeYearMonotonic(y + 1, MaxYear + 1);
    assert DaysBeforeYear(1) == 0;
    DaysBeforeYearMonotonic(1, y);
  }

  /** Only one year's range of ordinals contains `n`. */
  lemma YearUnique(n: int, a: int, b: int)
    requires a >= 1 && b >= 1
    requires DaysBeforeYear(a) < n <= DaysBeforeYear(a + 1)
    requires DaysBeforeYear(b) < n <= DaysBeforeYear(b + 1)
    ensures a == b
  {
    if a < b {
      DaysBeforeYearMonotonic(a + 1, b);
    } else if b < a {
      DaysBeforeYearMonotonic(b + 1, a);
    }
  }

  lemma MonthUnique(y: int, doy: int, a: int, b: int)
    requires 1 <= a <= 12 && 1 <= b <= 12
    requires DaysBeforeMonth(y, a) < doy <= DaysBeforeMonth(y, a + 1)
    requires DaysBeforeMonth(y, b) < doy <= DaysBeforeMonth(y, b + 1)
    ensures a == b
  {
    if a < b {
      MonthsMonotonic(y, a + 1, b);
    } else if b < a {
      MonthsMonotonic(y, b + 1, a);
    }
  }

  /** The ordinal of a valid date determines the date. */
  lemma FromOrdinalOfOrdinal(y: int, m: int, d: int)
    requires ValidDate(y, m, d)
    ensures 1 <= Ordinal(y, m, d) <= MaxOrdinal
    ensures FromOrdinal(Ordinal(y, m, d)) == Ymd(y, m, d)
  {
    var n := Ordinal(y, m, d);
    OrdinalBounds(y, m, d);
    var r := FromOrdinal(n);
    OrdinalBounds(r.year, r.month, r.day);
    YearUnique(n, r.year, y);
    var doy := n - DaysBeforeYear(y);
    DaysBeforeMonthStep(y, m);
    DaysBeforeMonthStep(y, r.month);
    MonthUnique(y, doy, r.month, m);
  }

  lemma MonthsMonotonic(y: int, a: int, b: int)
    requires 1 <= a <= b <= 13
    ensures DaysBeforeMonth(y, a) <= DaysBeforeMonth(y, b)
  {
  }

  /** Naive wall-clock fields of a `datetime`. */
  datatype Wall = Wall(year: int, month: int, day: int, hour: int, minute: int, second: int, micro: int)

  predicate ValidWall(w: Wall) {
    && ValidDate(w.year, w.month, w.day)
    && 0 <= w.hour < 24 && 0 <= w.minute < 60 && 0 <= w.second < 60
    && 0 <= w.micro < 1000000
  }

  const MicrosPerSecond := 1000000
  const MicrosPerDay := 86400000000

  /** Microseconds from 1970-01-01T00:00 to the wall clock, read on one clock. */
  function WallMicros(w: Wall): int
    requires w.year >= 1 && 1 <= w.month <= 12
  {
    ((Ordinal(w.year, w.month, w.day) - EpochOrdinal) * 86400
      + w.hour * 3600 + w.minute * 60 + w.second) * MicrosPerSecond + w.micro
  }

  const MinMicros := -62135596800000000
  const MaxMicros := 253402300799999999

  lemma WallMicrosRange(w: Wall)
    requires ValidWall(w)
    ensures MinMicros <= WallMicros(w) <= MaxMicros
  {
    FromOrdinalOfOrdinal(w.year, w.month, w.day);
  }

  lemma SplitMicros(us: int)
    requires MinMicros <= us <= MaxMicros
    ensures 1 <= us / MicrosPerDay + EpochOrdinal <= MaxOrdinal
    ensures us == (us / MicrosPerDay) * MicrosPerDay + (us % MicrosPerDay) / MicrosPerSecond * MicrosPerSecond
                  + us % MicrosPerDay % MicrosPerSecond
    ensures 0 <= (us % MicrosPerDay) / MicrosPerSecond < 86400
  {
    var days := us / MicrosPerDay;
    var rem := us % MicrosPerDay;
    assert us == days * MicrosPerDay + rem && 0 <= rem < MicrosPerDay;
    assert rem == rem / MicrosPerSecond * MicrosPerSecond + rem % MicrosPerSecond;
  }

  lemma SplitSeconds(secs: int)
    requires 0 <= secs < 86400
    ensures secs == secs / 3600 * 3600 + secs % 3600 / 60 * 60 + secs % 60
    ensures 0 <= secs / 3600 < 24 && 0 <= secs % 3600 / 60 < 60 && 0 <= secs % 60 < 60
  {
  }

  /** The wall clock `us` microseconds after 1970-01-01T00:00, when its year is in 1..9999. */
  function WallFromMicros(us: int): (r: Option<Wall>)
    ensures r.Some? <==> MinMicros <= us <= MaxMicros
    ensures r.Some? ==> ValidWall(r.value) && WallMicros(r.value) == us
  {
    if us < MinMicros || us > MaxMicros then None
    else
      SplitMicros(us);
      var days := us / MicrosPerDay;
      var rem := us % MicrosPerDay;
      var ymd := FromOrdinal(days + EpochOrdinal);
      var secs := rem / MicrosPerSecond;
      SplitSeconds(secs);
      var w := Wall(ymd.year, ymd.month, ymd.day, secs / 3600, secs % 3600 / 60, secs % 60, rem % MicrosPerSecond);
      assert WallMicros(w) == (days * 86400 + secs) * MicrosPerSecond + w.micro;
      Some(w)
  }

  lemma DivModUnique(x: int, d: int, q: int, r: int)
    requires d > 0 && 0 <= r < d && x == q * d + r
    ensures x / d == q && x % d == r
  {
    var q', r' := x / d, x % d;
    assert (q - q') * d == r' - r;
    if q' < q {
      MulAtLeast(q - q', d);
    } else if q < q' {
      MulAtLeast(q' - q, d);
    }
  }

  lemma MulAtLeast(a: int, d: int)
    requires a >= 1 && d > 0
    ensures a * d >= d
  {
  }

  /** How the divisions in `WallFromMicros` take a valid wall clock's
      microsecond count apart again. */
  lemma WallMicrosParts(w: Wall)
    requires ValidWall(w)
    ensures WallMicros(w) / MicrosPerDay + EpochOrdinal == Ordinal(w.year, w.month, w.day)
    ensures WallMicros(w) % MicrosPerDay / MicrosPerSecond / 3600 == w.hour
    ensures WallMicros(w) % MicrosPerDay / MicrosPerSecond % 3600 / 60 == w.minute
    ensures WallMicros(w) % MicrosPerDay / MicrosPerSecond % 60 == w.second
    ensures WallMicros(w) % MicrosPerDay % MicrosPerSecond == w.micro
  {
    var us := WallMicros(w);
    var days := Ordinal(w.year, w.month, w.day) - EpochOrdinal;
    var secs := w.hour * 3600 + w.minute * 60 + w.second;
    var rem := secs * MicrosPerSecond + w.micro;
    assert us == days * MicrosPerDay + rem;
    DivModUnique(us, MicrosPerDay, days, rem);
    DivModUnique(rem, MicrosPerSecond, secs, w.micro);
    DivModUnique(secs, 3600, w.hour, w.minute * 60 + w.second);
    DivModUnique(w.minute * 60 + w.second, 60, w.minute, w.second);
    DivModUnique(secs, 60, w.hour * 60 + w.minute, w.second);
  }

  /** Converting a valid wall clock to microseconds and back is the identity. */
  lemma WallFromMicrosOfWallMicros(w: Wall)
    requires ValidWall(w)
    ensures WallFromMicros(WallMicros(w)) == Some(w)
  {
    WallMicrosRange(w);
    var r := WallFromMicros(WallMicros(w)).value;
    WallMicrosParts(w);
    WallMicrosParts(r);
    FromOrdinalOfOrdinal(w.year, w.month, w.day);
    FromOrdinalOfOrdinal(r.year, r.month, r.day);
  }

  /** A `datetime`: wall clock plus `tzinfo` as a fixed UTC offset in seconds (None = naive). */
  datatype DateTime = DateTime(wall: Wall, tz: Option<int>)

  /** `timezone` accepts offsets strictly inside one day. */
  predicate ValidOffset(o: int) {
    -86400 < o < 86400
  }

  predicate ValidDateTime(dt: DateTime) {
    ValidWall(dt.wall) && (dt.tz.Some? ==> ValidOffset(dt.tz.value))
  }

  type DateTimeValue = dt: DateTime | ValidDateTime(dt)
    witness DateTime(Wall(1970, 1, 1, 0, 0, 0, 0), None)

  /** A timezone-aware `datetime`. */
  type Aware = dt: DateTime | ValidDateTime(dt) && dt.tz.Some?
    witness DateTime(Wall(1970, 1, 1, 0, 0, 0, 0), Some(0))

  /** `dt.timestamp()` in microseconds. */
  function Instant(dt: Aware): int {
    WallMicros(dt.wall) - dt.tz.value * MicrosPerSecond
  }

  /** The instant `us` shown in the zone of `offset` (`astimezone`), or None when
      the local wall clock leaves years 1..9999 (Python raises OverflowError). */
  function AtOffset(us: int, offset: int): (r: Option<Aware>)
    requires ValidOffset(offset)
    ensures r.Some? <==> MinMicros <= us + offset * MicrosPerSecond <= MaxMicros
    ensures r.Some? ==> Instant(r.value) == us && r.value.tz == Some(offset)
  {
    match WallFromMicros(us + offset * MicrosPerSecond)
    case None => None
    case Some(w) => Some(DateTime(w, Some(offset)))
  }

  /** Re-expressing an aware value in its own offset changes nothing. */
  lemma AtOwnOffset(dt: Aware)
    ensures AtOffset(Instant(dt), dt.tz.value) == Some(dt)
  {
    assert Instant(dt) + dt.tz.value * MicrosPerSecond == WallMicros(dt.wall);
    WallFromMicrosOfWallMicros(dt.wall);
  }

  lemma Pow10Values()
    ensures Text.Pow10(2) == 100 && Text.Pow10(3) == 1000 && Text.Pow10(4) == 10000
  {
    assert Text.Pow10(1) == 10;
  }

  /** `dt.strftime("%Y%m%d%H%M%S") + f"{dt.microsecond // 1000:03d}"`. */
  function Token(dt: DateTimeValue): (r: string)
    ensures |r| == 17 && Text.AllDigits(r)
  {
    var w := dt.wall;
    var date, time := DateDigits(w), Text.Pad2(w.hour) + Text.Pad2(w.minute) + Text.Pad2(w.second);
    var millis := Text.Pad3(w.micro / 1000);
    Text.DecimalValueConcat(date, time);
    Text.DecimalValueConcat(date + time, millis);
    date + time + millis
  }


  /** `strftime("%Y%m%d")`. */
  function DateDigits(w: Wall): (r: string)
    requires ValidWall(w)
    ensures |r| == 8 && Text.AllDigits(r)
  {
    Text.DecimalValueConcat(Text.Pad4(w.year), Text.Pad2(w.month));
    Text.DecimalValueConcat(Text.Pad4(w.year) + Text.Pad2(w.month), Text.Pad2(w.day));
    Text.Pad4(w.year) + Text.Pad2(w.month) + Text.Pad2(w.day)
  }
}

=== FILE: candidates.dfy ===
/** Time candidates and the three-stage comparator that ranks them
    (`infer_path_precision`, `_precision_digits`, `_has_prefix_relation`,
    `_compare_candidate`, `choose_most_likely`, `sort_candidates`). */
module Candidates {
  import opened Wrappers
  import opened Calendar
  import Text
  import Order

  /** One proposal for the capture time. `timestamp` is always timezone-aware;
      `originSource` is the back-reference an aggregated candidate keeps. */
  datatype TimeCandidate = TimeCandidate(source: string, timestamp: Aware, note: string, originSource: Option<string>)

  /** The dataclass `==` that `list.index` uses: field by field, with aware
      datetimes equal when they denote the same instant. */
  predicate CandEq(a: TimeCandidate, b: TimeCandidate) {
    a.source == b.source && Instant(a.timestamp) == Instant(b.timestamp)
    && a.note == b.note && a.originSource == b.originSource
  }

  datatype Precision = YearPrecision | MonthPrecision | DatePrecision | DatetimePrecision

  /** The precision a `path:` label promises, read from its pattern name. */
  function InferPathPrecision(source: string): (r: Option<Precision>)
    ensures !Text.StartsWith(source, "path:") ==> r == None
    ensures r == Some(DatetimePrecision) <==>
              Text.StartsWith(source, "path:")
              && (Text.Contains(source, "YYYYMMDD_HHMMSS") || Text.Contains(source, "YYYY-MM-DD HH:MM:SS"))
  {
    if !Text.StartsWith(source, "path:") then None
    else if Text.Contains(source, "YYYYMMDD_HHMMSS") || Text.Contains(source, "YYYY-MM-DD HH:MM:SS") then
      Some(DatetimePrecision)
    else if Text.Contains(source, ".YYYYMMDD.") || Text.Contains(source, ".YYYY-MM-DD.") || Text.EndsWith(source, ":YYYYMMDD") then
      Some(DatePrecision)
    else if Text.Contains(source, ".YYYYMM.") || Text.Contains(source, ".YYYY-MM.") || Text.EndsWith(source, ":YYYYMM") then
      Some(MonthPrecision)
    else if Text.Contains(source, ".YYYY.") || Text.EndsWith(source, ":YYYY") then
      Some(YearPrecision)
    else None
  }

  /** `origin_source or source`: an empty back-reference counts as absent. */
  function CandidateFrom(c: TimeCandidate): (r: string)
    ensures r == c.source || Some(r) == c.originSource
  {
    if c.originSource.Some? && c.originSource.value != "" then c.originSource.value else c.source
  }

  /** How many leading digits of the 17-digit token the candidate vouches for. */
  function PrecisionDigits(c: TimeCandidate): (r: nat)
    ensures r in {4, 6, 8, 17}
    ensures !Text.StartsWith(CandidateFrom(c), "path:") ==> r == 17
  {
    match InferPathPrecision(CandidateFrom(c))
    case Some(YearPrecision) => 4
    case Some(MonthPrecision) => 6
    case Some(DatePrecision) => 8
    case _ => 17
  }

  function PrecisionToken(c: TimeCandidate): (r: string)
    ensures |r| == PrecisionDigits(c)
    ensures Text.StartsWith(Token(c.timestamp), r)
  {
    Token(c.timestamp)[..PrecisionDigits(c)]
  }

  /** The two truncated tokens agree on their common length. */
  predicate HasPrefixRelation(a: TimeCandidate, b: TimeCandidate) {
    var ta := PrecisionToken(a);
    var tb := PrecisionToken(b);
    if |ta| == |tb| then ta == tb
    else if |ta| < |tb| then Text.StartsWith(tb, ta)
    else Text.StartsWith(ta, tb)
  }

  lemma HasPrefixRelationSymmetric(a: TimeCandidate, b: TimeCandidate)
    ensures HasPrefixRelation(a, b) <==> HasPrefixRelation(b, a)
  {
  }

  /** `_compare_candidate`: negative when `a` ranks before `b`. */
  function Compare(a: TimeCandidate, b: TimeCandidate): (r: int)
    ensures r in {-1, 0, 1}
  {
    var da := PrecisionDigits(a);
    var db := PrecisionDigits(b);
    if HasPrefixRelation(a, b) && da != db then (if da > db then -1 else 1)
    else if Instant(a.timestamp) < Instant(b.timestamp) then -1
    else if Instant(a.timestamp) > Instant(b.timestamp) then 1
    else if da != db then (if da > db then -1 else 1)
    else if Order.StrLt(CandidateFrom(a), CandidateFrom(b)) then -1
    else if Order.StrLt(CandidateFrom(b), CandidateFrom(a)) then 1
    else 0
  }

  /** The `<` that `sorted(key=cmp_to_key(_compare_candidate))` uses. */
  predicate Lt(a: TimeCandidate, b: TimeCandidate) {
    Compare(a, b) < 0
  }

  // ---------------------------------------------------------------------------
  // What the truncated tokens mean.

  /** Two wall clocks agree on the calendar fields a `digits`-long token covers. */
  predicate SamePeriod(v: Wall, w: Wall, digits: nat) {
    && v.year == w.year
    && (digits >= 6 ==> v.month == w.month)
    && (digits >= 8 ==> v.day == w.day)
    && (digits >= 17 ==> v.hour == w.hour && v.minute == w.minute && v.second == w.second
                          && v.micro / 1000 == w.micro / 1000)
  }

  lemma TokenPieces(dt: DateTimeValue)
    ensures Token(dt)[0..4] == Text.Pad4(dt.wall.year)
    ensures Token(dt)[4..6] == Text.Pad2(dt.wall.month)
    ensures Token(dt)[6..8] == Text.Pad2(dt.wall.day)
    ensures Token(dt)[8..10] == Text.Pad2(dt.wall.hour)
    ensures Token(dt)[10..12] == Text.Pad2(dt.wall.minute)
    ensures Token(dt)[12..14] == Text.Pad2(dt.wall.second)
    ensures Token(dt)[14..17] == Text.Pad3(dt.wall.micro / 1000)
  {
    var w := dt.wall;
    var t := Token(dt);
    assert t == Text.Pad4(w.year) + Text.Pad2(w.month) + Text.Pad2(w.day) + Text.Pad2(w.hour)
              + Text.Pad2(w.minute) + Text.Pad2(w.second) + Text.Pad3(w.micro / 1000);
  }

  /** A fixed-width spelling determines the number. */
  lemma PadInjective(a: string, b: string, x: nat, y: nat)
    requires Text.AllDigits(a) && Text.AllDigits(b)
    requires Text.DecimalValue(a) == x && Text.DecimalValue(b) == y
    ensures a == b ==> x == y
  {
  }

  /** Equal token prefixes at a precision boundary are equal calendar periods. */
  lemma TokenPrefixEq(v: DateTimeValue, w: DateTimeValue, k: nat)
    requires k in {4, 6, 8, 17}
    ensures Token(v)[..k] == Token(w)[..k] <==> SamePeriod(v.wall, w.wall, k)
  {
    TokenPieces(v);
    TokenPieces(w);
    if Token(v)[..k] == Token(w)[..k] {
      TokenPrefixPeriod(v, w, k);
    }
    if SamePeriod(v.wall, w.wall, k) {
      PeriodTokenPrefix(v, w, k);
    }
  }

  lemma TokenPrefixPeriod(v: DateTimeValue, w: DateTimeValue, k: nat)
    requires k in {4, 6, 8, 17}
    requires Token(v)[..k] == Token(w)[..k]
    ensures SamePeriod(v.wall, w.wall, k)
  {
    var tv, tw := Token(v), Token(w);
    TokenPieces(v);
    TokenPieces(w);
    assert tv[0..4] == tv[..k][0..4] && tw[0..4] == tw[..k][0..4];
    PadInjective(tv[0..4], tw[0..4], v.wall.year, w.wall.year);
    if k >= 6 {
      assert tv[4..6] == tv[..k][4..6] && tw[4..6] == tw[..k][4..6];
      PadInjective(tv[4..6], tw[4..6], v.wall.month, w.wall.month);
    }
    if k >= 8 {
      assert tv[6..8] == tv[..k][6..8] && tw[6..8] == tw[..k][6..8];
      PadInjective(tv[6..8], tw[6..8], v.wall.day, w.wall.day);
    }
    if k == 17 {
      assert tv == tv[..k] && tw == tw[..k];
      PadInjective(tv[8..10], tw[8..10], v.wall.hour, w.wall.hour);
      PadInjective(tv[10..12], tw[10..12], v.wall.minute, w.wall.minute);
      PadInjective(tv[12..14], tw[12..14], v.wall.second, w.wall.second);
      PadInjective(tv[14..17], tw[14..17], v.wall.micro / 1000, w.wall.micro / 1000);
    }
  }

  lemma PeriodTokenPrefix(v: DateTimeValue, w: DateTimeValue, k: nat)
    requires k in {4, 6, 8, 17}
    requires SamePeriod(v.wall, w.wall, k)
    ensures Token(v)[..k] == Token(w)[..k]
  {
    var tv, tw := Token(v), Token(w);
    TokenPieces(v);
    TokenPieces(w);
    forall i | 0 <= i < k
      ensures tv[i] == tw[i]
    {
      if i < 4 { assert tv[i] == tv[0..4][i] && tw[i] == tw[0..4][i]; }
      else if i < 6 { assert tv[i] == tv[4..6][i - 4] && tw[i] == tw[4..6][i - 4]; }
      else if i < 8 { assert tv[i] == tv[6..8][i - 6] && tw[i] == tw[6..8][i - 6]; }
      else if i < 10 { assert tv[i] == tv[8..10][i - 8] && tw[i] == tw[8..10][i - 8]; }
      else if i < 12 { assert tv[i] == tv[10..12][i - 10] && tw[i] == tw[10..12][i - 10]; }
      else if i < 14 { assert tv[i] == tv[12..14][i - 12] && tw[i] == tw[12..14][i - 12]; }
      else { assert tv[i] == tv[14..17][i - 14] && tw[i] == tw[14..17][i - 14]; }
    }
  }

  /** Two candidates are prefix-related exactly when their wall clocks fall in the
      same period at the coarser of their two precisions. */
  lemma PrefixRelationMeansSamePeriod(a: TimeCandidate, b: TimeCandidate)
    ensures var k := if PrecisionDigits(a) <= PrecisionDigits(b) then PrecisionDigits(a) else PrecisionDigits(b);
            HasPrefixRelation(a, b) <==> SamePeriod(a.timestamp.wall, b.timestamp.wall, k)
  {
    var da, db := PrecisionDigits(a), PrecisionDigits(b);
    var k := if da <= db then da else db;
    CommonPrefix(Token(a.timestamp), Token(b.timestamp), da, db);
    TokenPrefixEq(a.timestamp, b.timestamp, k);
  }

  /** Truncations of `x` and `y` are prefix-related exactly when `x` and `y`
      agree up to the shorter truncation. */
  lemma CommonPrefix(x: string, y: string, da: nat, db: nat)
    requires da <= |x| && db <= |y|
    ensures var k := if da <= db then da else db;
            var ta, tb := x[..da], y[..db];
            (if |ta| == |tb| then ta == tb
             else if |ta| < |tb| then Text.StartsWith(tb, ta)
             else Text.StartsWith(ta, tb))
            <==> x[..k] == y[..k]
  {
    var k := if da <= db then da else db;
    assert x[..da][..k] == x[..k] && y[..db][..k] == y[..k];
  }

  // ---------------------------------------------------------------------------
  // Comparator laws.

  lemma CompareReflexive(a: TimeCandidate)
    ensures Compare(a, a) == 0
  {
    Order.StrLtIrreflexive(CandidateFrom(a));
  }

  lemma CompareAntisymmetric(a: TimeCandidate, b: TimeCandidate)
    ensures Compare(a, b) == -Compare(b, a)
  {
    HasPrefixRelationSymmetric(a, b);
    Order.StrLtTotal(CandidateFrom(a), CandidateFrom(b));
  }

  /** A tie means the same instant, the same precision and the same label. */
  lemma CompareZeroIff(a: TimeCandidate, b: TimeCandidate)
    ensures Compare(a, b) == 0 <==>
              Instant(a.timestamp) == Instant(b.timestamp)
              && PrecisionDigits(a) == PrecisionDigits(b)
              && CandidateFrom(a) == CandidateFrom(b)
  {
    Order.StrLtTotal(CandidateFrom(a), CandidateFrom(b));
    Order.StrLtIrreflexive(CandidateFrom(a));
  }

  /** A finer candidate whose token extends the coarser one's wins, whatever the instants. */
  lemma FinerWins(a: TimeCandidate, b: TimeCandidate)
    requires SamePeriod(a.timestamp.wall, b.timestamp.wall, PrecisionDigits(b))
    requires PrecisionDigits(a) > PrecisionDigits(b)
    ensures Lt(a, b) && !Lt(b, a)
  {
    PrefixRelationMeansSamePeriod(a, b);
    CompareAntisymmetric(a, b);
  }

  /** Between candidates of one precision the comparator is the lexicographic
      order on (instant, label). */
  lemma SamePrecisionLt(a: TimeCandidate, b: TimeCandidate)
    requires PrecisionDigits(a) == PrecisionDigits(b)
    ensures Lt(a, b) <==>
              Instant(a.timestamp) < Instant(b.timestamp)
              || (Instant(a.timestamp) == Instant(b.timestamp) && Order.StrLt(CandidateFrom(a), CandidateFrom(b)))
  {
    Order.StrLtTotal(CandidateFrom(a), CandidateFrom(b));
  }

  /** The second stage of the comparator, for pairs the first stage leaves
      alone (not prefix-related, or of one precision): the earlier instant
      ranks first; on one instant more digits, then the smaller label. */
  lemma EarlierWins(a: TimeCandidate, b: TimeCandidate)
    ensures !HasPrefixRelation(a, b) || PrecisionDigits(a) == PrecisionDigits(b) ==>
              (Lt(a, b) <==>
                 || Instant(a.timestamp) < Instant(b.timestamp)
                 || (Instant(a.timestamp) == Instant(b.timestamp) && PrecisionDigits(a) > PrecisionDigits(b))
                 || (Instant(a.timestamp) == Instant(b.timestamp) && PrecisionDigits(a) == PrecisionDigits(b)
                     && Order.StrLt(CandidateFrom(a), CandidateFrom(b))))
  {
  }

  /** All candidates share one precision. */
  ghost predicate UniformPrecision(cs: seq<TimeCandidate>) {
    forall a, b :: a in cs && b in cs ==> PrecisionDigits(a) == PrecisionDigits(b)
  }

  /** On candidates of one precision the comparator is a strict order. */
  lemma UniformPrecisionStrict(cs: seq<TimeCandidate>)
    requires UniformPrecision(cs)
    ensures Order.StrictOn(cs, Lt)
  {
    forall a | a in cs
      ensures !Lt(a, a)
    {
      CompareReflexive(a);
    }
    forall a, b, c | a in cs && b in cs && c in cs && Lt(a, b) && Lt(b, c)
      ensures Lt(a, c)
    {
      SamePrecisionLt(a, b);
      SamePrecisionLt(b, c);
      SamePrecisionLt(a, c);
      if Order.StrLt(CandidateFrom(a), CandidateFrom(b)) && Order.StrLt(CandidateFrom(b), CandidateFrom(c)) {
        Order.StrLtTransitive(CandidateFrom(a), CandidateFrom(b), CandidateFrom(c));
      }
    }
  }

  // ---------------------------------------------------------------------------
  // Ranking lists.

  /** `sort_candidates`. */
  function SortCandidates(cs: seq<TimeCandidate>): (r: seq<TimeCandidate>)
    ensures multiset(r) == multiset(cs)
  {
    Order.SortBy(cs, Lt)
  }

  /** `choose_most_likely`: the first of the ranking; None where Python raises
      on an empty list. */
  function ChooseMostLikely(cs: seq<TimeCandidate>): (r: Option<TimeCandidate>)
    ensures r.None? <==> |cs| == 0
    ensures r.Some? ==> r.value in cs
  {
    if |cs| == 0 then None
    else
      var ranked := SortCandidates(cs);
      assert ranked[0] in multiset(cs);
      Some(ranked[0])
  }

  /** Of two candidates the second is chosen exactly when it ranks strictly
      before the first: the sort is stable. */
  lemma ChooseOfPair(x: TimeCandidate, y: TimeCandidate)
    ensures ChooseMostLikely([x, y]) == Some(if Lt(y, x) then y else x)
  {
    assert [x, y][..1] == [x];
    assert Order.SortBy([x], Lt) == [x] by {
      assert [x][..0] == [];
    }
  }

  /** Sorting candidates of one precision orders them by (instant, label). */
  lemma SortCandidatesSorted(cs: seq<TimeCandidate>)
    requires UniformPrecision(cs)
    ensures Order.SortedBy(SortCandidates(cs), Lt)
  {
    UniformPrecisionStrict(cs);
    Order.SortBySorted(cs, Lt);
  }

  /** Among candidates of one precision the choice is never outranked: it has
      the earliest instant, and the smallest label among those at that instant. */
  lemma ChooseMostLikelyEarliest(cs: seq<TimeCandidate>)
    requires |cs| > 0 && UniformPrecision(cs)
    ensures forall c :: c in cs ==> !Lt(c, ChooseMostLikely(cs).value)
    ensures forall c :: c in cs ==> Instant(ChooseMostLikely(cs).value.timestamp) <= Instant(c.timestamp)
  {
    var ranked := SortCandidates(cs);
    SortCandidatesSorted(cs);
    forall c | c in cs
      ensures !Lt(c, ranked[0]) && Instant(ranked[0].timestamp) <= Instant(c.timestamp)
    {
      assert c in multiset(ranked);
      var j :| 0 <= j < |ranked| && ranked[j] == c;
      if j > 0 {
        assert !Lt(ranked[j], ranked[0]);
      } else {
        CompareReflexive(c);
      }
      assert ranked[0] in multiset(cs);
      SamePrecisionLt(c, ranked[0]);
    }
  }

  /** Candidates that do not come from a path pattern all carry full precision,
      so among them the choice is the earliest. */
  lemma ChooseMostLikelyNonPath(cs: seq<TimeCandidate>)
    requires |cs| > 0
    requires forall c :: c in cs ==> !Text.StartsWith(CandidateFrom(c), "path:")
    ensures forall c :: c in cs ==> Instant(ChooseMostLikely(cs).value.timestamp) <= Instant(c.timestamp)
  {
    ChooseMostLikelyEarliest(cs);
  }
}

=== FILE: datetime_utils.dfy ===
/** The timestamp normaliser (`parse_datetime`, `with_local_timezone_if_naive`).
    The process-local UTC offset is the parameter `local` (seconds); Python's full
    `datetime.fromisoformat` grammar is the opaque parameter `iso`. */
module DatetimeUtils {
  import opened Wrappers
  import opened Calendar
  import opened Json
  import Text

  /** `datetime.fromisoformat`: a partial parser whose grammar is not modelled. */
  type IsoParser = string -> Option<DateTimeValue>

  /** Positions of the digits in the fixed-width EXIF form `YYYY:MM:DD HH:MM:SS`. */
  predicate ExifShape(p: string) {
    && |p| == 19
    && p[4] == ':' && p[7] == ':' && p[10] == ' ' && p[13] == ':' && p[16] == ':'
    && Text.AllDigits(p[0..4]) && Text.AllDigits(p[5..7]) && Text.AllDigits(p[8..10])
    && Text.AllDigits(p[11..13]) && Text.AllDigits(p[14..16]) && Text.AllDigits(p[17..19])
  }

  /** `datetime.strptime(p, "%Y:%m:%d %H:%M:%S")` on a fixed-width prefix; None where
      Python raises ValueError (wrong shape, or a field outside the calendar). */
  function ExifPrefix(p: string): (r: Option<Wall>)
    ensures r.Some? ==> ValidWall(r.value) && r.value.micro == 0 && |p| == 19
  {
    if !ExifShape(p) then None
    else
      var w := Wall(Text.DecimalValue(p[0..4]), Text.DecimalValue(p[5..7]), Text.DecimalValue(p[8..10]),
                    Text.DecimalValue(p[11..13]), Text.DecimalValue(p[14..16]), Text.DecimalValue(p[17..19]), 0);
      if ValidWall(w) then Some(w) else None
  }

  /** The UTC offset of a `+HH:MM`/`-HH:MM` suffix as `fromisoformat` reads it; None
      where it raises ValueError (wrong shape, or not strictly inside one day). */
  function OffsetSuffix(t: string): (r: Option<int>)
    ensures r.Some? ==> ValidOffset(r.value)
  {
    if |t| == 6 && (t[0] == '+' || t[0] == '-') && t[3] == ':'
       && Text.AllDigits(t[1..3]) && Text.AllDigits(t[4..6]) then
      var magnitude := Text.DecimalValue(t[1..3]) * 3600 + Text.DecimalValue(t[4..6]) * 60;
      var offset := if t[0] == '-' then -magnitude else magnitude;
      if ValidOffset(offset) then Some(offset) else None
    else None
  }

  /** `text.replace("Z", "+00:00")`. */
  function ReplaceZ(text: string): (r: string)
    ensures 'Z' !in r
  {
    if |text| == 0 then ""
    else ZPiece(text[0]) + ReplaceZ(text[1..])
  }

  /** A text without `Z` is left as it is. */
  lemma {:induction false} ReplaceZIdentity(text: string)
    requires 'Z' !in text
    ensures ReplaceZ(text) == text
  {
    if |text| > 0 {
      assert text[0] in text;
      assert forall c :: c in text[1..] ==> c in text;
      ReplaceZIdentity(text[1..]);
      assert text == [text[0]] + text[1..];
    }
  }

  /** What one character becomes. */
  function ZPiece(c: char): (r: string)
    ensures c != 'Z' ==> r == [c]
    ensures 'Z' !in r
  {
    if c == 'Z' then "+00:00" else [c]
  }

  /** Replacing works piece by piece. */
  lemma {:induction false} ReplaceZConcat(a: string, b: string)
    ensures ReplaceZ(a + b) == ReplaceZ(a) + ReplaceZ(b)
  {
    if |a| > 0 {
      assert (a + b)[0] == a[0] && (a + b)[1..] == a[1..] + b;
      ReplaceZConcat(a[1..], b);
    } else {
      assert a + b == b;
    }
  }

  /** Each `Z` becomes `+00:00` and the text around it is replaced on its own;
      with `ReplaceZ`'s identity on `Z`-free text this pins down every result. */
  lemma ReplaceZAround(a: string, b: string)
    ensures ReplaceZ(a + "Z" + b) == ReplaceZ(a) + "+00:00" + ReplaceZ(b)
  {
    ReplaceZConcat(a + "Z", b);
    ReplaceZConcat(a, "Z");
    assert ReplaceZ("Z") == "+00:00" by {
      assert "Z"[1..] == "";
    }
  }

  /** `text.strip().replace("\x00", "")`. */
  function CleanText(s: string): string {
    Text.RemoveChar(Text.Strip(s), '\U{0}')
  }

  /** `text[19:].strip().replace(" ", "")`. */
  function CleanSuffix(text: string): string
    requires |text| >= 19
  {
    Text.RemoveChar(Text.Strip(text[19..]), ' ')
  }

  /** Epoch seconds read as UTC, then shown in the local zone; None where Python
      raises (the UTC or the local wall clock leaves years 1..9999). */
  function FromEpochSeconds(seconds: int, local: int): (r: Option<DateTimeValue>)
    requires ValidOffset(local)
    ensures r.Some? <==> MinMicros <= seconds * MicrosPerSecond <= MaxMicros
                         && MinMicros <= seconds * MicrosPerSecond + local * MicrosPerSecond <= MaxMicros
    ensures r.Some? ==> r.value.tz == Some(local) && Instant(r.value) == seconds * MicrosPerSecond
  {
    var us := seconds * MicrosPerSecond;
    if WallFromMicros(us).None? then None
    else
      match AtOffset(us, local)
      case None => None
      case Some(a) => Some(a)
  }

  /** A remainder that `parse_datetime` hands to `fromisoformat` as an offset:
      a sign and five or six characters in all. */
  predicate SignedOffsetShape(suffix: string) {
    (|suffix| == 5 || |suffix| == 6) && (suffix[0] == '+' || suffix[0] == '-')
  }

  /** `f"{suffix[:3]}:{suffix[3:]}"` for the five-character form; the
      six-character form is used as it is. */
  function WidenOffset(suffix: string): (r: string)
    requires |suffix| == 5 || |suffix| == 6
    ensures |r| == 6 && r[..3] == suffix[..3] && r[4..] == suffix[|suffix| - 2..]
    ensures |suffix| == 5 ==> r[3] == ':'
    ensures |suffix| == 6 ==> r == suffix
  {
    if |suffix| == 5 then suffix[..3] + ":" + suffix[3..] else suffix
  }

  /** How the remainder after a valid EXIF prefix is read: `Z` is UTC, a signed
      5- or 6-character offset goes through `fromisoformat` (falling back to the
      ISO parser on error), anything else leaves the prefix naive. */
  function ReadSuffix(w: Wall, suffix: string, text: string, iso: IsoParser): (r: Option<DateTimeValue>)
    requires ValidWall(w)
    ensures suffix == "Z" ==> r == Some(DateTime(w, Some(0)))
    ensures suffix != "Z" && !SignedOffsetShape(suffix) ==> r == Some(DateTime(w, None))
    ensures SignedOffsetShape(suffix) && OffsetSuffix(WidenOffset(suffix)).Some? ==>
              r == Some(DateTime(w, OffsetSuffix(WidenOffset(suffix))))
    ensures SignedOffsetShape(suffix) && OffsetSuffix(WidenOffset(suffix)).None? ==> r == iso(ReplaceZ(text))
  {
    if suffix == "Z" then Some(DateTime(w, Some(0)))
    else if SignedOffsetShape(suffix) then
      var tz := WidenOffset(suffix);
      match OffsetSuffix(tz)
      case Some(o) => Some(DateTime(w, Some(o)))
      case None => iso(ReplaceZ(text))
    else Some(DateTime(w, None))
  }

  /** `text[:19]`. */
  function Head19(text: string): (r: string)
    ensures |r| == if |text| <= 19 then |text| else 19
    ensures r == text[..|r|]
  {
    if |text| <= 19 then text else text[..19]
  }

  /** The string branch of `parse_datetime`. */
  function ParseText(s: string, iso: IsoParser): (r: Option<DateTimeValue>)
    ensures CleanText(s) == "" ==> r == None
    ensures CleanText(s) != "" && ExifPrefix(Head19(CleanText(s))).None? ==> r == iso(ReplaceZ(CleanText(s)))
    ensures ExifPrefix(Head19(CleanText(s))).Some? ==>
              |CleanText(s)| >= 19
              && r == ReadSuffix(ExifPrefix(Head19(CleanText(s))).value, CleanSuffix(CleanText(s)), CleanText(s), iso)
  {
    var text := CleanText(s);
    if text == "" then None
    else
      var prefix := Head19(text);
      match ExifPrefix(prefix)
      case None => iso(ReplaceZ(text))
      case Some(w) => ReadSuffix(w, CleanSuffix(text), text, iso)
  }

  /** A cleaned text starting with a valid EXIF prefix is read by its suffix. */
  lemma ParseTextOfPrefix(text: string, w: Wall, iso: IsoParser)
    requires CleanText(text) == text && |text| >= 19 && ExifPrefix(text[..19]) == Some(w)
    ensures ParseText(text, iso) == ReadSuffix(w, CleanSuffix(text), text, iso)
  {
    assert text != "";
    if |text| == 19 {
      assert text[..19] == text;
    }
  }

  /** Cleaning leaves alone a text without NULs and without surrounding whitespace. */
  lemma CleanTextUnchanged(text: string)
    requires '\U{0}' !in text
    requires |text| > 0 ==> !Text.IsSpace(text[0]) && !Text.IsSpace(text[|text| - 1])
    ensures CleanText(text) == text
  {
    Text.StripUnchanged(text);
    Text.RemoveAbsent(text, '\U{0}');
  }

  /** `parse_datetime(value)`: numbers (Python `bool` is an `int`) are epoch
      seconds, strings are parsed, anything else gives None. */
  function ParseDatetime(value: Json, local: int, iso: IsoParser): (r: Option<DateTimeValue>)
    requires ValidOffset(local)
    ensures !(value.JInt? || value.JBool? || value.JStr?) ==> r == None
    ensures value.JInt? ==> r == FromEpochSeconds(value.i, local)
    ensures value.JBool? ==> r == FromEpochSeconds(if value.b then 1 else 0, local)
    ensures value.JStr? ==> r == ParseText(value.s, iso)
  {
    match value
    case JInt(i) => FromEpochSeconds(i, local)
    case JBool(b) => FromEpochSeconds(if b then 1 else 0, local)
    case JStr(s) => ParseText(s, iso)
    case _ => None
  }

  /** `with_local_timezone_if_naive`: aware values unchanged, naive ones keep their
      wall clock and gain the local offset. */
  function WithLocalTimezoneIfNaive(dt: DateTimeValue, local: int): (r: Aware)
    requires ValidOffset(local)
    ensures r.wall == dt.wall
    ensures dt.tz.Some? ==> r == dt
    ensures dt.tz.None? ==> r.tz == Some(local)
  {
    if dt.tz.Some? then dt else DateTime(dt.wall, Some(local))
  }

  lemma WithLocalTimezoneIdempotent(dt: DateTimeValue, local: int)
    requires ValidOffset(local)
    ensures WithLocalTimezoneIfNaive(WithLocalTimezoneIfNaive(dt, local), local)
         == WithLocalTimezoneIfNaive(dt, local)
  {
  }

  // ---------------------------------------------------------------------------
  // Round trips through the EXIF form.

  /** The fixed-width EXIF spelling `YYYY:MM:DD HH:MM:SS` of a wall clock. */
  function FormatExif(w: Wall): (r: string)
    requires ValidWall(w)
    ensures |r| == 19
  {
    Text.Pad4(w.year) + ":" + Text.Pad2(w.month) + ":" + Text.Pad2(w.day) + " "
      + Text.Pad2(w.hour) + ":" + Text.Pad2(w.minute) + ":" + Text.Pad2(w.second)
  }

  /** The UTC offset, in seconds, written `+HH:MM` (or `-HH:MM` when `negative`). */
  function OffsetSeconds(negative: bool, hh: nat, mm: nat): int {
    if negative then -(hh * 3600 + mm * 60) else hh * 3600 + mm * 60
  }

  /** The `+HH:MM` / `-HH:MM` spelling of a UTC offset. */
  function FormatOffset(negative: bool, hh: nat, mm: nat): (r: string)
    requires hh < 24 && mm < 60
    ensures |r| == 6
  {
    (if negative then "-" else "+") + Text.Pad2(hh) + ":" + Text.Pad2(mm)
  }

  /** The `+HHMM` / `-HHMM` spelling of a UTC offset. */
  function CompactOffset(negative: bool, hh: nat, mm: nat): (r: string)
    requires hh < 24 && mm < 60
    ensures |r| == 5
  {
    (if negative then "-" else "+") + Text.Pad2(hh) + Text.Pad2(mm)
  }

  /** The EXIF prefix parser reads back exactly what the formatter writes. */
  lemma ExifPrefixOfFormat(w: Wall)
    requires ValidWall(w) && w.micro == 0
    ensures ExifPrefix(FormatExif(w)) == Some(w)
  {
    var y, mo, d := Text.Pad4(w.year), Text.Pad2(w.month), Text.Pad2(w.day);
    var h, mi, se := Text.Pad2(w.hour), Text.Pad2(w.minute), Text.Pad2(w.second);
    ExifLayout(y, mo, d, h, mi, se);
    assert ExifShape(FormatExif(w));
  }

  /** Where the six fields and the five separators of an EXIF stamp sit. */
  lemma ExifLayout(y: string, mo: string, d: string, h: string, mi: string, se: string)
    requires |y| == 4 && |mo| == 2 && |d| == 2 && |h| == 2 && |mi| == 2 && |se| == 2
    ensures var p := y + ":" + mo + ":" + d + " " + h + ":" + mi + ":" + se;
            && |p| == 19
            && p[4] == ':' && p[7] == ':' && p[10] == ' ' && p[13] == ':' && p[16] == ':'
            && p[0..4] == y && p[5..7] == mo && p[8..10] == d
            && p[11..13] == h && p[14..16] == mi && p[17..19] == se
  {
    var p := y + ":" + mo + ":" + d + " " + h + ":" + mi + ":" + se;
    assert p[0..4] == y && p[5..7] == mo && p[8..10] == d;
    assert p[11..13] == h && p[14..16] == mi && p[17..19] == se;
  }

  /** The offset parser reads back exactly what the offset formatter writes. */
  lemma OffsetSuffixOfFormat(negative: bool, hh: nat, mm: nat)
    requires hh < 24 && mm < 60
    ensures OffsetSuffix(FormatOffset(negative, hh, mm)) == Some(OffsetSeconds(negative, hh, mm))
  {
    var t := FormatOffset(negative, hh, mm);
    assert t[1..3] == Text.Pad2(hh) && t[4..6] == Text.Pad2(mm);
  }

  lemma FormatExifClean(w: Wall)
    requires ValidWall(w)
    ensures '\U{0}' !in FormatExif(w)
    ensures |FormatExif(w)| > 0 && !Text.IsSpace(FormatExif(w)[0]) && !Text.IsSpace(FormatExif(w)[18])
  {
    var y, mo, d := Text.Pad4(w.year), Text.Pad2(w.month), Text.Pad2(w.day);
    var h, mi, se := Text.Pad2(w.hour), Text.Pad2(w.minute), Text.Pad2(w.second);
    Text.DigitsLackChar(y, '\U{0}'); Text.DigitsLackChar(mo, '\U{0}'); Text.DigitsLackChar(d, '\U{0}');
    Text.DigitsLackChar(h, '\U{0}'); Text.DigitsLackChar(mi, '\U{0}'); Text.DigitsLackChar(se, '\U{0}');
    assert FormatExif(w) == y + ":" + mo + ":" + d + " " + h + ":" + mi + ":" + se;
    assert FormatExif(w)[0] == y[0] && FormatExif(w)[18] == se[1];
  }

  lemma FormatOffsetClean(negative: bool, hh: nat, mm: nat)
    requires hh < 24 && mm < 60
    ensures ' ' !in FormatOffset(negative, hh, mm) && '\U{0}' !in FormatOffset(negative, hh, mm)
    ensures !Text.IsSpace(FormatOffset(negative, hh, mm)[0]) && !Text.IsSpace(FormatOffset(negative, hh, mm)[5])
  {
    var a, b := Text.Pad2(hh), Text.Pad2(mm);
    Text.DigitsLackChar(a, ' '); Text.DigitsLackChar(b, ' ');
    Text.DigitsLackChar(a, '\U{0}'); Text.DigitsLackChar(b, '\U{0}');
    assert FormatOffset(negative, hh, mm) == (if negative then "-" else "+") + a + ":" + b;
  }

  /** A bare EXIF timestamp is read as a naive wall clock. */
  lemma ParseExifNaive(w: Wall, iso: IsoParser)
    requires ValidWall(w) && w.micro == 0
    ensures ParseText(FormatExif(w), iso) == Some(DateTime(w, None))
  {
    var f := FormatExif(w);
    FormatExifClean(w);
    CleanTextUnchanged(f);
    ExifPrefixOfFormat(w);
    assert f[..19] == f && f[19..] == "";
    ParseTextOfPrefix(f, w, iso);
  }

  /** After a well-formed EXIF timestamp, only the (cleaned) remainder decides the zone. */
  lemma ParseExifThen(w: Wall, t: string, iso: IsoParser)
    requires ValidWall(w) && w.micro == 0
    requires '\U{0}' !in t && |t| > 0 && !Text.IsSpace(t[|t| - 1])
    ensures ParseText(FormatExif(w) + t, iso)
         == ReadSuffix(w, Text.RemoveChar(Text.Strip(t), ' '), FormatExif(w) + t, iso)
  {
    var f := FormatExif(w);
    var text := f + t;
    FormatExifClean(w);
    assert '\U{0}' !in text by {
      assert forall c :: c in text ==> c in f || c in t;
    }
    assert text[0] == f[0] && text[|text| - 1] == t[|t| - 1];
    CleanTextUnchanged(text);
    ExifPrefixOfFormat(w);
    assert text[..19] == f && text[19..] == t;
    ParseTextOfPrefix(text, w, iso);
  }

  /** An EXIF timestamp followed by `Z` is read as UTC. */
  lemma ParseExifUtc(w: Wall, iso: IsoParser)
    requires ValidWall(w) && w.micro == 0
    ensures ParseText(FormatExif(w) + "Z", iso) == Some(DateTime(w, Some(0)))
  {
    ParseExifThen(w, "Z", iso);
    Text.StripUnchanged("Z");
    Text.RemoveAbsent("Z", ' ');
  }

  /** An EXIF timestamp followed by `+HH:MM` is read with that UTC offset. */
  lemma ParseExifWithOffset(w: Wall, negative: bool, hh: nat, mm: nat, iso: IsoParser)
    requires ValidWall(w) && w.micro == 0
    requires hh < 24 && mm < 60
    ensures ParseText(FormatExif(w) + FormatOffset(negative, hh, mm), iso)
         == Some(DateTime(w, Some(OffsetSeconds(negative, hh, mm))))
  {
    var t := FormatOffset(negative, hh, mm);
    FormatOffsetClean(negative, hh, mm);
    ParseExifThen(w, t, iso);
    Text.StripUnchanged(t);
    Text.RemoveAbsent(t, ' ');
    ReadOffsetSuffix(w, t, FormatExif(w) + t, negative, hh, mm, iso);
  }

  /** The suffix reader takes a `+HH:MM` suffix, or its compact `+HHMM` form,
      as that UTC offset. */
  lemma ReadOffsetSuffix(w: Wall, suffix: string, text: string, negative: bool, hh: nat, mm: nat, iso: IsoParser)
    requires ValidWall(w) && hh < 24 && mm < 60
    requires suffix == FormatOffset(negative, hh, mm) || suffix == CompactOffset(negative, hh, mm)
    ensures ReadSuffix(w, suffix, text, iso) == Some(DateTime(w, Some(OffsetSeconds(negative, hh, mm))))
  {
    var t := FormatOffset(negative, hh, mm);
    OffsetSuffixOfFormat(negative, hh, mm);
    if suffix == CompactOffset(negative, hh, mm) {
      assert suffix[..3] + ":" + suffix[3..] == t;
    }
  }

  /** The compact offset spelling has no blank or NUL and ends in a digit. */
  lemma CompactOffsetClean(negative: bool, hh: nat, mm: nat)
    requires hh < 24 && mm < 60
    ensures var c := CompactOffset(negative, hh, mm);
            ' ' !in c && '\U{0}' !in c && !Text.IsSpace(c[0]) && !Text.IsSpace(c[4])
  {
    var t, c := FormatOffset(negative, hh, mm), CompactOffset(negative, hh, mm);
    FormatOffsetClean(negative, hh, mm);
    assert c == t[..3] + t[4..];
  }

  /** The compact `+HHMM` form is widened to `+HH:MM` and read the same way. */
  lemma ParseExifWithCompactOffset(w: Wall, negative: bool, hh: nat, mm: nat, iso: IsoParser)
    requires ValidWall(w) && w.micro == 0
    requires hh < 24 && mm < 60
    ensures ParseText(FormatExif(w) + CompactOffset(negative, hh, mm), iso)
         == Some(DateTime(w, Some(OffsetSeconds(negative, hh, mm))))
  {
    var c := CompactOffset(negative, hh, mm);
    CompactOffsetClean(negative, hh, mm);
    ParseExifThen(w, c, iso);
    Text.StripUnchanged(c);
    Text.RemoveAbsent(c, ' ');
    ReadOffsetSuffix(w, c, FormatExif(w) + c, negative, hh, mm, iso);
  }
}

=== FILE: directory_counts.dfy ===
/** The counting core of the per-directory media report: direct counts per
    directory, the bottom-up rollup of counts and of city-POI votes into
    ancestors, the rollup checks the report runs before printing, the padded
    top-two vote ranking and the row orderings. The directory walk and the
    geocoding requests that produce the votes are not modelled: a directory is
    given as its path, its file names and its votes. */
module DirectoryCounts {
  import opened Wrappers
  import opened Order
  import Media
  import Text

  // ---------------------------------------------------------------------------
  // Counts

  /** `MediaCounts(image_total, video_total)`. */
  datatype Counts = Counts(image: nat, video: nat)

  /** `MediaCounts.media_total`. */
  function MediaTotal(c: Counts): (r: nat)
    ensures r >= c.image && r >= c.video
    ensures r == 0 <==> c == Counts(0, 0)
  {
    c.image + c.video
  }

  /** Component-wise addition: what `totals[parent][0] += ...; totals[parent][1] += ...` does. */
  function AddCounts(a: Counts, b: Counts): Counts {
    Counts(a.image + b.image, a.video + b.video)
  }

  /** The media total of a sum of counts is the sum of their media totals. */
  lemma MediaTotalAdds(a: Counts, b: Counts)
    ensures MediaTotal(AddCounts(a, b)) == MediaTotal(a) + MediaTotal(b)
  {
  }

  /** How many of `files` satisfy `p`. */
  function CountWhere(files: seq<string>, p: string -> bool): (n: nat)
    ensures n <= |files|
  {
    if |files| == 0 then 0
    else CountWhere(files[..|files| - 1], p) + (if p(files[|files| - 1]) then 1 else 0)
  }

  /** The count of a list is that of its front plus its last file's share. */
  lemma CountWhereLast(files: seq<string>, p: string -> bool)
    requires |files| > 0
    ensures CountWhere(files, p) == CountWhere(files[..|files| - 1], p) + (if p(files[|files| - 1]) then 1 else 0)
  {
  }

  /** Counting two predicates that never hold together counts their union. */
  lemma {:induction false} CountWhereUnion(files: seq<string>, p: string -> bool, q: string -> bool, u: string -> bool)
    requires forall f :: f in files ==> !(p(f) && q(f)) && (u(f) <==> p(f) || q(f))
    ensures CountWhere(files, u) == CountWhere(files, p) + CountWhere(files, q)
  {
    if |files| > 0 {
      CountWhereUnion(files[..|files| - 1], p, q, u);
    }
  }

  /** A file the report counts at all. */
  predicate IsMedia(name: string) {
    Media.IsImage(name) || Media.IsVideo(name)
  }

  /** The loop of `scan_direct_media_counts` over one directory's file names,
      with the two classifications as parameters: a file of the first kind
      bumps the first count, otherwise a file of the second kind bumps the
      second, otherwise nothing. When no file is of both kinds the counts are
      exactly the numbers of files of each kind. */
  method ScanCounts(files: seq<string>, isImage: string -> bool, isVideo: string -> bool) returns (c: Counts)
    requires forall f :: f in files ==> !(isImage(f) && isVideo(f))
    ensures c.image == CountWhere(files, isImage)
    ensures c.video == CountWhere(files, isVideo)
  {
    var images, videos := 0, 0;
    var i := 0;
    while i < |files|
      invariant i <= |files|
      invariant images == CountWhere(files[..i], isImage)
      invariant videos == CountWhere(files[..i], isVideo)
    {
      assert files[..i + 1][..i] == files[..i];
      var f := files[i];
      if isImage(f) {
        images := images + 1;
      } else if isVideo(f) {
        videos := videos + 1;
      }
      i := i + 1;
    }
    assert files[..i] == files;
    c := Counts(images, videos);
  }

  /** `scan_direct_media_counts` for one directory: the image and video tables
      share no suffix, so the counts are exactly the numbers of image and of
      video files, and their sum is the number of media files. */
  method ScanDirectCounts(files: seq<string>) returns (c: Counts)
    ensures c.image == CountWhere(files, Media.IsImage)
    ensures c.video == CountWhere(files, Media.IsVideo)
    ensures MediaTotal(c) == CountWhere(files, IsMedia)
  {
    forall f | f in files ensures !(Media.IsImage(f) && Media.IsVideo(f)) {
      Media.ImageNotVideo(f);
    }
    c := ScanCounts(files, Media.IsImage, Media.IsVideo);
    CountWhereUnion(files, Media.IsImage, Media.IsVideo, IsMedia);
  }

  // ---------------------------------------------------------------------------
  // Rollup, generic over the value added up

  /** The three monoid laws at given values. Each law is its own predicate so
      that a proof instantiates it only where it names it. */
  ghost predicate Assoc<V>(plus: (V, V) -> V, a: V, b: V, c: V) {
    plus(plus(a, b), c) == plus(a, plus(b, c))
  }

  ghost predicate Comm<V>(plus: (V, V) -> V, a: V, b: V) {
    plus(a, b) == plus(b, a)
  }

  ghost predicate RightUnit<V>(plus: (V, V) -> V, zero: V, a: V) {
    plus(a, zero) == a
  }

  /** `plus` and `zero` make a commutative monoid: the order in which values are
      added up does not matter. */
  ghost predicate CommutativeMonoid<V(!new)>(plus: (V, V) -> V, zero: V) {
    && (forall a, b, c :: Assoc(plus, a, b, c))
    && (forall a, b :: Comm(plus, a, b))
    && (forall a :: RightUnit(plus, zero, a))
  }

  /** One step of the rollup loop: a directory other than the root adds its
      current total into its parent's, when the parent is a known directory. */
  function RollupStep<V(!new)>(t: map<Path, V>, x: Path, root: Path, plus: (V, V) -> V): (r: map<Path, V>)
    requires x in t
    ensures r.Keys == t.Keys
  {
    if x == root || Parent(x) !in t then t
    else t[Parent(x) := plus(t[Parent(x)], t[x])]
  }

  /** The rollup loop run over `order`. */
  function RollupOver<V(!new)>(t: map<Path, V>, order: seq<Path>, root: Path, plus: (V, V) -> V): (r: map<Path, V>)
    requires forall x :: x in order ==> x in t
    ensures r.Keys == t.Keys
  {
    if |order| == 0 then t
    else RollupStep(RollupOver(t, order[..|order| - 1], root, plus), order[|order| - 1], root, plus)
  }

  /** `len(a.parts) > len(b.parts)`: the order of the rollup loop, deepest first. */
  predicate Deeper(a: Path, b: Path) {
    |a| > |b|
  }

  /** `aggregate_media_counts` / `aggregate_votes`: the directories in order of
      decreasing depth, each adding its total into its parent's. `dirs` lists the
      keys of `direct`. */
  function Aggregate<V(!new)>(root: Path, dirs: seq<Path>, direct: map<Path, V>, plus: (V, V) -> V): (r: map<Path, V>)
    requires forall d :: d in dirs <==> d in direct
    ensures r.Keys == direct.Keys
  {
    var order := SortBy(dirs, Deeper);
    assert forall x :: x in order ==> x in direct by {
      forall x | x in order ensures x in direct { assert x in multiset(order); }
    }
    RollupOver(direct, order, root, plus)
  }

  /** The known directories whose parent is `d`, the root excepted, in the order of `s`. */
  function Kids(s: seq<Path>, root: Path, d: Path): (r: seq<Path>)
    ensures forall c :: c in r <==> c in s && c != root && Parent(c) == d
  {
    if |s| == 0 then []
    else
      var x := s[|s| - 1];
      assert forall c :: c in s <==> c in s[..|s| - 1] || c == x;
      Kids(s[..|s| - 1], root, d) + (if x != root && Parent(x) == d then [x] else [])
  }

  /** `build_children_map`: each known directory mapped to its known children, in
      the order of `paths`; the root is no one's child. */
  function BuildChildrenMap(root: Path, paths: seq<Path>): (r: map<Path, seq<Path>>)
    ensures forall d :: d in r <==> d in paths
    ensures forall d :: d in r ==> r[d] == Kids(paths, root, d)
  {
    map d | d in paths :: Kids(paths, root, d)
  }

  /** The values of `cs` in `t`, added up from the left starting at `zero`. */
  function SumOf<V(!new)>(cs: seq<Path>, t: map<Path, V>, plus: (V, V) -> V, zero: V): V
    requires forall c :: c in cs ==> c in t
  {
    if |cs| == 0 then zero
    else plus(SumOf(cs[..|cs| - 1], t, plus, zero), t[cs[|cs| - 1]])
  }

  /** `verify_parent_rollup` / `verify_vote_rollup`: every directory's total is
      its own value plus the totals of its children. */
  predicate RollupHolds<V(==,!new)>(direct: map<Path, V>, total: map<Path, V>, children: map<Path, seq<Path>>,
                           plus: (V, V) -> V, zero: V)
    requires forall d :: d in direct ==> d in total && d in children
    requires forall d, c :: d in children && c in children[d] ==> c in total
  {
    forall d :: d in direct ==> total[d] == plus(direct[d], SumOf(children[d], total, plus, zero))
  }

  /** A sum only reads the entries it adds up. */
  lemma {:induction false} SumOfFrame<V(!new)>(cs: seq<Path>, t: map<Path, V>, u: map<Path, V>, plus: (V, V) -> V, zero: V)
    requires forall c :: c in cs ==> c in t && c in u && t[c] == u[c]
    ensures SumOf(cs, t, plus, zero) == SumOf(cs, u, plus, zero)
  {
    if |cs| > 0 {
      SumOfFrame(cs[..|cs| - 1], t, u, plus, zero);
    }
  }

  /** Taking one element out of a sum and adding it last gives the same sum. */
  lemma {:induction false} SumOfRemove<V(!new)>(cs: seq<Path>, j: nat, t: map<Path, V>, plus: (V, V) -> V, zero: V)
    requires CommutativeMonoid(plus, zero)
    requires j < |cs| && forall c :: c in cs ==> c in t
    ensures forall c :: c in cs[..j] + cs[j + 1..] ==> c in t
    ensures SumOf(cs, t, plus, zero) == plus(SumOf(cs[..j] + cs[j + 1..], t, plus, zero), t[cs[j]])
  {
    var n := |cs|;
    assert forall c :: c in cs[..j] + cs[j + 1..] ==> c in cs;
    if j == n - 1 {
      assert cs[..j] + cs[j + 1..] == cs[..n - 1];
    } else {
      var init := cs[..n - 1];
      assert init[..j] + init[j + 1..] == (cs[..j] + cs[j + 1..])[..n - 2];
      assert (cs[..j] + cs[j + 1..])[n - 2] == cs[n - 1];
      SumOfRemove(init, j, t, plus, zero);
      var rest := SumOf(init[..j] + init[j + 1..], t, plus, zero);
      assert SumOf(cs, t, plus, zero) == plus(plus(rest, t[cs[j]]), t[cs[n - 1]]);
      assert Assoc(plus, rest, t[cs[j]], t[cs[n - 1]]);
      assert Comm(plus, t[cs[j]], t[cs[n - 1]]);
      assert Assoc(plus, rest, t[cs[n - 1]], t[cs[j]]);
      assert SumOf(cs[..j] + cs[j + 1..], t, plus, zero) == plus(rest, t[cs[n - 1]]);
    }
  }

  /** Removing the element at `j` removes one occurrence of it. */
  lemma MultisetRemoveAt<T>(s: seq<T>, j: nat)
    requires j < |s|
    ensures multiset(s[..j] + s[j + 1..]) == multiset(s) - multiset{s[j]}
  {
    assert s == s[..j] + [s[j]] + s[j + 1..];
    assert multiset(s) == multiset(s[..j]) + multiset{s[j]} + multiset(s[j + 1..]);
  }

  /** Under a commutative monoid a sum does not depend on the order of its terms. */
  lemma {:induction false} SumOfPermutation<V(!new)>(a: seq<Path>, b: seq<Path>, t: map<Path, V>, plus: (V, V) -> V, zero: V)
    requires CommutativeMonoid(plus, zero)
    requires multiset(a) == multiset(b)
    requires forall c :: c in a ==> c in t
    ensures forall c :: c in b ==> c in t
    ensures SumOf(a, t, plus, zero) == SumOf(b, t, plus, zero)
    decreases |a|
  {
    PermutationMembers(a, b, t);
    if |a| > 0 {
      var n := |a|;
      var x := a[n - 1];
      assert x in multiset(a);
      var j :| 0 <= j < |b| && b[j] == x;
      var b' := b[..j] + b[j + 1..];
      RemoveMatching(a, b, j);
      assert forall c :: c in a[..n - 1] ==> c in a;
      SumOfPermutation(a[..n - 1], b', t, plus, zero);
      SumOfRemove(b, j, t, plus, zero);
    }
  }

  /** Dropping the last element of `a` and a copy of it from its permutation `b`
      leaves a permutation. */
  lemma RemoveMatching<T>(a: seq<T>, b: seq<T>, j: nat)
    requires multiset(a) == multiset(b) && 0 < |a| && j < |b| && b[j] == a[|a| - 1]
    ensures multiset(a[..|a| - 1]) == multiset(b[..j] + b[j + 1..])
  {
    var n := |a|;
    MultisetRemoveAt(b, j);
    MultisetRemoveAt(a, n - 1);
    assert a[..n - 1] + a[n..] == a[..n - 1];
  }

  /** A permutation of keys of `t` holds only keys of `t`. */
  lemma PermutationMembers<V>(a: seq<Path>, b: seq<Path>, t: map<Path, V>)
    requires multiset(a) == multiset(b)
    requires forall c :: c in a ==> c in t
    ensures forall c :: c in b ==> c in t
  {
    forall c | c in b ensures c in t { assert c in multiset(a); }
  }

  /** Filtering a permutation by parent gives a permutation. */
  lemma {:induction false} KidsMultiset(s: seq<Path>, root: Path, d: Path, c: Path)
    ensures multiset(Kids(s, root, d))[c] == if c != root && Parent(c) == d then multiset(s)[c] else 0
  {
    if |s| > 0 {
      assert s == s[..|s| - 1] + [s[|s| - 1]];
      KidsMultiset(s[..|s| - 1], root, d, c);
    }
  }

  /** No directory of `order` is deeper than one before it. */
  ghost predicate DepthOrdered(order: seq<Path>) {
    forall i, j :: 0 <= i < j < |order| ==> |order[i]| >= |order[j]|
  }

  /** Taking the last directory off a depth-ordered sequence leaves a
      depth-ordered sequence, none of whose directories is shallower than it. */
  lemma DepthOrderedInit(order: seq<Path>)
    requires DepthOrdered(order) && |order| > 0
    ensures DepthOrdered(order[..|order| - 1])
    ensures forall y :: y in order[..|order| - 1] ==> |y| >= |order[|order| - 1]|
  {
    var prefix := order[..|order| - 1];
    forall i, j | 0 <= i < j < |prefix| ensures |prefix[i]| >= |prefix[j]| {
      assert prefix[i] == order[i] && prefix[j] == order[j];
    }
    forall y | y in prefix ensures |y| >= |order[|order| - 1]| {
      var i :| 0 <= i < |prefix| && prefix[i] == y;
      assert order[i] == y;
    }
  }

  /** The rollup loop's invariant: after a depth-sorted prefix of the directories
      has been processed, every total is its own value plus the totals of the
      processed children. A processed directory is never touched again, because
      its parent is shallower than anything processed so far. */
  lemma {:induction false} RollupInvariant<V(!new)>(direct: map<Path, V>, order: seq<Path>, root: Path,
                                              plus: (V, V) -> V, zero: V)
    requires CommutativeMonoid(plus, zero)
    requires forall x :: x in order ==> x in direct
    requires forall x :: x in order && x != root ==> |x| > 0
    requires DepthOrdered(order)
    ensures var t := RollupOver(direct, order, root, plus);
            forall d :: d in direct ==> t[d] == plus(direct[d], SumOf(Kids(order, root, d), t, plus, zero))
  {
    var t := RollupOver(direct, order, root, plus);
    if |order| == 0 {
      forall d | d in direct ensures t[d] == plus(direct[d], SumOf(Kids(order, root, d), t, plus, zero)) {
        assert Kids(order, root, d) == [];
        assert RightUnit(plus, zero, direct[d]);
      }
    } else {
      var prefix := order[..|order| - 1];
      var x := order[|order| - 1];
      assert order == prefix + [x];
      DepthOrderedInit(order);
      RollupInvariant(direct, prefix, root, plus, zero);
      var t0 := RollupOver(direct, prefix, root, plus);
      forall d | d in direct
        ensures t[d] == plus(direct[d], SumOf(Kids(order, root, d), t, plus, zero))
      {
        RollupStepKeeps(direct, prefix, x, root, plus, zero, t0, d);
      }
    }
  }

  /** One step of `RollupInvariant`: processing `x`, no deeper than anything
      already processed, keeps the equation of directory `d`. */
  lemma RollupStepKeeps<V(!new)>(direct: map<Path, V>, prefix: seq<Path>, x: Path, root: Path,
                                 plus: (V, V) -> V, zero: V, t0: map<Path, V>, d: Path)
    requires CommutativeMonoid(plus, zero)
    requires t0.Keys == direct.Keys && d in direct && x in direct
    requires forall y :: y in prefix ==> y in direct && |y| >= |x|
    requires x != root ==> |x| > 0
    requires t0[d] == plus(direct[d], SumOf(Kids(prefix, root, d), t0, plus, zero))
    ensures var t := RollupStep(t0, x, root, plus);
            t[d] == plus(direct[d], SumOf(Kids(prefix + [x], root, d), t, plus, zero))
  {
    var t := RollupStep(t0, x, root, plus);
    var old_kids := Kids(prefix, root, d);
    assert (prefix + [x])[..|prefix|] == prefix;
    assert Kids(prefix + [x], root, d) == old_kids + (if x != root && Parent(x) == d then [x] else []);
    if x == root || Parent(x) !in t0 {
      assert Kids(prefix + [x], root, d) == old_kids;
    } else {
      var p := Parent(x);
      assert t == t0[p := plus(t0[p], t0[x])];
      forall c | c in old_kids ensures c in t0 && c in t && t0[c] == t[c] {
        assert |c| >= |x| > |p|;
      }
      SumOfFrame(old_kids, t0, t, plus, zero);
      var s0 := SumOf(old_kids, t0, plus, zero);
      if d == p {
        assert Kids(prefix + [x], root, d) == old_kids + [x];
        assert (old_kids + [x])[..|old_kids|] == old_kids;
        assert t[x] == t0[x];
        assert SumOf(old_kids + [x], t, plus, zero) == plus(s0, t0[x]);
        assert t[d] == plus(plus(direct[d], s0), t0[x]);
        assert Assoc(plus, direct[d], s0, t0[x]);
      } else {
        assert Kids(prefix + [x], root, d) == old_kids;
      }
    }
  }

  /** After `Aggregate`, `verify_parent_rollup`'s equation holds for every
      directory: its total is its direct value plus its children's totals, with
      the children as `build_children_map` lists them. */
  lemma AggregateRollup<V(!new)>(root: Path, dirs: seq<Path>, direct: map<Path, V>, plus: (V, V) -> V, zero: V)
    requires CommutativeMonoid(plus, zero)
    requires forall d :: d in dirs <==> d in direct
    requires forall d :: d in dirs && d != root ==> |d| > 0
    ensures var total := Aggregate(root, dirs, direct, plus);
            var children := BuildChildrenMap(root, dirs);
            && (forall d, c :: d in children && c in children[d] ==> c in total)
            && RollupHolds(direct, total, children, plus, zero)
  {
    var order := SortBy(dirs, Deeper);
    var total := Aggregate(root, dirs, direct, plus);
    var children := BuildChildrenMap(root, dirs);
    forall x | x in order ensures x in dirs { assert x in multiset(order); }
    assert StrictOn(dirs, Deeper);
    SortBySorted(dirs, Deeper);
    assert DepthOrdered(order) by {
      forall i, j | 0 <= i < j < |order| ensures |order[i]| >= |order[j]| {
        assert !Deeper(order[j], order[i]);
      }
    }
    RollupInvariant(direct, order, root, plus, zero);
    forall d | d in direct
      ensures total[d] == plus(direct[d], SumOf(children[d], total, plus, zero))
    {
      KidsSumReordered(order, dirs, root, d, total, plus, zero);
    }
  }

  /** The children's sum does not depend on the order the directories are listed in. */
  lemma KidsSumReordered<V(!new)>(s: seq<Path>, s': seq<Path>, root: Path, d: Path, t: map<Path, V>,
                                  plus: (V, V) -> V, zero: V)
    requires CommutativeMonoid(plus, zero)
    requires multiset(s) == multiset(s')
    requires forall c :: c in s ==> c in t
    ensures forall c :: c in s' ==> c in t
    ensures SumOf(Kids(s, root, d), t, plus, zero) == SumOf(Kids(s', root, d), t, plus, zero)
  {
    forall c | c in s' ensures c in t { assert c in multiset(s); }
    forall c ensures multiset(Kids(s, root, d))[c] == multiset(Kids(s', root, d))[c] {
      KidsMultiset(s, root, d, c);
      KidsMultiset(s', root, d, c);
    }
    assert multiset(Kids(s, root, d)) == multiset(Kids(s', root, d));
    SumOfPermutation(Kids(s, root, d), Kids(s', root, d), t, plus, zero);
  }

  // ---------------------------------------------------------------------------
  // The two instances

  const CountsZero := Counts(0, 0)

  lemma CountsMonoid()
    ensures CommutativeMonoid(AddCounts, CountsZero)
  {
    forall a, b, c ensures Assoc(AddCounts, a, b, c) { }
    forall a, b ensures Comm(AddCounts, a, b) { }
    forall a ensures RightUnit(AddCounts, CountsZero, a) { }
  }

  /** `aggregate_media_counts`. */
  function AggregateMediaCounts(root: Path, dirs: seq<Path>, direct: map<Path, Counts>): (r: map<Path, Counts>)
    requires forall d :: d in dirs <==> d in direct
    ensures r.Keys == direct.Keys
  {
    Aggregate(root, dirs, direct, AddCounts)
  }

  /** The city-POI votes of a directory: `Counter[str]` as a multiset. */
  type Votes = multiset<string>

  function AddVotes(a: Votes, b: Votes): Votes {
    a + b
  }

  lemma VotesMonoid()
    ensures CommutativeMonoid(AddVotes, multiset{})
  {
    forall a, b, c ensures Assoc(AddVotes, a, b, c) {
      assert (a + b) + c == a + (b + c);
    }
    forall a, b ensures Comm(AddVotes, a, b) {
      assert a + b == b + a;
    }
    forall a ensures RightUnit(AddVotes, multiset{}, a) {
      assert a + multiset{} == a;
    }
  }

  /** A file casts a vote when it is a media file whose location resolves to
      a non-empty label. */
  function CastsVote(lookup: string -> Option<string>): string -> bool {
    f => IsMedia(f) && lookup(f).Some? && lookup(f).value != ""
  }

  /** A file casts a vote for the label `v`. */
  function VotesFor(lookup: string -> Option<string>, v: string): string -> bool {
    f => IsMedia(f) && lookup(f) == Some(v)
  }

  /** `scan_direct_poi_votes` for one directory: every media file whose
      location resolves to a non-empty city-POI label casts one vote for it.
      `lookup` stands for reading the file's GPS position and reverse-geocoding
      it; the result cache only avoids repeated requests and is not modelled. */
  function DirectVotes(files: seq<string>, lookup: string -> Option<string>): (r: Votes)
    ensures |r| == CountWhere(files, CastsVote(lookup))
    ensures |r| <= CountWhere(files, IsMedia)
    ensures forall v :: v in r ==> v != "" && exists f :: f in files && IsMedia(f) && lookup(f) == Some(v)
  {
    if |files| == 0 then multiset{}
    else
      var f := files[|files| - 1];
      var init := files[..|files| - 1];
      var rest := DirectVotes(init, lookup);
      assert forall g :: g in init ==> g in files;
      if IsMedia(f) && lookup(f).Some? && lookup(f).value != "" then rest + multiset{lookup(f).value}
      else rest
  }

  /** Each non-empty label gets exactly as many votes as there are media files
      that resolve to it. */
  lemma {:induction false} DirectVotesTally(files: seq<string>, lookup: string -> Option<string>, v: string)
    requires v != ""
    ensures DirectVotes(files, lookup)[v] == CountWhere(files, VotesFor(lookup, v))
  {
    if |files| > 0 {
      DirectVotesTally(files[..|files| - 1], lookup, v);
      DirectVotesTallyStep(files, lookup, v);
    }
  }

  /** One more file keeps the tally of `v`. */
  lemma DirectVotesTallyStep(files: seq<string>, lookup: string -> Option<string>, v: string)
    requires v != "" && |files| > 0
    requires DirectVotes(files[..|files| - 1], lookup)[v] == CountWhere(files[..|files| - 1], VotesFor(lookup, v))
    ensures DirectVotes(files, lookup)[v] == CountWhere(files, VotesFor(lookup, v))
  {
    var n := |files| - 1;
    var f := files[n];
    var rest := DirectVotes(files[..n], lookup);
    var extra: Votes := if CastsVote(lookup)(f) then multiset{lookup(f).value} else multiset{};
    DirectVotesLast(files, lookup);
    CountWhereLast(files, VotesFor(lookup, v));
    VoteShare(f, lookup, v);
    assert (rest + extra)[v] == rest[v] + extra[v];
  }

  /** A file casts one vote for `v` exactly when it resolves to `v`. */
  lemma VoteShare(f: string, lookup: string -> Option<string>, v: string)
    requires v != ""
    ensures (if CastsVote(lookup)(f) then multiset{lookup(f).value} else multiset{})[v]
            == if VotesFor(lookup, v)(f) then 1 else 0
  {
  }

  /** The votes of a list are those of its front and of its last file. */
  lemma DirectVotesLast(files: seq<string>, lookup: string -> Option<string>)
    requires |files| > 0
    ensures var f := files[|files| - 1];
            DirectVotes(files, lookup)
            == DirectVotes(files[..|files| - 1], lookup) + (if CastsVote(lookup)(f) then multiset{lookup(f).value} else multiset{})
  {
  }

  /** `aggregate_votes`: `Counter.update` adds multiplicities. */
  function AggregateVotes(root: Path, dirs: seq<Path>, direct: map<Path, Votes>): (r: map<Path, Votes>)
    requires forall d :: d in dirs <==> d in direct
    ensures r.Keys == direct.Keys
  {
    Aggregate(root, dirs, direct, AddVotes)
  }

  /** The report's abort never fires: the counts and the votes both pass their
      rollup checks. */
  lemma ReportRollupsVerify(root: Path, dirs: seq<Path>, counts: map<Path, Counts>, votes: map<Path, Votes>)
    requires forall d :: d in dirs <==> d in counts
    requires forall d :: d in dirs <==> d in votes
    requires forall d :: d in dirs && d != root ==> |d| > 0
    ensures var children := BuildChildrenMap(root, dirs);
            var totalCounts := AggregateMediaCounts(root, dirs, counts);
            var totalVotes := AggregateVotes(root, dirs, votes);
            && (forall d, c :: d in children && c in children[d] ==> c in totalCounts && c in totalVotes)
            && RollupHolds(counts, totalCounts, children, AddCounts, CountsZero)
            && RollupHolds(votes, totalVotes, children, AddVotes, multiset{})
  {
    CountsMonoid();
    VotesMonoid();
    AggregateRollup(root, dirs, counts, AddCounts, CountsZero);
    AggregateRollup(root, dirs, votes, AddVotes, multiset{});
  }

  // ---------------------------------------------------------------------------
  // Ranking and ordering

  /** `to_city_poi`: both parts joined by `-`, or the one present, or nothing. */
  function ToCityPoi(city: string, poi: string): (r: Option<string>)
    ensures r.None? <==> city == "" && poi == ""
    ensures r.Some? ==> |r.value| > 0
    ensures city != "" ==> r.Some? && Text.StartsWith(r.value, city)
    ensures poi != "" ==> r.Some? && Text.EndsWith(r.value, poi)
    ensures city != "" && poi != "" ==> |r.value| == |city| + 1 + |poi| && r.value[|city|] == '-'
    ensures city != "" && poi != "" ==> r == Some(city + "-" + poi)
    ensures city != "" && poi == "" ==> r == Some(city)
    ensures city == "" && poi != "" ==> r == Some(poi)
  {
    if city != "" && poi != "" then
      var s := city + "-" + poi;
      assert s[..|city|] == city && s[|s| - |poi|..] == poi;
      Some(s)
    else if city != "" then
      assert city[..|city|] == city;
      Some(city)
    else if poi != "" then
      assert poi[|poi| - |poi|..] == poi;
      Some(poi)
    else None
  }

  /** A joined label determines its parts when the city holds no `-`: the
      city is everything before the first `-`, the point of interest the rest. */
  lemma ToCityPoiInjective(city1: string, poi1: string, city2: string, poi2: string)
    requires city1 != "" && poi1 != "" && city2 != "" && poi2 != ""
    requires '-' !in city1 && '-' !in city2
    requires ToCityPoi(city1, poi1) == ToCityPoi(city2, poi2)
    ensures city1 == city2 && poi1 == poi2
  {
    var s := city1 + "-" + poi1;
    assert s == city2 + "-" + poi2;
    assert forall k :: 0 <= k < |city1| ==> s[k] == city1[k] && city1[k] in city1;
    assert forall k :: 0 <= k < |city2| ==> s[k] == city2[k] && city2[k] in city2;
    assert s[|city1|] == '-' && s[|city2|] == '-';
    assert |city1| == |city2|;
    assert city1 == s[..|city1|] == city2;
    assert poi1 == s[|city1| + 1..] == poi2;
  }

  /** The key `(-count, name)` of `top_two`: more votes first, then by name. */
  predicate RankLt(a: (string, nat), b: (string, nat)) {
    a.1 > b.1 || (a.1 == b.1 && StrLt(a.0, b.0))
  }

  lemma RankLtStrict(s: seq<(string, nat)>)
    ensures StrictOn(s, RankLt)
  {
    forall a | a in s ensures !RankLt(a, a) { StrLtIrreflexive(a.0); }
    forall a, b, c | a in s && b in s && c in s && RankLt(a, b) && RankLt(b, c) ensures RankLt(a, c) {
      if a.1 == b.1 && b.1 == c.1 { StrLtTransitive(a.0, b.0, c.0); }
    }
  }

  const Padding: (string, nat) := ("N/A", 0)

  /** `top_two`: the two best-ranked vote entries, padded with `("N/A", 0)`. */
  function TopTwo(items: seq<(string, nat)>): (r: seq<(string, nat)>)
    ensures |r| == 2
    ensures |items| >= 1 ==> r[0] in items
    ensures |items| >= 2 ==> r[1] in items && multiset(r) <= multiset(items)
    ensures |items| == 0 ==> r[0] == Padding
    ensures |items| <= 1 ==> r[1] == Padding
  {
    var ranked := SortBy(items, RankLt);
    assert forall k :: 0 <= k < |ranked| ==> ranked[k] in items by {
      forall k | 0 <= k < |ranked| ensures ranked[k] in items { assert ranked[k] in multiset(ranked); }
    }
    if |ranked| >= 2 then
      assert ranked == ranked[..2] + ranked[2..];
      ranked[..2]
    else if |ranked| == 1 then [ranked[0], Padding]
    else [Padding, Padding]
  }

  /** The entries `top_two` keeps are the best-ranked: nothing outranks the
      first, and nothing but the first outranks the second. */
  lemma TopTwoBest(items: seq<(string, nat)>)
    ensures var r := TopTwo(items);
            && (|items| >= 1 ==> forall it :: it in items ==> !RankLt(it, r[0]))
            && (|items| >= 2 ==> !RankLt(r[1], r[0]) && forall it :: it in items && it != r[0] ==> !RankLt(it, r[1]))
  {
    var ranked := SortBy(items, RankLt);
    RankLtStrict(items);
    SortBySorted(items, RankLt);
    var r := TopTwo(items);
    forall it | it in items
      ensures |items| >= 1 ==> !RankLt(it, r[0])
      ensures |items| >= 2 && it != r[0] ==> !RankLt(it, r[1])
    {
      assert it in multiset(ranked);
      var k :| 0 <= k < |ranked| && ranked[k] == it;
      StrLtIrreflexive(it.0);
    }
  }

  /** A row of the report: the directory as `str(path)` and its totals. */
  type Row = (string, Counts)

  /** `(-media_total, str(path))`. */
  predicate TotalThenPathLt(a: Row, b: Row) {
    MediaTotal(a.1) > MediaTotal(b.1) || (MediaTotal(a.1) == MediaTotal(b.1) && StrLt(a.0, b.0))
  }

  /** `str(path)`. */
  predicate PathTextLt(a: Row, b: Row) {
    StrLt(a.0, b.0)
  }

  /** `sort_directory_rows`: by media total descending then path text, or by
      path text alone. */
  function SortDirectoryRows(rows: seq<Row>, byTotal: bool): (r: seq<Row>)
    ensures multiset(r) == multiset(rows)
  {
    if byTotal then SortBy(rows, TotalThenPathLt) else SortBy(rows, PathTextLt)
  }

  /** The rows come out in the requested order. */
  lemma SortDirectoryRowsOrdered(rows: seq<Row>, byTotal: bool)
    ensures var r := SortDirectoryRows(rows, byTotal);
            forall i, j :: 0 <= i < j < |r| ==>
              if byTotal then
                MediaTotal(r[i].1) > MediaTotal(r[j].1)
                || (MediaTotal(r[i].1) == MediaTotal(r[j].1) && !StrLt(r[j].0, r[i].0))
              else !StrLt(r[j].0, r[i].0)
  {
    var r := SortDirectoryRows(rows, byTotal);
    if byTotal {
      forall a, b, c | a in rows && b in rows && c in rows && TotalThenPathLt(a, b) && TotalThenPathLt(b, c)
        ensures TotalThenPathLt(a, c)
      {
        if MediaTotal(a.1) == MediaTotal(b.1) == MediaTotal(c.1) { StrLtTransitive(a.0, b.0, c.0); }
      }
      forall a | a in rows ensures !TotalThenPathLt(a, a) { StrLtIrreflexive(a.0); }
      SortBySorted(rows, TotalThenPathLt);
      forall i, j | 0 <= i < j < |r|
        ensures MediaTotal(r[i].1) > MediaTotal(r[j].1)
                || (MediaTotal(r[i].1) == MediaTotal(r[j].1) && !StrLt(r[j].0, r[i].0))
      {
        assert !TotalThenPathLt(r[j], r[i]);
      }
    } else {
      forall a, b, c | a in rows && b in rows && c in rows && PathTextLt(a, b) && PathTextLt(b, c)
        ensures PathTextLt(a, c)
      {
        StrLtTransitive(a.0, b.0, c.0);
      }
      forall a | a in rows ensures !PathTextLt(a, a) { StrLtIrreflexive(a.0); }
      SortBySorted(rows, PathTextLt);
      forall i, j | 0 <= i < j < |r| ensures !StrLt(r[j].0, r[i].0) {
        assert !PathTextLt(r[j], r[i]);
      }
    }
  }
}

=== FILE: file_context.dfy ===
/** The filesystem generator (`fs_candidates`) and the two-stage fusion of one
    file's candidates (`collect_file_datetime_context`). The stat values arrive
    as aware datetimes already read in the local zone; the generators' outputs
    (`exiftool_candidates`, `ffprobe_candidates`, `path_inferred_candidates`)
    arrive as candidate lists, each carrying the labels its generator writes. */
module FileContext {
  import opened Wrappers
  import opened Calendar
  import opened Json
  import opened Candidates
  import opened DatetimeUtils
  import opened MediaSources
  import opened PathCandidates
  import Media
  import Text

  // ---------------------------------------------------------------------------
  // fs_candidates

  /** The `fs:path` candidate: the best path candidate's time, pointing back at
      the label that produced it; absent when the extractor finds nothing. */
  function FsPathCandidate(path: seq<TimeCandidate>): (r: Option<TimeCandidate>)
    ensures r.Some? <==> |path| > 0
    ensures r.Some? ==>
              var best := ChooseMostLikely(path).value;
              && best in path
              && r.value.source == "fs:path"
              && r.value.timestamp == best.timestamp
              && r.value.originSource == Some(best.source)
  {
    match ChooseMostLikely(path)
    case None => None
    case Some(best) => Some(TimeCandidate("fs:path", best.timestamp, "fs path inferred datetime", Some(best.source)))
  }

  /** Whether `cs` holds a candidate labelled `source`. */
  predicate HasSource(cs: seq<TimeCandidate>, source: string) {
    exists c :: c in cs && c.source == source
  }

  /** The filesystem candidates in the order the generator appends them: birth
      time when the platform reports one, always the modification and change
      times, and the path candidate when there is one. */
  function FsList(birth: Option<Aware>, mtime: Aware, ctime: Aware, path: Option<TimeCandidate>): (r: seq<TimeCandidate>)
    requires path.Some? ==> path.value.source == "fs:path"
    ensures 2 <= |r| <= 4
    ensures forall c :: c in r ==> Text.StartsWith(c.source, "fs:")
    ensures TimeCandidate("fs:mtime", mtime, "fs mtime", None) in r
    ensures TimeCandidate("fs:ctime", ctime, "fs ctime", None) in r
    ensures HasSource(r, "fs:birthtime") <==> birth.Some?
    ensures birth.Some? ==> TimeCandidate("fs:birthtime", birth.value, "fs birthtime", None) in r
    ensures HasSource(r, "fs:path") <==> path.Some?
    ensures forall c :: c in r && c.source == "fs:path" ==> Some(c) == path
  {
    var b := if birth.Some? then [TimeCandidate("fs:birthtime", birth.value, "fs birthtime", None)] else [];
    var m := [TimeCandidate("fs:mtime", mtime, "fs mtime", None), TimeCandidate("fs:ctime", ctime, "fs ctime", None)];
    var p := if path.Some? then [path.value] else [];
    FsPartSources(b, m, p, birth.Some?, path.Some?);
    b + m + p
  }

  /** What the three parts of the filesystem list contribute: only the first
      can hold `fs:birthtime` and only the last `fs:path`. */
  lemma FsPartSources(b: seq<TimeCandidate>, m: seq<TimeCandidate>, p: seq<TimeCandidate>, hasBirth: bool, hasPath: bool)
    requires |b| == (if hasBirth then 1 else 0) && (hasBirth ==> b[0].source == "fs:birthtime")
    requires |m| == 2 && m[0].source == "fs:mtime" && m[1].source == "fs:ctime"
    requires |p| == (if hasPath then 1 else 0) && (hasPath ==> p[0].source == "fs:path")
    ensures forall c :: c in b + m + p ==> Text.StartsWith(c.source, "fs:")
    ensures HasSource(b + m + p, "fs:birthtime") <==> hasBirth
    ensures HasSource(b + m + p, "fs:path") <==> hasPath
    ensures forall c :: c in b + m + p && c.source == "fs:path" ==> c in p
    ensures m[0] in b + m + p && m[1] in b + m + p && (hasBirth ==> b[0] in b + m + p)
  {
    var r := b + m + p;
    assert "fs:path"[3] == 'p' && "fs:mtime"[3] == 'm' && "fs:ctime"[3] == 'c' && "fs:birthtime"[3] == 'b';
    assert Text.StartsWith("fs:birthtime", "fs:") && Text.StartsWith("fs:mtime", "fs:")
        && Text.StartsWith("fs:ctime", "fs:") && Text.StartsWith("fs:path", "fs:");
    forall c | c in r
      ensures c.source in {"fs:birthtime", "fs:mtime", "fs:ctime", "fs:path"}
      ensures c.source == "fs:birthtime" ==> c in b
      ensures c.source == "fs:path" ==> c in p
    {
      if c in b {
      } else if c in m {
        assert c == m[0] || c == m[1];
      } else {
        assert c in p;
      }
    }
    assert r[|b|] == m[0] && r[|b| + 1] == m[1];
    if hasBirth {
      assert r[0] == b[0];
    }
    if hasPath {
      assert r[|r| - 1] == p[0];
    }
  }

  /** `fs_candidates`, given the path extractor's output `path`: the list above,
      with `fs:path` exactly when the extractor found something, and the best of
      the list. */
  function FsCandidates(birth: Option<Aware>, mtime: Aware, ctime: Aware, path: seq<TimeCandidate>)
    : (r: (seq<TimeCandidate>, TimeCandidate))
    ensures r.0 == FsList(birth, mtime, ctime, FsPathCandidate(path))
    ensures HasSource(r.0, "fs:path") <==> |path| > 0
    ensures r.1 in r.0
  {
    var cs := FsList(birth, mtime, ctime, FsPathCandidate(path));
    (cs, ChooseMostLikely(cs).value)
  }

  /** The generator offers `fs:path` exactly when some hit names a real calendar
      instant. */
  lemma FsPathIffValidHit(birth: Option<Aware>, mtime: Aware, ctime: Aware, hits: seq<RawMatch>, local: int)
    requires ValidOffset(local)
    ensures HasSource(FsCandidates(birth, mtime, ctime, PathInferredCandidates(hits, local)).0, "fs:path") <==>
              exists i :: 0 <= i < |hits| && ValidWall(MatchWall(hits[i]))
  {
    PathInferredNonEmpty(hits, local);
  }

  // ---------------------------------------------------------------------------
  // collect_file_datetime_context

  /** `list.index`: the first position holding an element `eq` to `x`; `None`
      where Python raises `ValueError`. */
  function IndexOf<T>(s: seq<T>, x: T, eq: (T, T) -> bool): (r: Option<nat>)
    ensures r.None? <==> forall j :: 0 <= j < |s| ==> !eq(s[j], x)
    ensures r.Some? ==> r.value < |s| && eq(s[r.value], x)
                        && forall j :: 0 <= j < r.value ==> !eq(s[j], x)
  {
    if |s| == 0 then None
    else if eq(s[0], x) then Some(0)
    else
      match IndexOf(s[1..], x, eq)
      case None => None
      case Some(i) => Some(i + 1)
  }

  /** Under a reflexive equality a member is always found, at or before its own
      position. */
  lemma {:induction false} IndexOfMember<T>(s: seq<T>, k: nat, eq: (T, T) -> bool)
    requires k < |s| && eq(s[k], s[k])
    ensures IndexOf(s, s[k], eq).Some? && IndexOf(s, s[k], eq).value <= k
  {
    if k > 0 && !eq(s[0], s[k]) {
      IndexOfMember(s[1..], k - 1, eq);
    }
  }

  /** The position of `x`, a member of `b`, in `a + b` when nothing in `a` equals
      it: it lies in the `b` part. */
  function IndexInSecond<T(==)>(a: seq<T>, b: seq<T>, x: T, eq: (T, T) -> bool): (i: nat)
    requires x in b && eq(x, x)
    requires forall j :: 0 <= j < |a| ==> !eq(a[j], x)
    ensures IndexOf(a + b, x, eq) == Some(i)
    ensures |a| <= i < |a| + |b|
  {
    var s := a + b;
    var k :| 0 <= k < |b| && b[k] == x;
    assert s[|a| + k] == x;
    IndexOfMember(s, |a| + k, eq);
    assert forall j :: 0 <= j < |a| ==> !eq(s[j], x);
    IndexOf(s, x, eq).value
  }

  /** The position of `x`, a member of `a`, in `a + b`: it lies in the `a` part. */
  function IndexInFirst<T(==)>(a: seq<T>, b: seq<T>, x: T, eq: (T, T) -> bool): (i: nat)
    requires x in a && eq(x, x)
    ensures IndexOf(a + b, x, eq) == Some(i)
    ensures i < |a|
  {
    var s := a + b;
    var k :| 0 <= k < |a| && a[k] == x;
    assert s[k] == x;
    IndexOfMember(s, k, eq);
    IndexOf(s, x, eq).value
  }

  /** Two candidates are equal by value; timestamps compare as instants. */
  lemma CandEqFacts(a: TimeCandidate, b: TimeCandidate)
    ensures CandEq(a, b) ==> a.source == b.source
  {
  }

  lemma CandEqReflexive()
    ensures forall a :: CandEq(a, a)
  {
  }

  /** The indices the fusion stores, each `-1` when absent, into `candidates`. */
  datatype Context = Context(candidates: seq<TimeCandidate>, fsMostLikely: int, mediaMostLikely: int, mostLikely: int)

  /** ffprobe is consulted for videos, and for files of neither known kind when
      the caller asks for it. */
  predicate RunsFfprobe(name: string, includeUnknown: bool) {
    Media.IsVideo(name) || (includeUnknown && !Media.IsImage(name) && !Media.IsVideo(name))
  }

  /** Labels as `exiftool_candidates` writes them. */
  predicate ExifLabelled(cs: seq<TimeCandidate>) {
    forall c :: c in cs ==> Text.StartsWith(c.source, "exiftool:")
  }

  /** Labels as `ffprobe_candidates` writes them. */
  predicate ProbeLabelled(cs: seq<TimeCandidate>) {
    forall c :: c in cs ==> Text.StartsWith(c.source, "ffprobe:")
  }

  /** The media candidates: exiftool's, then ffprobe's when it runs. */
  function MediaCandidates(name: string, exif: seq<TimeCandidate>, probe: seq<TimeCandidate>, includeUnknown: bool)
    : (r: seq<TimeCandidate>)
    requires ExifLabelled(exif) && ProbeLabelled(probe)
    ensures |exif| <= |r| && r[..|exif|] == exif
    ensures !RunsFfprobe(name, includeUnknown) ==> r == exif
    ensures RunsFfprobe(name, includeUnknown) ==> r[|exif|..] == probe
    ensures forall c :: c in r ==> Text.StartsWith(c.source, "exiftool:") || Text.StartsWith(c.source, "ffprobe:")
  {
    if RunsFfprobe(name, includeUnknown) then
      assert (exif + probe)[..|exif|] == exif && (exif + probe)[|exif|..] == probe;
      exif + probe
    else
      assert exif[..|exif|] == exif;
      exif
  }

  /** No media label is a filesystem label. */
  lemma MediaNotFs(s: string)
    requires Text.StartsWith(s, "exiftool:") || Text.StartsWith(s, "ffprobe:")
    ensures !Text.StartsWith(s, "fs:")
  {
    assert |s| >= 8 && (s[0] == 'e' || s[1] == 'f');
  }

  /** No media candidate equals a filesystem candidate: their labels differ. */
  lemma MediaNeverEqualsFs(media: seq<TimeCandidate>, fs: TimeCandidate)
    requires forall c :: c in media ==> Text.StartsWith(c.source, "exiftool:") || Text.StartsWith(c.source, "ffprobe:")
    requires Text.StartsWith(fs.source, "fs:")
    ensures forall j :: 0 <= j < |media| ==> !CandEq(media[j], fs)
  {
    forall j | 0 <= j < |media| ensures !CandEq(media[j], fs) {
      assert media[j] in media;
      CandEqFacts(media[j], fs);
      MediaNotFs(media[j].source);
    }
  }

  /** `collect_file_datetime_context`: the best media candidate and the best
      filesystem candidate are chosen separately, the better of the two wins,
      and all three are stored as positions in `candidates = media ++ fs`, found
      by value as `list.index` finds them. */
  function CollectContext(name: string, exif: seq<TimeCandidate>, probe: seq<TimeCandidate>, includeUnknown: bool,
                          birth: Option<Aware>, mtime: Aware, ctime: Aware, path: seq<TimeCandidate>): (r: Context)
    requires ExifLabelled(exif) && ProbeLabelled(probe)
    ensures var media := MediaCandidates(name, exif, probe, includeUnknown);
            var fs := FsCandidates(birth, mtime, ctime, path);
            && r.candidates == media + fs.0
            && (r.mediaMostLikely == -1 <==> |media| == 0)
            && (r.mediaMostLikely != -1 ==>
                  0 <= r.mediaMostLikely < |media|
                  && CandEq(r.candidates[r.mediaMostLikely], ChooseMostLikely(media).value))
            && |media| <= r.fsMostLikely < |r.candidates|
            && CandEq(r.candidates[r.fsMostLikely], fs.1)
            && (r.mostLikely == r.fsMostLikely || r.mostLikely == r.mediaMostLikely)
            && 0 <= r.mostLikely < |r.candidates|
            && (r.mostLikely == r.mediaMostLikely <==> |media| > 0 && Lt(ChooseMostLikely(media).value, fs.1))
  {
    var fs := FsCandidates(birth, mtime, ctime, path);
    Fuse(MediaCandidates(name, exif, probe, includeUnknown), fs.0, fs.1)
  }

  /** The fusion step of `collect_file_datetime_context` on the media list and
      the filesystem list with its chosen candidate. */
  function Fuse(media: seq<TimeCandidate>, fsAll: seq<TimeCandidate>, fsBest: TimeCandidate): (r: Context)
    requires forall c :: c in media ==> Text.StartsWith(c.source, "exiftool:") || Text.StartsWith(c.source, "ffprobe:")
    requires forall c :: c in fsAll ==> Text.StartsWith(c.source, "fs:")
    requires fsBest in fsAll
    ensures r.candidates == media + fsAll
    ensures r.mediaMostLikely == -1 <==> |media| == 0
    ensures r.mediaMostLikely != -1 ==>
              0 <= r.mediaMostLikely < |media| && CandEq(r.candidates[r.mediaMostLikely], ChooseMostLikely(media).value)
    ensures |media| <= r.fsMostLikely < |r.candidates| && CandEq(r.candidates[r.fsMostLikely], fsBest)
    ensures r.mostLikely == r.fsMostLikely || r.mostLikely == r.mediaMostLikely
    ensures 0 <= r.mostLikely < |r.candidates|
    ensures r.mostLikely == r.mediaMostLikely <==> |media| > 0 && Lt(ChooseMostLikely(media).value, fsBest)
  {
    var mediaBest := ChooseMostLikely(media);
    MediaNeverEqualsFs(media, fsBest);
    var p := Positions(media, fsAll, fsBest, mediaBest, Better(fsBest, mediaBest));
    Context(media + fsAll, p.0, p.1, p.2)
  }

  /** The winner of `choose_most_likely([fs_best, media_best])`; with no media
      candidate the one-element list yields `fs_best` itself. */
  function Better(fsBest: TimeCandidate, mediaBest: Option<TimeCandidate>): (r: TimeCandidate)
    ensures r == fsBest || (mediaBest.Some? && r == mediaBest.value)
    ensures mediaBest.None? ==> r == fsBest
    ensures mediaBest.Some? ==> r == if Lt(mediaBest.value, fsBest) then mediaBest.value else fsBest
  {
    match mediaBest
    case None => fsBest
    case Some(m) =>
      ChooseOfPair(fsBest, m);
      ChooseMostLikely([fsBest, m]).value
  }

  /** The positions `list.index` finds in `media ++ fs` for the best filesystem
      candidate, the best media candidate (`-1` when there is none) and the
      overall winner, which is one of the two. */
  function Positions(media: seq<TimeCandidate>, fs: seq<TimeCandidate>, fsBest: TimeCandidate,
                     mediaBest: Option<TimeCandidate>, best: TimeCandidate): (r: (nat, int, nat))
    requires fsBest in fs && (mediaBest.Some? ==> mediaBest.value in media)
    requires forall j :: 0 <= j < |media| ==> !CandEq(media[j], fsBest)
    requires best == fsBest || (mediaBest.Some? && best == mediaBest.value)
    ensures |media| <= r.0 < |media| + |fs| && CandEq((media + fs)[r.0], fsBest)
    ensures r.1 == -1 <==> mediaBest.None?
    ensures r.1 != -1 ==> 0 <= r.1 < |media| && CandEq((media + fs)[r.1], mediaBest.value)
    ensures best == fsBest ==> r.2 == r.0
    ensures best != fsBest ==> r.2 == r.1
    ensures r.0 != r.1
    ensures mediaBest.Some? ==> mediaBest.value != fsBest
  {
    CandEqReflexive();
    var fsIdx := IndexInSecond(media, fs, fsBest, CandEq);
    if mediaBest.None? then
      (fsIdx, -1, fsIdx)
    else
      var mediaIdx := IndexInFirst(media, fs, mediaBest.value, CandEq);
      (fsIdx, mediaIdx, if best == fsBest then fsIdx else mediaIdx)
  }

  /** Image files never consult ffprobe: their media candidates are exiftool's
      alone, whatever ffprobe would report and whatever the caller asks for. */
  lemma ImageIgnoresFfprobe(name: string, exif: seq<TimeCandidate>, probe: seq<TimeCandidate>, includeUnknown: bool)
    requires ExifLabelled(exif) && ProbeLabelled(probe)
    requires Media.IsImage(name)
    ensures MediaCandidates(name, exif, probe, includeUnknown) == exif
  {
    Media.ImageNotVideo(name);
  }
}

=== FILE: json.dfy ===
/** Decoded JSON as the external tools (exiftool, ffprobe) and the scan caches
    deliver it: the result of `json.loads`. Fractional numbers are not modelled. */
module Json {

  datatype Json =
    | JNull
    | JBool(b: bool)
    | JInt(i: int)
    | JStr(s: string)
    | JList(items: seq<Json>)
    | JObj(fields: map<string, Json>)

  /** `d.get(key)`: the value, or `None` when the key is absent. */
  function Get(fields: map<string, Json>, key: string): (r: Json)
    ensures key !in fields ==> r == JNull
  {
    if key in fields then fields[key] else JNull
  }

  /** `d.get(key, default)`. */
  function GetOr(fields: map<string, Json>, key: string, default: Json): (r: Json)
    ensures key !in fields ==> r == default
  {
    if key in fields then fields[key] else default
  }
}

=== FILE: map_server.dfy ===
/** The value-level helpers of the media map browser's server: the `Range`
    header parser behind partial file responses (a single-range subset of the
    byte-range syntax of section 2.1 of RFC 7233), the administrative-code
    helpers used when building prefecture boundaries, the media-type guess, and
    the merging of several saved scans into one payload. */
module MapServer {
  import opened Wrappers
  import opened Json
  import Text
  import Media

  // ---------------------------------------------------------------------------
  // Range header

  /** The first position of `c` in `s`: `s.find(c)`. */
  function FindChar(s: string, c: char): (r: Option<nat>)
    ensures r.Some? ==> r.value < |s| && s[r.value] == c && c !in s[..r.value]
    ensures r.None? <==> c !in s
  {
    if |s| == 0 then None
    else if s[0] == c then Some(0)
    else
      match FindChar(s[1..], c)
      case None => None
      case Some(i) =>
        assert s[..i + 1] == [s[0]] + s[1..][..i];
        Some(i + 1)
  }

  /** `re.match(r"bytes=(\d*)-(\d*)$", text)`: the two digit groups. Digits
      never include `-`, so the first `-` after the prefix separates them. */
  function MatchRangeSpec(text: string): (r: Option<(string, string)>)
    ensures r.Some? ==> && Text.AllDigits(r.value.0) && Text.AllDigits(r.value.1)
                        && text == "bytes=" + r.value.0 + "-" + r.value.1
  {
    if !Text.StartsWith(text, "bytes=") then None
    else
      var rest := text[6..];
      match FindChar(rest, '-')
      case None => None
      case Some(i) =>
        var a, b := rest[..i], rest[i + 1..];
        if Text.AllDigits(a) && Text.AllDigits(b) then
          SplitAround(text, 6, i);
          Some((a, b))
        else None
  }

  /** A text cut after its first `k` characters and around position `k + i`. */
  lemma SplitAround(text: string, k: nat, i: nat)
    requires k + i < |text|
    ensures text == text[..k] + text[k..][..i] + [text[k..][i]] + text[k..][i + 1..]
  {
    var rest := text[k..];
    assert rest == rest[..i] + [rest[i]] + rest[i + 1..];
    assert text == text[..k] + rest;
  }

  /** Every text of the form `bytes=<digits>-<digits>` matches, with exactly
      those two groups: together with `MatchRangeSpec`'s contract, the match
      succeeds iff the text has that form. */
  lemma MatchRangeSpecComplete(a: string, b: string)
    requires Text.AllDigits(a) && Text.AllDigits(b)
    ensures MatchRangeSpec("bytes=" + a + "-" + b) == Some((a, b))
  {
    var text := "bytes=" + a + "-" + b;
    assert text[..6] == "bytes=";
    var rest := text[6..];
    assert rest == a + "-" + b;
    assert rest[|a|] == '-';
    var i := FindChar(rest, '-').value;
    assert rest[..i] == a && rest[i + 1..] == b;
  }

  /** The range the two digit groups of a matched header ask for, before the
      bounds check: `bytes=-N` the last `N` bytes, `bytes=S-` from `S` to the
      last byte, `bytes=S-E` from `S` to `E`. */
  function RequestedRange(startText: string, endText: string, size: int): (r: Option<(int, int)>)
    requires Text.AllDigits(startText) && Text.AllDigits(endText)
    ensures startText == "" ==> (r.None? <==> Text.DecimalValue(endText) == 0)
    ensures startText == "" && r.Some? ==> r.value.1 == size - 1 && r.value.0 >= 0
    ensures startText != "" ==> r.Some? && r.value.0 == Text.DecimalValue(startText)
    ensures startText != "" && endText != "" ==> r.Some? && r.value.1 == Text.DecimalValue(endText)
    ensures startText != "" && endText == "" ==> r.Some? && r.value.1 == size - 1
  {
    if startText == "" then
      var length := Text.DecimalValue(endText);
      if length <= 0 then None
      else Some((if size - length > 0 then size - length else 0, size - 1))
    else
      var start := Text.DecimalValue(startText);
      Some((start, if endText != "" then Text.DecimalValue(endText) else size - 1))
  }

  /** The bounds check and clamp: a range starting before the file, ending
      before it starts, or starting past the last byte is refused; an end past
      the last byte is clamped to it. */
  function CheckRange(requested: Option<(int, int)>, size: int): (r: Option<(int, int)>)
    ensures r.Some? ==> 0 <= r.value.0 <= r.value.1 <= size - 1
    ensures r.Some? <==> requested.Some? && 0 <= requested.value.0 <= requested.value.1 && requested.value.0 < size
    ensures r.Some? ==> r.value.0 == requested.value.0
                        && r.value.1 == if requested.value.1 < size - 1 then requested.value.1 else size - 1
  {
    match requested
    case None => None
    case Some((start, end)) =>
      if start < 0 || end < start || start >= size then None
      else Some((start, if end < size - 1 then end else size - 1))
  }

  /** `parse_range_header`: the inclusive byte range a `Range` header asks for
      in a file of `size` bytes, or `None` when it asks for nothing the server
      can serve. */
  function ParseRangeHeader(header: Option<string>, size: int): (r: Option<(int, int)>)
    ensures r.Some? ==> 0 <= r.value.0 <= r.value.1 <= size - 1
    ensures size <= 0 ==> r.None?
    ensures header.None? || header == Some("") ==> r.None?
    ensures r.Some? ==> MatchRangeSpec(Text.Strip(header.value)).Some?
  {
    if header.None? || header.value == "" then None
    else
      match MatchRangeSpec(Text.Strip(header.value))
      case None => None
      case Some((startText, endText)) =>
        if startText == "" && endText == "" then None
        else CheckRange(RequestedRange(startText, endText, size), size)
  }

  /** A header that is exactly `bytes=<digits>-<digits>` needs no trimming. */
  lemma RangeTextStripped(a: string, b: string)
    requires Text.AllDigits(a) && Text.AllDigits(b)
    ensures Text.Strip("bytes=" + a + "-" + b) == "bytes=" + a + "-" + b
  {
    var text := "bytes=" + a + "-" + b;
    assert text[0] == 'b';
    if |b| > 0 {
      assert text[|text| - 1] == b[|b| - 1];
    } else {
      assert text[|text| - 1] == '-';
    }
    Text.StripUnchanged(text);
  }

  /** A well-formed header is read through its two digit groups. */
  lemma ParseRangeHeaderOfSpec(a: string, b: string, size: int)
    requires Text.AllDigits(a) && Text.AllDigits(b)
    ensures ParseRangeHeader(Some("bytes=" + a + "-" + b), size)
            == if a == "" && b == "" then None else CheckRange(RequestedRange(a, b, size), size)
  {
    RangeTextStripped(a, b);
    MatchRangeSpecComplete(a, b);
    assert ("bytes=" + a + "-" + b)[0] == 'b';
  }

  /** `bytes=<start>-<end>` inside the file yields exactly that range; with the
      end past the file it is clamped to the last byte. */
  lemma RangeExplicit(start: nat, end: nat, size: int)
    requires start <= end && start < size
    ensures ParseRangeHeader(Some("bytes=" + Text.Digits(start) + "-" + Text.Digits(end)), size)
            == Some((start, if end < size then end else size - 1))
  {
    var a, b := Text.Digits(start), Text.Digits(end);
    ParseRangeHeaderOfSpec(a, b, size);
    assert RequestedRange(a, b, size) == Some((start, end));
  }

  /** `bytes=<start>-` runs to the end of the file, and is refused when it
      starts past the last byte. */
  lemma RangeOpenEnd(start: nat, size: int)
    ensures ParseRangeHeader(Some("bytes=" + Text.Digits(start) + "-"), size)
            == if start < size then Some((start, size - 1)) else None
  {
    assert "bytes=" + Text.Digits(start) + "-" == "bytes=" + Text.Digits(start) + "-" + "";
    ParseRangeHeaderOfSpec(Text.Digits(start), "", size);
  }

  /** `bytes=-N` asks for the last `N` bytes: none when `N` is zero, the whole
      file when `N` exceeds it, and never anything of an empty file. */
  lemma RangeSuffix(n: nat, size: int)
    ensures ParseRangeHeader(Some("bytes=-" + Text.Digits(n)), size)
            == if n == 0 || size <= 0 then None else Some((if size - n > 0 then size - n else 0, size - 1))
  {
    var d := Text.Digits(n);
    assert Text.DecimalValue(d) == n;
    SuffixSpec(d, size);
  }

  /** `RangeSuffix` for any digit group `d`, read as the number it spells. */
  lemma SuffixSpec(d: string, size: int)
    requires Text.AllDigits(d)
    ensures var n := Text.DecimalValue(d);
            ParseRangeHeader(Some("bytes=-" + d), size)
            == if n == 0 || size <= 0 then None else Some((if size - n > 0 then size - n else 0, size - 1))
  {
    assert "bytes=-" + d == "bytes=" + "" + "-" + d;
    ParseRangeHeaderOfSpec("", d, size);
    SuffixChecked(d, size);
  }

  lemma SuffixChecked(d: string, size: int)
    requires Text.AllDigits(d)
    ensures var n := Text.DecimalValue(d);
            CheckRange(RequestedRange("", d, size), size)
            == if n == 0 || size <= 0 then None else Some((if size - n > 0 then size - n else 0, size - 1))
  {
  }

  /** `bytes=-` names no bytes at all. */
  lemma RangeEmptySpec(size: int)
    ensures ParseRangeHeader(Some("bytes=-"), size).None?
  {
    assert "bytes=-" == "bytes=" + "" + "-" + "";
    ParseRangeHeaderOfSpec("", "", size);
  }

  // ---------------------------------------------------------------------------
  // Administrative codes

  /** `adcode_string`: an integer (a `bool` is one) formatted as `f"{v:06d}"`,
      whose width counts a minus sign; a digit string trimmed and zero-filled to
      six characters; anything else the empty string. */
  function AdcodeString(value: Json): (r: string)
    ensures value.JInt? && value.i >= 0 ==> Text.AllDigits(r) && Text.DecimalValue(r) == value.i
    ensures value.JInt? && 0 <= value.i < 1000000 ==> |r| == 6
    ensures value.JInt? && value.i < 0 ==> |r| >= 6 && r[0] == '-'
    ensures value.JInt? && value.i < 0 ==> SignPadded(r, -value.i)
    ensures value.JBool? ==> r == if value.b then "000001" else "000000"
    ensures value.JStr? && Text.IsDigits(Text.Strip(value.s)) ==>
              Text.AllDigits(r) && Text.DecimalValue(r) == Text.DecimalValue(Text.Strip(value.s))
              && |r| == if |Text.Strip(value.s)| >= 6 then |Text.Strip(value.s)| else 6
    ensures value.JStr? && !Text.IsDigits(Text.Strip(value.s)) ==> r == ""
    ensures !value.JInt? && !value.JStr? && !value.JBool? ==> r == ""
  {
    var r := match value
      case JBool(b) => BoolAdcode(b)
      case JInt(i) => IntAdcode(i)
      case JStr(s) => TextAdcode(s)
      case _ => "";
    AdcodeCases(value, r);
    r
  }

  /** The facts of each branch, read off the branch's own formatter. */
  lemma AdcodeCases(value: Json, r: string)
    requires value.JInt? ==> r == IntAdcode(value.i)
    requires value.JBool? ==> r == BoolAdcode(value.b)
    requires value.JStr? ==> r == TextAdcode(value.s)
    requires !value.JInt? && !value.JStr? && !value.JBool? ==> r == ""
    ensures value.JInt? && value.i >= 0 ==> Text.AllDigits(r) && Text.DecimalValue(r) == value.i
    ensures value.JInt? && 0 <= value.i < 1000000 ==> |r| == 6
    ensures value.JInt? && value.i < 0 ==> |r| >= 6 && r[0] == '-'
    ensures value.JInt? && value.i < 0 ==> SignPadded(r, -value.i)
    ensures value.JBool? ==> r == if value.b then "000001" else "000000"
    ensures value.JStr? && Text.IsDigits(Text.Strip(value.s)) ==>
              Text.AllDigits(r) && Text.DecimalValue(r) == Text.DecimalValue(Text.Strip(value.s))
              && |r| == if |Text.Strip(value.s)| >= 6 then |Text.Strip(value.s)| else 6
    ensures value.JStr? && !Text.IsDigits(Text.Strip(value.s)) ==> r == ""
    ensures !value.JInt? && !value.JStr? && !value.JBool? ==> r == ""
  {
  }

  /** `r` is `-` followed by the digits of `m`, zero-filled so that `r` has at
      least six characters. */
  ghost predicate SignPadded(r: string, m: nat) {
    && |r| >= 1 && r[0] == '-'
    && Text.AllDigits(r[1..]) && Text.DecimalValue(r[1..]) == m
    && |r| == if |Text.Digits(m)| >= 5 then 1 + |Text.Digits(m)| else 6
  }

  /** `f"{i:06d}"`: at least six characters, a minus sign counting as one. */
  function IntAdcode(i: int): (r: string)
    ensures i >= 0 ==> Text.AllDigits(r) && Text.DecimalValue(r) == i
    ensures 0 <= i < 1000000 ==> |r| == 6
    ensures i < 0 ==> |r| >= 6 && r[0] == '-'
    ensures i < 0 ==> SignPadded(r, -i)
  {
    if i >= 0 then
      PowSix();
      Text.Pad(i, 6)
    else NegativeAdcode(-i); "-" + Text.ZeroFill(Text.Digits(-i), 5)
  }

  /** A string's digits once trimmed, zero-filled to six; else the empty string. */
  function TextAdcode(s: string): (r: string)
    ensures Text.IsDigits(Text.Strip(s)) ==>
              Text.AllDigits(r) && Text.DecimalValue(r) == Text.DecimalValue(Text.Strip(s))
              && |r| == if |Text.Strip(s)| >= 6 then |Text.Strip(s)| else 6
    ensures !Text.IsDigits(Text.Strip(s)) ==> r == ""
  {
    var text := Text.Strip(s);
    if Text.IsDigits(text) then Text.ZeroFill(text, 6) else ""
  }

  /** A `bool` is the integer 0 or 1, zero-filled to six digits. */
  function BoolAdcode(b: bool): (r: string)
    ensures r == if b then "000001" else "000000"
  {
    BoolAdcodeDigits(b);
    IntAdcode(if b then 1 else 0)
  }

  lemma BoolAdcodeDigits(b: bool)
    ensures IntAdcode(if b then 1 else 0) == if b then "000001" else "000000"
  {
    var d := Text.Digits(if b then 1 else 0);
    assert d == [Text.DigitChar(if b then 1 else 0)];
    var z := Text.Zeros(5);
    assert z == "00000" by { assert |z| == 5 && z[0] == z[1] == z[2] == z[3] == z[4] == '0'; }
    PowSix();
  }

  lemma PowSix()
    ensures Text.Pow10(6) == 1000000
  {
    assert Text.Pow10(2) == 100 by { assert Text.Pow10(1) == 10; }
    assert Text.Pow10(4) == 10000 by { assert Text.Pow10(3) == 1000; }
  }

  /** A negative integer is `-` and its magnitude zero-filled to five digits. */
  lemma NegativeAdcode(m: nat)
    ensures var r := "-" + Text.ZeroFill(Text.Digits(m), 5);
            && r[1..] == Text.ZeroFill(Text.Digits(m), 5)
            && |r| == if |Text.Digits(m)| >= 5 then 1 + |Text.Digits(m)| else 6
  {
  }

  /** `is_prefecture_level_adcode`: six digits `XXYY00` with `YY` other than `00`. */
  predicate IsPrefectureLevelAdcode(code: string) {
    |code| == 6 && Text.IsDigits(code) && code[2..4] != "00" && code[4..6] == "00"
  }

  /** Two digits spell `00` exactly when their value is zero. */
  lemma TwoDigitsZero(s: string)
    requires |s| == 2 && Text.AllDigits(s)
    ensures s == "00" <==> Text.DecimalValue(s) == 0
    ensures Text.DecimalValue(s) < 100
  {
    assert s[..1][..0] == [];
    assert Text.DecimalValue(s[..1]) == Text.DigitValue(s[0]);
    assert Text.DecimalValue(s) == Text.DigitValue(s[0]) * 10 + Text.DigitValue(s[1]);
    if Text.DecimalValue(s) == 0 {
      assert s == [s[0], s[1]];
    }
  }

  /** The same test read on the number a six-digit code spells: a multiple of
      100 whose hundreds are not a multiple of 10000. */
  lemma PrefectureLevelByValue(code: string)
    requires |code| == 6 && Text.AllDigits(code)
    ensures IsPrefectureLevelAdcode(code) <==>
            Text.DecimalValue(code) % 100 == 0 && (Text.DecimalValue(code) / 100) % 100 != 0
  {
    var b, c := code[2..4], code[4..];
    SixDigitsValue(code);
    TwoDigitsZero(b);
    TwoDigitsZero(c);
    var x, y, z := Text.DecimalValue(code[..2]), Text.DecimalValue(b), Text.DecimalValue(c);
    HundredsSplit(x * 100 + y, z);
    HundredsSplit(x, y);
    assert code[4..6] == c;
  }

  /** A six-digit code spells its three digit pairs in base 100. */
  lemma SixDigitsValue(code: string)
    requires |code| == 6 && Text.AllDigits(code)
    ensures Text.DecimalValue(code)
            == (Text.DecimalValue(code[..2]) * 100 + Text.DecimalValue(code[2..4])) * 100 + Text.DecimalValue(code[4..])
  {
    var a, b, c := code[..2], code[2..4], code[4..];
    assert code == a + b + c;
    assert Text.Pow10(2) == 100 by { assert Text.Pow10(1) == 10; }
    Text.DecimalValueConcat(a, b);
    Text.DecimalValueConcat(a + b, c);
  }

  /** The last two decimal places of `q * 100 + r` are `r`, the rest `q`. */
  lemma HundredsSplit(q: int, r: int)
    requires 0 <= r < 100
    ensures (q * 100 + r) % 100 == r && (q * 100 + r) / 100 == q
  {
  }

  /** What `adcode_string` makes of a non-negative integer below a million is a
      prefecture-level code exactly when the number's test holds. */
  lemma AdcodeOfIntPrefecture(i: int)
    requires 0 <= i < 1000000
    ensures IsPrefectureLevelAdcode(AdcodeString(JInt(i))) <==> i % 100 == 0 && (i / 100) % 100 != 0
  {
    PrefectureLevelByValue(AdcodeString(JInt(i)));
  }

  // ---------------------------------------------------------------------------
  // Media type

  /** `guess_media_type`: `"image"` for an image suffix, else `"video"` for a
      video suffix, else nothing. */
  function GuessMediaType(name: string): (r: Option<string>)
    ensures r == Some("image") <==> Media.IsImage(name)
    ensures r == Some("video") <==> Media.IsVideo(name)
    ensures r.None? <==> !Media.IsImage(name) && !Media.IsVideo(name)
  {
    Media.ImageNotVideo(name);
    if Media.IsImage(name) then Some("image")
    else if Media.IsVideo(name) then Some("video")
    else None
  }

  // ---------------------------------------------------------------------------
  // Merging saved scans

  /** No value occurs twice in `s`. */
  ghost predicate Distinct<T>(s: seq<T>) {
    forall i, j :: 0 <= i < j < |s| ==> s[i] != s[j]
  }

  /** The non-empty normal forms of `ids`, repeats dropped, each at the place
      of its first occurrence. */
  function FirstOccurrences(ids: seq<string>, norm: string -> string): seq<string>
  {
    if |ids| == 0 then []
    else
      var rest := FirstOccurrences(ids[..|ids| - 1], norm);
      var x := norm(ids[|ids| - 1]);
      if x == "" || x in rest then rest else rest + [x]
  }

  /** Some id of `ids` has the normal form `x`. */
  ghost predicate NormalisedIn(ids: seq<string>, norm: string -> string, x: string) {
    exists i :: 0 <= i < |ids| && norm(ids[i]) == x
  }

  lemma NormalisedInLast(ids: seq<string>, norm: string -> string)
    requires |ids| > 0
    ensures forall x :: NormalisedIn(ids, norm, x) <==> NormalisedIn(ids[..|ids| - 1], norm, x) || x == norm(ids[|ids| - 1])
  {
    var n := |ids| - 1;
    assert forall i :: 0 <= i < n ==> ids[..n][i] == ids[i];
  }

  lemma {:induction false} FirstOccurrencesMembers(ids: seq<string>, norm: string -> string)
    ensures forall x :: x in FirstOccurrences(ids, norm) <==> x != "" && NormalisedIn(ids, norm, x)
    ensures Distinct(FirstOccurrences(ids, norm))
  {
    if |ids| > 0 {
      var n := |ids| - 1;
      FirstOccurrencesMembers(ids[..n], norm);
      NormalisedInLast(ids, norm);
      var rest, x := FirstOccurrences(ids[..n], norm), norm(ids[n]);
      if x != "" && x !in rest {
        var r := rest + [x];
        assert FirstOccurrences(ids, norm) == r;
        assert forall y :: y in r <==> y in rest || y == x;
        forall i, j | 0 <= i < j < |r|
          ensures r[i] != r[j]
        {
          assert r[i] == rest[i] && rest[i] in rest;
          if j < |rest| {
            assert r[j] == rest[j] && rest[i] != rest[j];
          } else {
            assert r[j] == x;
          }
        }
      } else {
        assert FirstOccurrences(ids, norm) == rest;
      }
    }
  }

  /** One more id only ever appends. */
  lemma FirstOccurrencesStep(ids: seq<string>, norm: string -> string)
    requires |ids| > 0
    ensures FirstOccurrences(ids[..|ids| - 1], norm) <= FirstOccurrences(ids, norm)
  {
    var rest := FirstOccurrences(ids[..|ids| - 1], norm);
    var x := norm(ids[|ids| - 1]);
    assert FirstOccurrences(ids, norm) == rest || FirstOccurrences(ids, norm) == rest + [x];
    assert (rest + [x])[..|rest|] == rest;
  }

  lemma {:induction false} FirstOccurrencesPrefix(ids: seq<string>, norm: string -> string, k: nat)
    requires k <= |ids|
    ensures FirstOccurrences(ids[..k], norm) <= FirstOccurrences(ids, norm)
    decreases |ids| - k
  {
    if k < |ids| {
      var n := |ids| - 1;
      assert ids[..n][..k] == ids[..k];
      FirstOccurrencesPrefix(ids[..n], norm, k);
      FirstOccurrencesStep(ids, norm);
      PrefixTransitive(FirstOccurrences(ids[..k], norm), FirstOccurrences(ids[..n], norm), FirstOccurrences(ids, norm));
    } else {
      assert ids[..k] == ids;
    }
  }

  /** `str(scan_id).strip()` for each id, empties and repeats dropped, first
      occurrence kept in place. */
  function UniqueScanIds(ids: seq<string>): (r: seq<string>)
    ensures forall x :: x in r <==> x != "" && NormalisedIn(ids, Text.Strip, x)
    ensures Distinct(r)
  {
    FirstOccurrencesMembers(ids, Text.Strip);
    FirstOccurrences(ids, Text.Strip)
  }

  /** An id is kept exactly when some requested id strips to it and it is not
      empty, and no id is kept twice. */
  lemma UniqueScanIdsMembers(ids: seq<string>)
    ensures forall x :: x in UniqueScanIds(ids) <==> x != "" && exists i :: 0 <= i < |ids| && Text.Strip(ids[i]) == x
    ensures Distinct(UniqueScanIds(ids))
  {
    FirstOccurrencesMembers(ids, Text.Strip);
    forall x
      ensures NormalisedIn(ids, Text.Strip, x) <==> exists i :: 0 <= i < |ids| && Text.Strip(ids[i]) == x
    {
      if NormalisedIn(ids, Text.Strip, x) {
        var i :| 0 <= i < |ids| && Text.Strip(ids[i]) == x;
      }
    }
  }

  /** Ids are kept in the order they first appear: the ids of a prefix of the
      request come first, in the same order. */
  lemma UniqueScanIdsPrefix(ids: seq<string>, k: nat)
    requires k <= |ids|
    ensures UniqueScanIds(ids[..k]) <= UniqueScanIds(ids)
  {
    FirstOccurrencesPrefix(ids, Text.Strip, k);
  }

  lemma PrefixTransitive<T>(a: seq<T>, b: seq<T>, c: seq<T>)
    requires a <= b && b <= c
    ensures a <= c
  {
    assert c[..|b|][..|a|] == c[..|a|];
  }

  /** What `load_scan_cache` returns for a readable scan: its located and its
      unlocated entries, both lists. */
  datatype ScanPayload = ScanPayload(items: seq<Json>, unlocated: seq<Json>)

  /** What an entry is told apart by: its id, else its path, else a digest of
      its whole content. */
  datatype KeyBasis = ById(id: string) | ByPath(path: string) | ByDigest(digest: string)

  function Basis(fields: map<string, Json>, digest: map<string, Json> -> string): KeyBasis {
    var id := Get(fields, "id");
    var path := Get(fields, "path");
    if id.JStr? && id.s != "" then ById(id.s)
    else if path.JStr? && path.s != "" then ByPath(path.s)
    else ByDigest(digest(fields))
  }

  /** `media_key`: the basis spelled with a tag. `digest` stands for the SHA-1
      of the entry's sorted JSON text. */
  function MediaKey(fields: map<string, Json>, digest: map<string, Json> -> string): (k: string)
    ensures Basis(fields, digest).ById? ==> k == "id:" + Basis(fields, digest).id
    ensures Basis(fields, digest).ByPath? ==> k == "path:" + Basis(fields, digest).path
    ensures Basis(fields, digest).ByDigest? ==> k == "fallback:" + Basis(fields, digest).digest
  {
    match Basis(fields, digest)
    case ById(id) => "id:" + id
    case ByPath(path) => "path:" + path
    case ByDigest(d) => "fallback:" + d
  }

  /** `media_key` with the digest fixed, as a function of the fields. */
  function MediaKeyOf(digest: map<string, Json> -> string): (key: map<string, Json> -> string)
    ensures forall f :: key(f) == MediaKey(f, digest)
  {
    f => MediaKey(f, digest)
  }

  /** The tags keep the three kinds of key apart: two entries share a key
      exactly when they share a basis. */
  lemma MediaKeySameIff(a: map<string, Json>, b: map<string, Json>, digest: map<string, Json> -> string)
    ensures MediaKey(a, digest) == MediaKey(b, digest) <==> Basis(a, digest) == Basis(b, digest)
  {
    var ka, kb := MediaKey(a, digest), MediaKey(b, digest);
    var ba, bb := Basis(a, digest), Basis(b, digest);
    if ka == kb {
      assert ka[0] == kb[0];
      match ba
      case ById(x) =>
        assert bb.ById? && kb == "id:" + bb.id;
        assert x == ka[3..] && bb.id == kb[3..];
      case ByPath(x) =>
        assert bb.ByPath? && kb == "path:" + bb.path;
        assert x == ka[5..] && bb.path == kb[5..];
      case ByDigest(x) =>
        assert bb.ByDigest? && kb == "fallback:" + bb.digest;
        assert x == ka[9..] && bb.digest == kb[9..];
    }
  }

  /** The keys of the entries of `entries` that are objects. */
  function ObjectKeys<K(!new)>(entries: seq<Json>, key: map<string, Json> -> K): set<K>
  {
    if |entries| == 0 then {}
    else
      var n := |entries| - 1;
      ObjectKeys(entries[..n], key) + (if entries[n].JObj? then {key(entries[n].fields)} else {})
  }

  /** A key is among the keys of a list exactly when some object entry has it. */
  lemma {:induction false} ObjectKeysMember<K(!new)>(entries: seq<Json>, key: map<string, Json> -> K, k: K)
    ensures k in ObjectKeys(entries, key)
            <==> exists i :: 0 <= i < |entries| && entries[i].JObj? && key(entries[i].fields) == k
  {
    if |entries| > 0 {
      var n := |entries| - 1;
      var front := entries[..n];
      ObjectKeysMember(front, key, k);
      if exists i :: 0 <= i < |front| && front[i].JObj? && key(front[i].fields) == k {
        var i :| 0 <= i < |front| && front[i].JObj? && key(front[i].fields) == k;
        assert entries[i] == front[i];
      }
      if exists i :: 0 <= i < |entries| && entries[i].JObj? && key(entries[i].fields) == k {
        var i :| 0 <= i < |entries| && entries[i].JObj? && key(entries[i].fields) == k;
        if i < n {
          assert front[i] == entries[i];
        }
      }
    }
  }

  /** The key of every object entry is among the keys. */
  lemma ObjectKeysHas<K(!new)>(entries: seq<Json>, i: nat, key: map<string, Json> -> K)
    requires i < |entries| && entries[i].JObj?
    ensures key(entries[i].fields) in ObjectKeys(entries, key)
  {
    ObjectKeysMember(entries, key, key(entries[i].fields));
  }

  /** The key of every object entry, by membership, is among the keys. */
  lemma ObjectKeysCover<K(!new)>(entries: seq<Json>, key: map<string, Json> -> K)
    ensures forall e :: e in entries && e.JObj? ==> key(e.fields) in ObjectKeys(entries, key)
  {
    forall e | e in entries && e.JObj?
      ensures key(e.fields) in ObjectKeys(entries, key)
    {
      var i :| 0 <= i < |entries| && entries[i] == e;
      ObjectKeysHas(entries, i, key);
    }
  }

  /** Appending the objects of `entries` whose key has not been seen, and
      marking their keys seen. */
  function AddUnseen<K(!new)>(seen: set<K>, entries: seq<Json>, key: map<string, Json> -> K)
    : (r: (seq<Json>, set<K>))
    ensures r.1 == seen + ObjectKeys(entries, key)
    ensures forall e :: e in r.0 ==> e in entries && e.JObj? && key(e.fields) !in seen
  {
    if |entries| == 0 then
      ([], seen)
    else
      var n := |entries| - 1;
      var rest := AddUnseen(seen, entries[..n], key);
      var e := entries[n];
      assert forall x :: x in entries[..n] ==> x in entries;
      if !e.JObj? then rest
      else
        var k := key(e.fields);
        if k in rest.1 then rest else (rest.0 + [e], rest.1 + {k})
  }

  /** Each kept entry brings one new key: the kept entries are unique by key,
      and the keys they add are exactly the newly seen ones. */
  lemma {:induction false} AddUnseenKept<K(!new)>(seen: set<K>, entries: seq<Json>, key: map<string, Json> -> K)
    ensures var r := AddUnseen(seen, entries, key);
            r.1 == seen + ObjectKeys(r.0, key) && KeysDistinct(r.0, key)
  {
    if |entries| > 0 {
      var n := |entries| - 1;
      AddUnseenKept(seen, entries[..n], key);
      var rest := AddUnseen(seen, entries[..n], key);
      var e := entries[n];
      if e.JObj? && key(e.fields) !in rest.1 {
        AppendNewKey(rest.0, e, key, rest.1);
      }
    }
  }

  /** Every entry is an object and no two share a key. */
  ghost predicate KeysDistinct<K>(entries: seq<Json>, key: map<string, Json> -> K) {
    && (forall i :: 0 <= i < |entries| ==> entries[i].JObj?)
    && (forall i, j :: 0 <= i < j < |entries| ==> key(entries[i].fields) != key(entries[j].fields))
  }

  /** The keys of a list are those of its front and of its last entry. */
  lemma ObjectKeysLast<K(!new)>(entries: seq<Json>, key: map<string, Json> -> K)
    requires |entries| > 0
    ensures ObjectKeys(entries, key)
              == ObjectKeys(entries[..|entries| - 1], key)
                 + (if entries[|entries| - 1].JObj? then {key(entries[|entries| - 1].fields)} else {})
  {
  }

  /** Appending an object whose key is new keeps the keys distinct and adds
      exactly that key. */
  lemma AppendNewKey<K(!new)>(kept: seq<Json>, e: Json, key: map<string, Json> -> K, seen: set<K>)
    requires e.JObj? && ObjectKeys(kept, key) <= seen && key(e.fields) !in seen
    requires KeysDistinct(kept, key)
    ensures KeysDistinct(kept + [e], key)
    ensures ObjectKeys(kept + [e], key) == ObjectKeys(kept, key) + {key(e.fields)}
  {
    var s := kept + [e];
    assert s[..|s| - 1] == kept;
    ObjectKeysLast(s, key);
    forall i, j | 0 <= i < j < |s|
      ensures key(s[i].fields) != key(s[j].fields)
    {
      if j == |kept| {
        assert s[i] == kept[i];
        ObjectKeysHas(kept, i, key);
      } else {
        assert s[i] == kept[i] && s[j] == kept[j];
      }
    }
  }

  /** Every kept entry brings exactly one new key: the seen keys grow by as
      many as there are kept entries. */
  lemma {:induction false} AddUnseenCount<K(!new)>(seen: set<K>, entries: seq<Json>, key: map<string, Json> -> K)
    ensures var r := AddUnseen(seen, entries, key);
            |r.1| == |seen| + |r.0|
  {
    if |entries| > 0 {
      var n := |entries| - 1;
      AddUnseenCount(seen, entries[..n], key);
      var rest := AddUnseen(seen, entries[..n], key);
      var e := entries[n];
      if e.JObj? && key(e.fields) !in rest.1 {
        assert |rest.1 + {key(e.fields)}| == |rest.1| + 1;
      }
    }
  }
  /** The merged view of several scans. */
  datatype Merged = Merged(items: seq<Json>, unlocated: seq<Json>, loaded: seq<string>, missing: seq<string>,
                           seen: set<string>)

  /** `e` is a located entry of some scan of `ids` that could be read. */
  ghost predicate LoadedItem(ids: seq<string>, load: string -> Option<ScanPayload>, e: Json) {
    exists id :: id in ids && load(id).Some? && e in load(id).value.items
  }

  /** `e` is an unlocated entry of some scan of `ids` that could be read. */
  ghost predicate LoadedUnlocated(ids: seq<string>, load: string -> Option<ScanPayload>, e: Json) {
    exists id :: id in ids && load(id).Some? && e in load(id).value.unlocated
  }

  /** The loop of `load_scan_caches` over the de-duplicated ids: a scan that
      cannot be read is reported missing; a readable one contributes its located
      and then its unlocated entries whose key is new. */
  function MergeScans(ids: seq<string>, load: string -> Option<ScanPayload>, digest: map<string, Json> -> string)
    : (m: Merged)
    ensures |m.seen| == |m.items| + |m.unlocated|
    ensures forall id :: id in m.loaded <==> id in ids && load(id).Some?
    ensures forall id :: id in m.missing <==> id in ids && load(id).None?
    ensures |m.loaded| + |m.missing| == |ids|
    ensures forall e :: e in m.items ==> e.JObj? && LoadedItem(ids, load, e)
    ensures forall e :: e in m.unlocated ==> e.JObj? && LoadedUnlocated(ids, load, e)
    ensures AllSeen(ids, load, digest, m.seen)
  {
    if |ids| == 0 then Merged([], [], [], [], {})
    else
      var n := |ids| - 1;
      var m := MergeScans(ids[..n], load, digest);
      var id := ids[n];
      assert forall x :: x in ids <==> x in ids[..n] || x == id;
      LoadedGrow(ids, load);
      match load(id)
      case None =>
        SeenStep(ids, load, digest, m.seen, m.seen);
        m.(missing := m.missing + [id])
      case Some(p) =>
        var r := MergePayload(m, p, digest);
        MergeProvenance(ids, load, m, r);
        SeenStep(ids, load, digest, m.seen, r.seen);
        r.(loaded := m.loaded + [id])
  }

  lemma LoadedGrow(ids: seq<string>, load: string -> Option<ScanPayload>)
    requires |ids| > 0
    ensures forall e :: LoadedItem(ids[..|ids| - 1], load, e) ==> LoadedItem(ids, load, e)
    ensures forall e :: LoadedUnlocated(ids[..|ids| - 1], load, e) ==> LoadedUnlocated(ids, load, e)
  {
    var n := |ids| - 1;
    forall e | LoadedItem(ids[..n], load, e)
      ensures LoadedItem(ids, load, e)
    {
      var id :| id in ids[..n] && load(id).Some? && e in load(id).value.items;
      assert id in ids;
    }
    forall e | LoadedUnlocated(ids[..n], load, e)
      ensures LoadedUnlocated(ids, load, e)
    {
      var id :| id in ids[..n] && load(id).Some? && e in load(id).value.unlocated;
      assert id in ids;
    }
  }

  /** The key of every entry of a readable scan is seen. */
  ghost predicate AllSeen(ids: seq<string>, load: string -> Option<ScanPayload>, digest: map<string, Json> -> string,
                          seen: set<string>) {
    forall id, e :: id in ids && load(id).Some? && e in load(id).value.items + load(id).value.unlocated && e.JObj?
      ==> MediaKey(e.fields, digest) in seen
  }

  /** Seeing the keys of the earlier scans and of the last one, if readable,
      is seeing the keys of all of them. */
  lemma SeenStep(ids: seq<string>, load: string -> Option<ScanPayload>, digest: map<string, Json> -> string,
                 before: set<string>, after: set<string>)
    requires |ids| > 0 && before <= after
    requires AllSeen(ids[..|ids| - 1], load, digest, before)
    requires AllSeen([ids[|ids| - 1]], load, digest, after)
    ensures AllSeen(ids, load, digest, after)
  {
    var n := |ids| - 1;
    forall id, e | id in ids && load(id).Some? && e in load(id).value.items + load(id).value.unlocated && e.JObj?
      ensures MediaKey(e.fields, digest) in after
    {
      if id == ids[n] {
        assert id in [ids[n]];
      } else {
        assert id in ids[..n];
      }
    }
  }

  /** The entries a readable last scan adds come from that scan, and the
      earlier ones from the earlier scans. */
  lemma MergeProvenance(ids: seq<string>, load: string -> Option<ScanPayload>, m: Merged, r: Merged)
    requires |ids| > 0 && load(ids[|ids| - 1]).Some?
    requires forall e :: e in m.items ==> e.JObj? && LoadedItem(ids[..|ids| - 1], load, e)
    requires forall e :: e in m.unlocated ==> e.JObj? && LoadedUnlocated(ids[..|ids| - 1], load, e)
    requires forall e :: e in r.items ==> e in m.items || (e in load(ids[|ids| - 1]).value.items && e.JObj?)
    requires forall e :: e in r.unlocated ==> e in m.unlocated || (e in load(ids[|ids| - 1]).value.unlocated && e.JObj?)
    ensures forall e :: e in r.items ==> e.JObj? && LoadedItem(ids, load, e)
    ensures forall e :: e in r.unlocated ==> e.JObj? && LoadedUnlocated(ids, load, e)
  {
    var n := |ids| - 1;
    LoadedGrow(ids, load);
    assert ids[n] in ids;
  }

  /** One readable scan's step of `load_scan_caches`: its located and then its
      unlocated entries whose key is new are appended, and every key of its
      entries is seen afterwards. */
  function MergePayload(m: Merged, p: ScanPayload, digest: map<string, Json> -> string): (r: Merged)
    ensures |m.seen| == |m.items| + |m.unlocated| ==> |r.seen| == |r.items| + |r.unlocated|
    ensures r.loaded == m.loaded && r.missing == m.missing && m.seen <= r.seen
    ensures forall e :: e in r.items ==> e in m.items || (e in p.items && e.JObj?)
    ensures forall e :: e in r.unlocated ==> e in m.unlocated || (e in p.unlocated && e.JObj?)
    ensures forall e :: e in p.items + p.unlocated && e.JObj? ==> MediaKey(e.fields, digest) in r.seen
  {
    var key := MediaKeyOf(digest);
    var (items, seen1) := AddUnseen(m.seen, p.items, key);
    var (unlocated, seen2) := AddUnseen(seen1, p.unlocated, key);
    AddUnseenCount(m.seen, p.items, key);
    AddUnseenCount(seen1, p.unlocated, key);
    ObjectKeysCover(p.items, key);
    ObjectKeysCover(p.unlocated, key);
    assert forall e :: e in p.items + p.unlocated <==> e in p.items || e in p.unlocated;
    Merged(m.items + items, m.unlocated + unlocated, m.loaded, m.missing, seen2)
  }

  /** When the seen keys are exactly the keys of the merged entries before a
      scan's step, they still are afterwards. */
  lemma MergePayloadKeys(m: Merged, p: ScanPayload, digest: map<string, Json> -> string)
    requires m.seen == ObjectKeys(m.items + m.unlocated, MediaKeyOf(digest))
    ensures var r := MergePayload(m, p, digest);
            r.seen == ObjectKeys(r.items + r.unlocated, MediaKeyOf(digest))
  {
    var key := MediaKeyOf(digest);
    var (items, seen1) := AddUnseen(m.seen, p.items, key);
    var (unlocated, seen2) := AddUnseen(seen1, p.unlocated, key);
    AddUnseenKept(m.seen, p.items, key);
    AddUnseenKept(seen1, p.unlocated, key);
    MergedKeysStep(m.items, items, m.unlocated, unlocated, key);
  }

  /** The merged entries of `load_scan_caches` are unique by media key, and
      the seen keys are exactly their keys. */
  lemma MergeScansKeys(ids: seq<string>, load: string -> Option<ScanPayload>, digest: map<string, Json> -> string)
    ensures var m := MergeScans(ids, load, digest);
            && m.seen == ObjectKeys(m.items + m.unlocated, MediaKeyOf(digest))
            && KeysDistinct(m.items + m.unlocated, MediaKeyOf(digest))
  {
    var m := MergeScans(ids, load, digest);
    MergeScansSeen(ids, load, digest);
    var s := m.items + m.unlocated;
    assert forall e :: e in s ==> e in m.items || e in m.unlocated;
    KeysCountDistinct(s, MediaKeyOf(digest));
  }

  /** The seen keys of the merge are exactly the keys of the merged entries. */
  lemma {:induction false} MergeScansSeen(ids: seq<string>, load: string -> Option<ScanPayload>,
                                          digest: map<string, Json> -> string)
    ensures var m := MergeScans(ids, load, digest);
            m.seen == ObjectKeys(m.items + m.unlocated, MediaKeyOf(digest))
  {
    if |ids| > 0 {
      MergeScansSeen(ids[..|ids| - 1], load, digest);
      MergeScansSeenStep(ids, load, digest);
    }
  }

  /** One more scan keeps the seen keys equal to the keys of the merged entries. */
  lemma MergeScansSeenStep(ids: seq<string>, load: string -> Option<ScanPayload>, digest: map<string, Json> -> string)
    requires |ids| > 0
    requires var m := MergeScans(ids[..|ids| - 1], load, digest);
             m.seen == ObjectKeys(m.items + m.unlocated, MediaKeyOf(digest))
    ensures var m := MergeScans(ids, load, digest);
            m.seen == ObjectKeys(m.items + m.unlocated, MediaKeyOf(digest))
  {
    var before := MergeScans(ids[..|ids| - 1], load, digest);
    match load(ids[|ids| - 1])
    case None =>
    case Some(p) =>
      MergePayloadKeys(before, p, digest);
  }

  /** Every object entry of a readable scan is represented by a merged entry
      with the same media key. */
  lemma MergedCovers(ids: seq<string>, load: string -> Option<ScanPayload>, digest: map<string, Json> -> string,
                     id: string, e: Json)
    requires id in ids && load(id).Some? && e in load(id).value.items + load(id).value.unlocated && e.JObj?
    ensures var s := MergeScans(ids, load, digest).items + MergeScans(ids, load, digest).unlocated;
            exists i :: 0 <= i < |s| && s[i].JObj? && MediaKey(s[i].fields, digest) == MediaKey(e.fields, digest)
  {
    var m := MergeScans(ids, load, digest);
    MergeScansKeys(ids, load, digest);
    ObjectKeysMember(m.items + m.unlocated, MediaKeyOf(digest), MediaKey(e.fields, digest));
  }

  /** The keys of a concatenation are the keys of its parts. */
  lemma {:induction false} ObjectKeysConcat<K(!new)>(a: seq<Json>, b: seq<Json>, key: map<string, Json> -> K)
    ensures ObjectKeys(a + b, key) == ObjectKeys(a, key) + ObjectKeys(b, key)
  {
    if |b| == 0 {
      assert a + b == a;
    } else {
      var n := |b| - 1;
      var s := a + b;
      assert s[..|s| - 1] == a + b[..n] && s[|s| - 1] == b[n];
      ObjectKeysLast(s, key);
      ObjectKeysLast(b, key);
      ObjectKeysConcat(a, b[..n], key);
    }
  }

  /** Keys of the merged lists after appending to both. */
  lemma MergedKeysStep<K(!new)>(items: seq<Json>, moreItems: seq<Json>, unlocated: seq<Json>, moreUnlocated: seq<Json>,
                                key: map<string, Json> -> K)
    ensures ObjectKeys((items + moreItems) + (unlocated + moreUnlocated), key)
            == ObjectKeys(items + unlocated, key) + ObjectKeys(moreItems, key) + ObjectKeys(moreUnlocated, key)
  {
    ObjectKeysConcat(items + moreItems, unlocated + moreUnlocated, key);
    ObjectKeysConcat(items, moreItems, key);
    ObjectKeysConcat(unlocated, moreUnlocated, key);
    ObjectKeysConcat(items, unlocated, key);
  }

  /** As many distinct keys as entries, all objects: no two share a key. */
  lemma {:induction false} KeysCountDistinct<K(!new)>(s: seq<Json>, key: map<string, Json> -> K)
    requires forall e :: e in s ==> e.JObj?
    requires |ObjectKeys(s, key)| == |s|
    ensures KeysDistinct(s, key)
  {
    if |s| > 0 {
      var n := |s| - 1;
      var front := s[..n];
      var k := key(s[n].fields);
      assert s[n] in s;
      ObjectKeysLast(s, key);
      ObjectKeysBound(front, key);
      CardAddOne(ObjectKeys(front, key), k);
      assert forall e :: e in front ==> e in s;
      KeysCountDistinct(front, key);
      forall i, j | 0 <= i < j < |s|
        ensures key(s[i].fields) != key(s[j].fields)
      {
        assert s[i] == front[i];
        if j < n {
          assert s[j] == front[j];
        } else {
          ObjectKeysHas(front, i, key);
        }
      }
      forall i | 0 <= i < |s|
        ensures s[i].JObj?
      {
        assert s[i] in s;
      }
    }
  }

  /** Adding an element grows a set by one exactly when it is new. */
  lemma CardAddOne<K>(a: set<K>, k: K)
    ensures |a + {k}| == if k in a then |a| else |a| + 1
  {
    if k in a {
      assert a + {k} == a;
    }
  }

  /** A list has at most as many keys as entries. */
  lemma {:induction false} ObjectKeysBound<K(!new)>(s: seq<Json>, key: map<string, Json> -> K)
    ensures |ObjectKeys(s, key)| <= |s|
  {
    if |s| > 0 {
      ObjectKeysLast(s, key);
      ObjectKeysBound(s[..|s| - 1], key);
      if s[|s| - 1].JObj? {
        CardAddOne(ObjectKeys(s[..|s| - 1], key), key(s[|s| - 1].fields));
      }
    }
  }

  /** The summary counts of the merged payload. */
  datatype Summary = Summary(total: nat, located: nat, unlocated: nat)

  /** `load_scan_caches`: the merged entries, the summary, and which scans were
      loaded and which were missing. No two merged entries share a key: the
      entries are as many as the distinct keys of everything loaded. */
  function LoadScanCaches(scanIds: seq<string>, load: string -> Option<ScanPayload>, digest: map<string, Json> -> string)
    : (r: (Merged, Summary))
    ensures r.1.total == r.1.located + r.1.unlocated
    ensures r.1.located == |r.0.items| && r.1.unlocated == |r.0.unlocated|
    ensures r.1.total == |r.0.seen|
    ensures r.0.seen == ObjectKeys(r.0.items + r.0.unlocated, MediaKeyOf(digest))
    ensures KeysDistinct(r.0.items + r.0.unlocated, MediaKeyOf(digest))
    ensures forall id :: id in r.0.loaded <==>
              (id != "" && load(id).Some? && exists i :: 0 <= i < |scanIds| && Text.Strip(scanIds[i]) == id)
    ensures forall id :: id in r.0.missing <==>
              (id != "" && load(id).None? && exists i :: 0 <= i < |scanIds| && Text.Strip(scanIds[i]) == id)
  {
    UniqueScanIdsMembers(scanIds);
    var m := MergeScans(UniqueScanIds(scanIds), load, digest);
    MergeScansKeys(UniqueScanIds(scanIds), load, digest);
    (m, Summary(|m.items| + |m.unlocated|, |m.items|, |m.unlocated|))
  }
}

=== FILE: media.dfy ===
/** The extension tables shared by every tool and the classification of a file
    name by its lower-cased suffix. */
module Media {
  import Text

  const ImageExtensions: set<string> := {
    ".jpg", ".jpeg", ".png", ".heic", ".heif", ".gif", ".bmp", ".tif", ".tiff",
    ".webp", ".dng", ".raw", ".arw", ".cr2", ".cr3", ".nef", ".orf", ".rw2"
  }

  const VideoExtensions: set<string> := {
    ".mp4", ".mov", ".m4v", ".avi", ".mkv", ".3gp", ".mts", ".m2ts", ".mpg",
    ".mpeg", ".wmv", ".webm"
  }

  /** Companion files of the organizer (edit lists, XMP metadata). */
  const SidecarExtensions: set<string> := {".aae", ".xmp"}

  /** `Path(name).suffix.lower()`. */
  function Extension(name: string): (r: string)
    ensures |r| == |Text.Suffix(name)|
  {
    Text.Lower(Text.Suffix(name))
  }

  predicate IsImage(name: string) {
    Extension(name) in ImageExtensions
  }

  predicate IsVideo(name: string) {
    Extension(name) in VideoExtensions
  }

  predicate IsSidecar(name: string) {
    Extension(name) in SidecarExtensions
  }

  /** No suffix belongs to two of the tables. */
  lemma ExtensionTablesDisjoint()
    ensures ImageExtensions * VideoExtensions == {}
    ensures ImageExtensions * SidecarExtensions == {}
    ensures VideoExtensions * SidecarExtensions == {}
  {
  }

  /** A name is never both an image and a video. */
  lemma ImageNotVideo(name: string)
    ensures !(IsImage(name) && IsVideo(name))
  {
    ExtensionTablesDisjoint();
    assert Extension(name) !in ImageExtensions * VideoExtensions;
  }
}

=== FILE: media_sources.dfy ===
/** Candidates read from the decoded output of the metadata tools
    (`exiftool_candidates`, `ffprobe_candidates`). Running the tools is not
    modelled: each generator receives the decoded JSON payload (`JNull` when the
    tool produced nothing). */
module MediaSources {
  import opened Wrappers
  import opened Calendar
  import opened Json
  import opened Candidates
  import opened DatetimeUtils
  import Text

  /** The exiftool fields consulted, most trusted first, with their notes. */
  const ExifPriority: seq<(string, string)> := [
    ("DateTimeOriginal", "EXIF capture datetime"),
    ("CreateDate", "Embedded create datetime"),
    ("DateTimeDigitized", "Digitized datetime"),
    ("CreationDate", "Container create datetime"),
    ("TrackCreateDate", "Video track create datetime"),
    ("MediaCreateDate", "Video media create datetime"),
    ("ModifyDate", "Embedded modify datetime")
  ]

  /** A tag value read as a timestamp, made aware in the local zone. */
  function Stamp(raw: Json, local: int, iso: IsoParser): (r: Option<Aware>)
    requires ValidOffset(local)
    ensures r.Some? <==> ParseDatetime(raw, local, iso).Some?
  {
    match ParseDatetime(raw, local, iso)
    case None => None
    case Some(dt) => Some(WithLocalTimezoneIfNaive(dt, local))
  }

  /** The first record of exiftool's list output, when there is one and it is an object. */
  function ExifRecord(payload: Json): Option<map<string, Json>> {
    if payload.JList? && |payload.items| > 0 && payload.items[0].JObj? then Some(payload.items[0].fields)
    else None
  }

  /** The candidate the `k`-th priority field yields, if its value parses. */
  function ExifField(payload: Json, k: nat, local: int, iso: IsoParser): Option<TimeCandidate>
    requires ValidOffset(local) && k < |ExifPriority|
  {
    match ExifRecord(payload)
    case None => None
    case Some(record) =>
      var (field, note) := ExifPriority[k];
      match Stamp(Get(record, field), local, iso)
      case None => None
      case Some(ts) => Some(TimeCandidate("exiftool:" + field, ts, note, None))
  }

  /** The per-field outcomes, in priority order. */
  function ExifFields(payload: Json, local: int, iso: IsoParser): (r: seq<Option<TimeCandidate>>)
    requires ValidOffset(local)
    ensures |r| == |ExifPriority|
    ensures forall k :: 0 <= k < |r| ==> r[k] == ExifField(payload, k, local, iso)
    ensures ExifRecord(payload).None? ==> forall k :: 0 <= k < |r| ==> r[k].None?
  {
    seq(|ExifPriority|, k requires 0 <= k < |ExifPriority| => ExifField(payload, k, local, iso))
  }

  /** `exiftool_candidates`: one candidate per priority field whose value parses,
      in priority order; nothing unless the payload is a non-empty list whose first
      entry is an object. */
  function ExiftoolCandidates(payload: Json, local: int, iso: IsoParser): (r: seq<TimeCandidate>)
    requires ValidOffset(local)
    ensures ExifRecord(payload).None? ==> r == []
    ensures |r| <= |ExifPriority|
    ensures forall c :: c in r ==> Text.StartsWith(c.source, "exiftool:") && c.originSource.None?
  {
    var fields := ExifFields(payload, local, iso);
    var r := Somes(fields);
    forall c | c in r
      ensures Text.StartsWith(c.source, "exiftool:") && c.originSource.None?
    {
      var j :| 0 <= j < |fields| && fields[j] == Some(c);
      assert c.source == "exiftool:" + ExifPriority[j].0;
    }
    r
  }

  /** The exiftool candidates are exactly the priority fields whose values parse. */
  lemma ExiftoolCandidatesFields(payload: Json, local: int, iso: IsoParser)
    requires ValidOffset(local)
    ensures var r := ExiftoolCandidates(payload, local, iso);
            && (forall c :: c in r ==>
                  exists j :: 0 <= j < |ExifPriority| && ExifField(payload, j, local, iso) == Some(c))
            && (forall j :: 0 <= j < |ExifPriority| && ExifField(payload, j, local, iso).Some? ==>
                  ExifField(payload, j, local, iso).value in r)
  {
    var fields := ExifFields(payload, local, iso);
    var r := Somes(fields);
    assert r == ExiftoolCandidates(payload, local, iso);
    forall c | c in r
      ensures exists j :: 0 <= j < |ExifPriority| && ExifField(payload, j, local, iso) == Some(c)
    {
      var j :| 0 <= j < |fields| && fields[j] == Some(c);
    }
    forall j | 0 <= j < |ExifPriority| && ExifField(payload, j, local, iso).Some?
      ensures ExifField(payload, j, local, iso).value in r
    {
      assert fields[j] in fields;
    }
  }

  // ---------------------------------------------------------------------------
  // ffprobe

  const FormatLabel := "ffprobe:" + "format.tags.creation_time"

  /** `f"ffprobe:streams[{idx}].tags.creation_time"`. */
  function StreamLabel(idx: nat): (r: string)
    ensures Text.StartsWith(r, "ffprobe:")
  {
    "ffprobe:streams[" + Text.Digits(idx) + "].tags.creation_time"
  }

  /** `payload.get("format", {})` must be an object: Python fails on the next
      `.get` otherwise, and the callers do not catch that. */
  predicate FfprobeShapeOk(payload: Json) {
    payload.JObj? && "format" in payload.fields ==> payload.fields["format"].JObj?
  }

  /** The container-level candidate, if its `creation_time` tag parses. */
  function FormatField(payload: Json, local: int, iso: IsoParser): Option<TimeCandidate>
    requires ValidOffset(local) && FfprobeShapeOk(payload)
  {
    if !payload.JObj? then None
    else
      var format := GetOr(payload.fields, "format", JObj(map[]));
      var tags := GetOr(format.fields, "tags", JObj(map[]));
      if !tags.JObj? then None
      else
        match Stamp(Get(tags.fields, "creation_time"), local, iso)
        case None => None
        case Some(ts) => Some(TimeCandidate(FormatLabel, ts, "ffprobe container creation_time", None))
  }

  /** `payload.get("streams", [])` when it is a list, else no streams. */
  function Streams(payload: Json): seq<Json> {
    if !payload.JObj? then []
    else
      var streams := GetOr(payload.fields, "streams", JList([]));
      if streams.JList? then streams.items else []
  }

  /** The candidate of stream `idx`, if it is an object with an object `tags`
      whose `creation_time` parses. */
  function StreamField(stream: Json, idx: nat, local: int, iso: IsoParser): Option<TimeCandidate>
    requires ValidOffset(local)
  {
    if !stream.JObj? then None
    else
      var tags := GetOr(stream.fields, "tags", JObj(map[]));
      if !tags.JObj? then None
      else
        match Stamp(Get(tags.fields, "creation_time"), local, iso)
        case None => None
        case Some(ts) => Some(TimeCandidate(StreamLabel(idx), ts, "ffprobe stream creation_time", None))
  }

  /** The per-stream outcomes, in stream order. */
  function StreamFields(streams: seq<Json>, local: int, iso: IsoParser): (r: seq<Option<TimeCandidate>>)
    requires ValidOffset(local)
    ensures |r| == |streams|
    ensures forall j :: 0 <= j < |r| ==> r[j] == StreamField(streams[j], j, local, iso)
    ensures forall j :: 0 <= j < |r| && r[j].Some? ==>
              r[j].value.source == StreamLabel(j) && r[j].value.originSource.None?
  {
    seq(|streams|, j requires 0 <= j < |streams| => StreamField(streams[j], j, local, iso))
  }

  /** Keeping the present outcomes of stream-labelled fields: each kept candidate
      names its stream, and a stream contributes exactly when its field is present. */
  lemma StreamCandidatesLabelled(fields: seq<Option<TimeCandidate>>)
    requires forall j :: 0 <= j < |fields| && fields[j].Some? ==>
               fields[j].value.source == StreamLabel(j) && fields[j].value.originSource.None?
    ensures var tail := Somes(fields);
            && (forall c :: c in tail ==> c.source != FormatLabel && Text.StartsWith(c.source, "ffprobe:") && c.originSource.None?)
            && (forall j :: 0 <= j < |fields| ==>
                  (fields[j].Some? <==> exists c :: c in tail && c.source == StreamLabel(j)))
  {
    StreamCandidatesNamed(fields);
    StreamCandidatesPresent(fields);
  }

  lemma StreamCandidatesNamed(fields: seq<Option<TimeCandidate>>)
    requires forall j :: 0 <= j < |fields| && fields[j].Some? ==>
               fields[j].value.source == StreamLabel(j) && fields[j].value.originSource.None?
    ensures forall c :: c in Somes(fields) ==>
              c.source != FormatLabel && Text.StartsWith(c.source, "ffprobe:") && c.originSource.None?
  {
    forall c | c in Somes(fields)
      ensures c.source != FormatLabel && Text.StartsWith(c.source, "ffprobe:") && c.originSource.None?
    {
      var j :| 0 <= j < |fields| && fields[j] == Some(c);
      StreamLabelNotFormat(j);
    }
  }

  lemma StreamCandidatesPresent(fields: seq<Option<TimeCandidate>>)
    requires forall j :: 0 <= j < |fields| && fields[j].Some? ==>
               fields[j].value.source == StreamLabel(j) && fields[j].value.originSource.None?
    ensures forall j :: 0 <= j < |fields| ==>
              (fields[j].Some? <==> exists c :: c in Somes(fields) && c.source == StreamLabel(j))
  {
    var tail := Somes(fields);
    forall j | 0 <= j < |fields|
      ensures fields[j].Some? <==> exists c :: c in tail && c.source == StreamLabel(j)
    {
      if fields[j].Some? {
        assert fields[j] in fields;
        assert fields[j].value in tail;
      }
      if c :| c in tail && c.source == StreamLabel(j) {
        var j' :| 0 <= j' < |fields| && fields[j'] == Some(c);
        StreamLabelInjective(j, j');
      }
    }
  }

  /** `ffprobe_candidates`: the container tag first, then one candidate per
      usable stream, in stream order; nothing unless the payload is an object. */
  function FfprobeCandidates(payload: Json, local: int, iso: IsoParser): (r: seq<TimeCandidate>)
    requires ValidOffset(local) && FfprobeShapeOk(payload)
    ensures !payload.JObj? ==> r == []
    ensures |r| <= 1 + |Streams(payload)|
    ensures forall c :: c in r ==> Text.StartsWith(c.source, "ffprobe:") && c.originSource.None?
  {
    var fields := StreamFields(Streams(payload), local, iso);
    StreamCandidatesLabelled(fields);
    var format := FormatField(payload, local, iso);
    FormatFieldLabelled(payload, local, iso);
    if format.Some? then [format.value] + Somes(fields) else Somes(fields)
  }

  /** The container candidate, when present, carries the container label. */
  lemma FormatFieldLabelled(payload: Json, local: int, iso: IsoParser)
    requires ValidOffset(local) && FfprobeShapeOk(payload)
    ensures var format := FormatField(payload, local, iso);
            format.Some? ==> && format.value.source == FormatLabel
                             && Text.StartsWith(format.value.source, "ffprobe:")
                             && format.value.originSource.None?
  {
    assert FormatLabel[..8] == "ffprobe:";
  }

  /** The container candidate leads exactly when its tag parses, and stream `j`
      contributes a candidate exactly when its tag parses. */
  lemma FfprobeCandidatesFields(payload: Json, local: int, iso: IsoParser)
    requires ValidOffset(local) && FfprobeShapeOk(payload)
    ensures var r := FfprobeCandidates(payload, local, iso);
            var format := FormatField(payload, local, iso);
            && (format.Some? <==> |r| > 0 && r[0].source == FormatLabel)
            && (format.Some? ==> r[0] == format.value)
            && (forall j :: 0 <= j < |Streams(payload)| ==>
                  (StreamField(Streams(payload)[j], j, local, iso).Some? <==>
                   exists c :: c in r && c.source == StreamLabel(j)))
  {
    var streams := Streams(payload);
    var fields := StreamFields(streams, local, iso);
    var tail := Somes(fields);
    StreamCandidatesLabelled(fields);
    assert |tail| > 0 ==> tail[0] in tail;
    match FormatField(payload, local, iso)
    case None =>
    case Some(c) =>
      forall j | 0 <= j < |streams| ensures StreamLabel(j) != c.source { StreamLabelNotFormat(j); }
  }
  /** Every ffprobe candidate is the parsed container tag or the parsed tag of
      one of the streams, and every stream tag that parses is among them. */
  lemma FfprobeCandidatesValues(payload: Json, local: int, iso: IsoParser)
    requires ValidOffset(local) && FfprobeShapeOk(payload)
    ensures var r := FfprobeCandidates(payload, local, iso);
            var streams := Streams(payload);
            && (forall c :: c in r ==>
                  FormatField(payload, local, iso) == Some(c)
                  || exists j :: 0 <= j < |streams| && StreamField(streams[j], j, local, iso) == Some(c))
            && (forall j :: 0 <= j < |streams| && StreamField(streams[j], j, local, iso).Some? ==>
                  StreamField(streams[j], j, local, iso).value in r)
  {
    var streams := Streams(payload);
    var fields := StreamFields(streams, local, iso);
    var tail := Somes(fields);
    var r := FfprobeCandidates(payload, local, iso);
    var format := FormatField(payload, local, iso);
    assert r == if format.Some? then [format.value] + tail else tail;
    assert forall c :: c in r ==> c in tail || format == Some(c);
    forall c | c in r
      ensures FormatField(payload, local, iso) == Some(c)
              || exists j :: 0 <= j < |streams| && StreamField(streams[j], j, local, iso) == Some(c)
    {
      if c in tail {
        var j :| 0 <= j < |fields| && fields[j] == Some(c);
      }
    }
    forall j | 0 <= j < |streams| && StreamField(streams[j], j, local, iso).Some?
      ensures StreamField(streams[j], j, local, iso).value in r
    {
      assert fields[j] in fields;
    }
  }


  lemma StreamLabelNotFormat(j: nat)
    ensures StreamLabel(j) != FormatLabel
  {
    assert StreamLabel(j)[8] == 's' && FormatLabel[8] == 'f';
  }

  /** Distinct streams get distinct labels. */
  lemma StreamLabelInjective(i: nat, j: nat)
    requires StreamLabel(i) == StreamLabel(j)
    ensures i == j
  {
    var p, q := "ffprobe:streams[", "].tags.creation_time";
    var a, b := Text.Digits(i), Text.Digits(j);
    assert StreamLabel(i) == p + a + q && StreamLabel(j) == p + b + q;
    assert |a| == |b|;
    assert a == StreamLabel(i)[|p|..|p| + |a|];
  }
}

=== FILE: order.dfy ===
/** Orderings used by the repository's `sorted(...)` calls: Python's string
    comparison, the component-wise comparison of paths, and a stable sort. */
module Order {

  /** Python's `a < b` on `str`: lexicographic by code point. */
  predicate StrLt(a: string, b: string)
    decreases |a|
  {
    if |a| == 0 then |b| > 0
    else if |b| == 0 then false
    else if a[0] != b[0] then a[0] < b[0]
    else StrLt(a[1..], b[1..])
  }

  lemma StrLtIrreflexive(a: string)
    ensures !StrLt(a, a)
  {
  }

  lemma StrLtTransitive(a: string, b: string, c: string)
    requires StrLt(a, b) && StrLt(b, c)
    ensures StrLt(a, c)
  {
  }

  lemma StrLtTotal(a: string, b: string)
    ensures a == b || StrLt(a, b) || StrLt(b, a)
    ensures !(StrLt(a, b) && StrLt(b, a))
  {
    if |a| > 0 && |b| > 0 && a[0] == b[0] {
      StrLtTotal(a[1..], b[1..]);
      assert a == [a[0]] + a[1..] && b == [b[0]] + b[1..];
    }
  }

  /** A shorter string that is a prefix of a longer one sorts first. */
  lemma StrLtPrefix(a: string, b: string)
    requires |a| < |b| && b[..|a|] == a
    ensures StrLt(a, b)
  {
    if |a| > 0 {
      assert a[1..] == b[1..][..|a| - 1];
      StrLtPrefix(a[1..], b[1..]);
    }
  }

  /** A path as the sequence of its parts (`Path.parts`). */
  type Path = seq<string>

  /** `Path.parent` on the parts of a path; the empty path is its own parent. */
  function Parent(p: Path): (r: Path)
    ensures |p| > 0 ==> |r| == |p| - 1 && p == r + [p[|p| - 1]]
  {
    if |p| == 0 then p else p[..|p| - 1]
  }

  /** `Path.name`: the last part, or `""` for the empty path. */
  function Name(p: Path): (r: string)
    ensures |p| > 0 ==> r == p[|p| - 1]
  {
    if |p| == 0 then "" else p[|p| - 1]
  }

  /** `PurePosixPath.__lt__`: lexicographic comparison of the parts. */
  predicate PathLt(a: Path, b: Path)
    decreases |a|
  {
    if |a| == 0 then |b| > 0
    else if |b| == 0 then false
    else if a[0] != b[0] then StrLt(a[0], b[0])
    else PathLt(a[1..], b[1..])
  }

  lemma PathLtTransitive(a: Path, b: Path, c: Path)
    requires PathLt(a, b) && PathLt(b, c)
    ensures PathLt(a, c)
  {
    if |a| > 0 && |b| > 0 && |c| > 0 {
      if a[0] != b[0] && b[0] != c[0] {
        StrLtTransitive(a[0], b[0], c[0]);
        StrLtTotal(a[0], c[0]);
      } else if a[0] == b[0] && b[0] == c[0] {
        PathLtTransitive(a[1..], b[1..], c[1..]);
      }
    }
  }

  lemma PathLtTotal(a: Path, b: Path)
    ensures a == b || PathLt(a, b) || PathLt(b, a)
    ensures !(PathLt(a, b) && PathLt(b, a))
  {
    if |a| > 0 && |b| > 0 {
      StrLtTotal(a[0], b[0]);
      if a[0] == b[0] {
        PathLtTotal(a[1..], b[1..]);
        assert a == [a[0]] + a[1..] && b == [b[0]] + b[1..];
      }
    }
  }

  /** No element is ranked strictly before an element that precedes it. */
  ghost predicate SortedBy<T>(s: seq<T>, lt: (T, T) -> bool) {
    forall i, j :: 0 <= i < j < |s| ==> !lt(s[j], s[i])
  }

  /** `lt` is a strict partial order on the elements of `s`. */
  ghost predicate StrictOn<T>(s: seq<T>, lt: (T, T) -> bool) {
    && (forall a :: a in s ==> !lt(a, a))
    && (forall a, b, c :: a in s && b in s && c in s && lt(a, b) && lt(b, c) ==> lt(a, c))
  }

  /** Inserts `x` before the first element it ranks strictly before; after all
      elements it ties with, which keeps the sort stable. */
  function Insert<T>(x: T, s: seq<T>, lt: (T, T) -> bool): (r: seq<T>)
    ensures multiset(r) == multiset(s) + multiset{x}
    ensures |r| == |s| + 1
  {
    if |s| == 0 then [x]
    else if lt(x, s[0]) then [x] + s
    else
      assert s == [s[0]] + s[1..];
      [s[0]] + Insert(x, s[1..], lt)
  }

  /** `sorted(s, key=cmp_to_key(...))` modelled as a stable insertion sort: the
      result is always a permutation of the input. */
  function SortBy<T>(s: seq<T>, lt: (T, T) -> bool): (r: seq<T>)
    ensures multiset(r) == multiset(s)
    ensures |r| == |s|
  {
    if |s| == 0 then []
    else
      assert s == s[..|s| - 1] + [s[|s| - 1]];
      Insert(s[|s| - 1], SortBy(s[..|s| - 1], lt), lt)
  }

  lemma {:induction false} InsertSorted<T>(x: T, s: seq<T>, lt: (T, T) -> bool, all: seq<T>)
    requires SortedBy(s, lt)
    requires x in all && forall y :: y in s ==> y in all
    requires StrictOn(all, lt)
    ensures SortedBy(Insert(x, s, lt), lt)
  {
    var r := Insert(x, s, lt);
    if |s| == 0 {
    } else if lt(x, s[0]) {
      forall i, j | 0 <= i < j < |r|
        ensures !lt(r[j], r[i])
      {
        if i == 0 {
          var y := s[j - 1];
          assert r[j] == y && r[i] == x;
          assert y in all && s[0] in all;
          assert j - 1 == 0 || !lt(y, s[0]);
        } else {
          assert r[i] == s[i - 1] && r[j] == s[j - 1];
        }
      }
    } else {
      InsertSorted(x, s[1..], lt, all);
      var t := Insert(x, s[1..], lt);
      assert r == [s[0]] + t;
      forall i, j | 0 <= i < j < |r|
        ensures !lt(r[j], r[i])
      {
        if i == 0 {
          assert r[j] in multiset(t);
          assert r[j] == x || r[j] in multiset(s[1..]);
          if r[j] != x {
            var k :| 0 <= k < |s[1..]| && s[1..][k] == r[j];
            assert s[k + 1] == r[j];
          }
        } else {
          assert r[i] == t[i - 1] && r[j] == t[j - 1];
        }
      }
    }
  }

  /** When the comparison is a strict order on the elements, the result is sorted. */
  lemma {:induction false} SortBySorted<T>(s: seq<T>, lt: (T, T) -> bool)
    requires StrictOn(s, lt)
    ensures SortedBy(SortBy(s, lt), lt)
  {
    if |s| > 0 {
      var p := s[..|s| - 1];
      forall a, b, c | a in p && b in p && c in p && lt(a, b) && lt(b, c)
        ensures lt(a, c)
      {
        assert a in s && b in s && c in s;
      }
      forall a | a in p
        ensures !lt(a, a)
      {
        assert a in s;
      }
      SortBySorted(p, lt);
      forall y | y in SortBy(p, lt)
        ensures y in s
      {
        assert y in multiset(SortBy(p, lt));
        assert y in p;
      }
      InsertSorted(s[|s| - 1], SortBy(p, lt), lt, s);
    }
  }

  /** `p` holds between the elements at any two distinct positions. */
  ghost predicate DistinctBy<T>(s: seq<T>, p: (T, T) -> bool) {
    forall i, j :: 0 <= i < |s| && 0 <= j < |s| && i != j ==> p(s[i], s[j])
  }

  lemma {:induction false} InsertDistinctBy<T>(x: T, s: seq<T>, lt: (T, T) -> bool, p: (T, T) -> bool)
    requires DistinctBy(s, p)
    requires forall y :: y in s ==> p(x, y) && p(y, x)
    ensures DistinctBy(Insert(x, s, lt), p)
  {
    if |s| == 0 {
    } else if lt(x, s[0]) {
      ConsDistinctBy(x, s, p);
    } else {
      var t := Insert(x, s[1..], lt);
      forall i, j | 0 <= i < |s[1..]| && 0 <= j < |s[1..]| && i != j
        ensures p(s[1..][i], s[1..][j])
      {
        assert s[1..][i] == s[i + 1] && s[1..][j] == s[j + 1];
      }
      InsertDistinctBy(x, s[1..], lt, p);
      forall y | y in t
        ensures p(s[0], y) && p(y, s[0])
      {
        assert y in multiset(t);
        if y != x {
          assert y in multiset(s[1..]);
          var m :| 0 <= m < |s[1..]| && s[1..][m] == y;
          assert s[m + 1] == y;
        }
      }
      ConsDistinctBy(s[0], t, p);
    }
  }

  lemma ConsDistinctBy<T>(x: T, s: seq<T>, p: (T, T) -> bool)
    requires DistinctBy(s, p)
    requires forall y :: y in s ==> p(x, y) && p(y, x)
    ensures DistinctBy([x] + s, p)
  {
    var r := [x] + s;
    forall i, j | 0 <= i < |r| && 0 <= j < |r| && i != j
      ensures p(r[i], r[j])
    {
      if i > 0 && j > 0 {
        assert r[i] == s[i - 1] && r[j] == s[j - 1];
      } else if i == 0 {
        assert r[j] in s;
      } else {
        assert r[i] in s;
      }
    }
  }

  /** Sorting keeps a property that held between every two distinct positions. */
  lemma {:induction false} SortByDistinctBy<T>(s: seq<T>, lt: (T, T) -> bool, p: (T, T) -> bool)
    requires DistinctBy(s, p)
    ensures DistinctBy(SortBy(s, lt), p)
  {
    if |s| > 0 {
      var q := s[..|s| - 1];
      var x := s[|s| - 1];
      forall i, j | 0 <= i < |q| && 0 <= j < |q| && i != j
        ensures p(q[i], q[j])
      {
        assert q[i] == s[i] && q[j] == s[j];
      }
      SortByDistinctBy(q, lt, p);
      forall y | y in SortBy(q, lt)
        ensures p(x, y) && p(y, x)
      {
        assert y in multiset(SortBy(q, lt));
        var k :| 0 <= k < |q| && q[k] == y;
        assert s[k] == y;
      }
      InsertDistinctBy(x, SortBy(q, lt), lt, p);
    }
  }
}

=== FILE: organizer.dfy ===
/** The planning core of the photo organizer: the earliest-candidate time
    estimate, the `YYYYMMDD` date key and its quarter folder, the plan that
    gives each sidecar the date of its primary file, and the copy-or-skip run
    over the output tree. The tree is a set of existing files and a list of
    existing directories; tool output, `stat` values and the local offset are
    parameters. */
module Organizer {
  import opened Wrappers
  import opened Calendar
  import opened Order
  import Text
  import Media
  import Seqs

  // ---------------------------------------------------------------------------
  // Time estimate

  /** A timestamp candidate. The float confidence score of the original record
      takes part in no decision and is not modelled. */
  datatype Candidate = Candidate(source: string, timestamp: Aware)

  /** The position of the first element with the least key: Python's
      `min(s, key=...)`, which keeps the first of equal keys. */
  function ArgMin<T>(s: seq<T>, key: T -> int): (i: nat)
    requires |s| > 0
    ensures i < |s|
    ensures forall j :: 0 <= j < |s| ==> key(s[i]) <= key(s[j])
    ensures forall j :: 0 <= j < i ==> key(s[j]) > key(s[i])
  {
    if |s| == 1 then 0
    else
      var n := |s| - 1;
      var j := ArgMin(s[..n], key);
      assert forall k :: 0 <= k < n ==> s[..n][k] == s[k];
      if key(s[n]) < key(s[j]) then n else j
  }

  /** Position `k` holds an earliest candidate and every position before it a
      strictly later one: the element `min` picks. */
  ghost predicate FirstEarliest(cs: seq<Candidate>, k: int) {
    && 0 <= k < |cs|
    && (forall j :: 0 <= j < |cs| ==> Instant(cs[k].timestamp) <= Instant(cs[j].timestamp))
    && (forall j :: 0 <= j < k ==> Instant(cs[j].timestamp) > Instant(cs[k].timestamp))
  }

  /** Only one position is the first earliest. */
  lemma FirstEarliestUnique(cs: seq<Candidate>, k1: int, k2: int)
    requires FirstEarliest(cs, k1) && FirstEarliest(cs, k2)
    ensures k1 == k2
  {
    assert Instant(cs[k1].timestamp) == Instant(cs[k2].timestamp);
  }

  /** The candidate with the earliest instant, the first of equals. */
  function Earliest(cs: seq<Candidate>): (c: Candidate)
    requires |cs| > 0
    ensures c in cs
    ensures forall d :: d in cs ==> Instant(c.timestamp) <= Instant(d.timestamp)
    ensures exists k :: FirstEarliest(cs, k) && cs[k] == c
  {
    var i := ArgMin(cs, (d: Candidate) => Instant(d.timestamp));
    assert forall d :: d in cs ==> exists j :: 0 <= j < |cs| && cs[j] == d;
    assert FirstEarliest(cs, i);
    cs[i]
  }

  const FilesystemSource := "filesystem:oldest_of_birth_mtime_ctime"

  /** `named_times`: modification and change time, then birth time when the
      platform reports one. */
  function NamedTimes(mtime: Aware, ctime: Aware, birth: Option<Aware>): seq<(string, Aware)> {
    [("mtime", mtime), ("ctime", ctime)] + (if birth.Some? then [("birthtime", birth.value)] else [])
  }

  /** `filesystem_candidate`: the oldest of the file's times, with the name of
      the one chosen; on a tie the earlier of mtime, ctime, birthtime wins. */
  function FilesystemCandidate(mtime: Aware, ctime: Aware, birth: Option<Aware>): (r: (Candidate, string))
    ensures r.0.source == FilesystemSource
    ensures Instant(r.0.timestamp) <= Instant(mtime) && Instant(r.0.timestamp) <= Instant(ctime)
    ensures birth.Some? ==> Instant(r.0.timestamp) <= Instant(birth.value)
    ensures r.1 == "mtime" || r.1 == "ctime" || (r.1 == "birthtime" && birth.Some?)
    ensures r.1 == "mtime" ==> r.0.timestamp == mtime
    ensures r.1 == "ctime" ==> r.0.timestamp == ctime && Instant(ctime) < Instant(mtime)
    ensures r.1 == "birthtime" ==> birth.Some? && r.0.timestamp == birth.value
                                   && Instant(birth.value) < Instant(mtime) && Instant(birth.value) < Instant(ctime)
  {
    var named := NamedTimes(mtime, ctime, birth);
    var i := ArgMin(named, (p: (string, Aware)) => Instant(p.1));
    assert named[0] == ("mtime", mtime) && named[1] == ("ctime", ctime);
    assert "mtime"[0] != "ctime"[0] && "mtime"[0] != "birthtime"[0] && "ctime"[0] != "birthtime"[0];
    (Candidate(FilesystemSource, named[i].1), named[i].0)
  }

  /** The organizer probes a file with ffprobe when it is a video, or when it
      is neither an image nor a sidecar. */
  predicate RunsFfprobe(name: string) {
    Media.IsVideo(name) || (!Media.IsImage(name) && !Media.IsSidecar(name))
  }

  /** Images and sidecars are never probed, videos always. */
  lemma RunsFfprobeByKind(name: string)
    ensures Media.IsImage(name) || Media.IsSidecar(name) ==> !RunsFfprobe(name)
    ensures Media.IsVideo(name) ==> RunsFfprobe(name)
  {
    Media.ImageNotVideo(name);
    Media.ExtensionTablesDisjoint();
    assert Media.Extension(name) !in Media.VideoExtensions * Media.SidecarExtensions;
  }

  /** `TimeEstimate`. */
  datatype TimeEstimate = TimeEstimate(estimatedAt: Aware, estimatedSource: string, mediaEstimatedAt: Option<Aware>,
                                       filesystemEstimatedAt: Aware, filesystemEstimatedFrom: string)

  /** The candidates the estimate considers: the exiftool ones, the ffprobe
      ones when the file is probed, and the filesystem one last. */
  function MediaConsidered(probed: bool, exif: seq<Candidate>, probe: seq<Candidate>): seq<Candidate> {
    exif + (if probed then probe else [])
  }

  /** `estimate_time` given what the tools and `stat` report: the earliest of
      all candidates, the earliest media candidate if there is one, and the
      filesystem candidate. */
  function EstimateTime(probed: bool, exif: seq<Candidate>, probe: seq<Candidate>, fs: (Candidate, string))
    : (e: TimeEstimate)
    ensures e.filesystemEstimatedAt == fs.0.timestamp && e.filesystemEstimatedFrom == fs.1
    ensures Candidate(e.estimatedSource, e.estimatedAt) in MediaConsidered(probed, exif, probe) + [fs.0]
    ensures forall c :: c in MediaConsidered(probed, exif, probe) + [fs.0] ==>
              Instant(e.estimatedAt) <= Instant(c.timestamp)
    ensures Instant(e.estimatedAt) <= Instant(e.filesystemEstimatedAt)
    ensures e.mediaEstimatedAt.None? <==> |MediaConsidered(probed, exif, probe)| == 0
    ensures e.mediaEstimatedAt.Some? ==>
              Instant(e.estimatedAt) <= Instant(e.mediaEstimatedAt.value)
              && exists c :: c in MediaConsidered(probed, exif, probe) && c.timestamp == e.mediaEstimatedAt.value
    ensures e.mediaEstimatedAt.Some? ==>
              forall c :: c in MediaConsidered(probed, exif, probe) ==>
                Instant(e.mediaEstimatedAt.value) <= Instant(c.timestamp)
    ensures var all := MediaConsidered(probed, exif, probe) + [fs.0];
            exists k :: FirstEarliest(all, k) && all[k] == Candidate(e.estimatedSource, e.estimatedAt)
    ensures var media := MediaConsidered(probed, exif, probe);
            e.mediaEstimatedAt.Some? ==> exists k :: FirstEarliest(media, k) && media[k].timestamp == e.mediaEstimatedAt.value
    ensures var media := MediaConsidered(probed, exif, probe);
            (exists c :: c in media && Instant(c.timestamp) <= Instant(fs.0.timestamp)) ==>
              Candidate(e.estimatedSource, e.estimatedAt) in media
    ensures var media := MediaConsidered(probed, exif, probe);
            (forall c :: c in media ==> Instant(fs.0.timestamp) < Instant(c.timestamp)) ==>
              Candidate(e.estimatedSource, e.estimatedAt) == fs.0
  {
    var media := MediaConsidered(probed, exif, probe);
    var e := EstimateFrom(media, fs);
    e
  }

  /** The estimate from the media candidates already gathered. */
  function EstimateFrom(media: seq<Candidate>, fs: (Candidate, string)): (e: TimeEstimate)
    ensures e.filesystemEstimatedAt == fs.0.timestamp && e.filesystemEstimatedFrom == fs.1
    ensures Candidate(e.estimatedSource, e.estimatedAt) in media + [fs.0]
    ensures forall c :: c in media + [fs.0] ==> Instant(e.estimatedAt) <= Instant(c.timestamp)
    ensures e.mediaEstimatedAt.None? <==> |media| == 0
    ensures e.mediaEstimatedAt.Some? ==>
              && (exists c :: c in media && c.timestamp == e.mediaEstimatedAt.value)
              && (forall c :: c in media ==> Instant(e.mediaEstimatedAt.value) <= Instant(c.timestamp))
    ensures exists k :: FirstEarliest(media + [fs.0], k) && (media + [fs.0])[k] == Candidate(e.estimatedSource, e.estimatedAt)
    ensures e.mediaEstimatedAt.Some? ==>
              exists k :: FirstEarliest(media, k) && media[k].timestamp == e.mediaEstimatedAt.value
    ensures (exists c :: c in media && Instant(c.timestamp) <= Instant(fs.0.timestamp)) ==>
              Candidate(e.estimatedSource, e.estimatedAt) in media
    ensures (forall c :: c in media ==> Instant(fs.0.timestamp) < Instant(c.timestamp)) ==>
              Candidate(e.estimatedSource, e.estimatedAt) == fs.0
  {
    var best := Earliest(media + [fs.0]);
    var mediaBest := if |media| > 0 then Some(Earliest(media).timestamp) else None;
    TimeEstimate(best.timestamp, best.source, mediaBest, fs.0.timestamp, fs.1)
  }

  /** What ffprobe would report about an image does not change its estimate. */
  lemma ImageEstimateIgnoresProbe(name: string, exif: seq<Candidate>, probe: seq<Candidate>, fs: (Candidate, string))
    requires Media.IsImage(name)
    ensures EstimateTime(RunsFfprobe(name), exif, probe, fs) == EstimateTime(RunsFfprobe(name), exif, [], fs)
  {
    RunsFfprobeByKind(name);
  }

  // ---------------------------------------------------------------------------
  // Date key and quarter

  lemma DateDigitsFields(w: Wall)
    requires ValidWall(w)
    ensures Text.AllDigits(DateDigits(w))
    ensures Text.DecimalValue(DateDigits(w)[..4]) == w.year
    ensures Text.DecimalValue(DateDigits(w)[4..6]) == w.month
    ensures Text.DecimalValue(DateDigits(w)[6..]) == w.day
  {
    var y, m, d := Text.Pad4(w.year), Text.Pad2(w.month), Text.Pad2(w.day);
    var s := DateDigits(w);
    assert s == y + m + d;
    assert s[..4] == y && s[4..6] == m && s[6..] == d;
  }

  /** `get_date_key`: the estimate shown in the local zone as `YYYYMMDD`, or
      nothing when that wall clock leaves years 1..9999 (where Python raises). */
  function GetDateKey(e: TimeEstimate, local: int): (r: Option<string>)
    requires ValidOffset(local)
    ensures r.Some? <==> AtOffset(Instant(e.estimatedAt), local).Some?
    ensures r.Some? ==> |r.value| == 8 && Text.AllDigits(r.value)
    ensures r.Some? ==> var w := AtOffset(Instant(e.estimatedAt), local).value.wall;
                        && Text.DecimalValue(r.value[..4]) == w.year
                        && Text.DecimalValue(r.value[4..6]) == w.month
                        && Text.DecimalValue(r.value[6..]) == w.day
  {
    match AtOffset(Instant(e.estimatedAt), local)
    case None => None
    case Some(dt) =>
      DateDigitsFields(dt.wall);
      Some(DateDigits(dt.wall))
  }

  /** `((month - 1) // 3) + 1`. Python's floor division and Dafny's division
      agree for a positive divisor. */
  function Quarter(month: int): int {
    (month - 1) / 3 + 1
  }

  /** Months 1..12 fall in quarters 1..4, three months each. */
  lemma QuarterOfMonth(month: int)
    requires 1 <= month <= 12
    ensures 1 <= Quarter(month) <= 4
    ensures 3 * (Quarter(month) - 1) + 1 <= month <= 3 * Quarter(month)
  {
  }

  /** Python's `s[i:j]` for non-negative bounds: both are clamped to the
      length, and a reversed range is empty. */
  function Slice(s: string, i: nat, j: nat): (r: string)
    ensures j <= |s| && i <= j ==> r == s[i..j]
    ensures |s| <= i ==> r == ""
  {
    var a := if i < |s| then i else |s|;
    var b := if j < |s| then j else |s|;
    if a <= b then s[a..b] else ""
  }

  /** `f"{year}Q{quarter}"` with `year = date_key[:4]` and
      `month = int(date_key[4:6])`; nothing when that slice is empty or not all
      digits (where Python raises). */
  function QuarterKey(dateKey: string): (r: Option<string>)
    ensures r.Some? <==> 5 <= |dateKey| && Text.AllDigits(Slice(dateKey, 4, 6))
    ensures r.Some? && 6 <= |dateKey| ==>
              var q := Quarter(Text.DecimalValue(dateKey[4..6]));
              q >= 0 && r.value == dateKey[..4] + "Q" + Text.Digits(q)
    ensures r.Some? && |dateKey| == 5 ==>
              var q := Quarter(Text.DecimalValue(dateKey[4..]));
              q >= 0 && r.value == dateKey[..4] + "Q" + Text.Digits(q)
  {
    var monthText := Slice(dateKey, 4, 6);
    if |monthText| > 0 && Text.AllDigits(monthText) then
      var q := Quarter(Text.DecimalValue(monthText));
      Some(Slice(dateKey, 0, 4) + "Q" + Text.Digits(q))
    else None
  }

  /** A date key produced by `GetDateKey` always has a quarter folder, named by
      its year and a quarter 1..4 that contains its month. */
  lemma QuarterKeyOfDateKey(e: TimeEstimate, local: int)
    requires ValidOffset(local) && GetDateKey(e, local).Some?
    ensures var key := GetDateKey(e, local).value;
            var month := AtOffset(Instant(e.estimatedAt), local).value.wall.month;
            && QuarterKey(key) == Some(key[..4] + "Q" + Text.Digits(Quarter(month)))
            && 1 <= Quarter(month) <= 4 && |Text.Digits(Quarter(month))| == 1
  {
    var month := AtOffset(Instant(e.estimatedAt), local).value.wall.month;
    QuarterOfMonth(month);
  }

  // ---------------------------------------------------------------------------
  // Plan

  /** `FileRecord` without its estimate: the source file and its date key. */
  datatype FileRecord = FileRecord(source: Path, dateKey: string)

  predicate IsSidecarPath(p: Path) {
    Media.IsSidecar(Name(p))
  }

  /** The key of `stem_date_map`: the parent directory and the stem. */
  function StemKey(p: Path): (Path, string) {
    (Parent(p), Text.Stem(Name(p)))
  }

  /** A dict filled by `d[key(x)] = value(x)` for each `x` of `s` in order. */
  function LastWrites<K(!new)>(s: seq<Path>, key: Path -> K, value: Path -> string): (m: map<K, string>)
    ensures forall k :: k in m <==> exists p :: p in s && key(p) == k
  {
    if |s| == 0 then map[]
    else
      var n := |s| - 1;
      assert forall p :: p in s <==> p in s[..n] || p == s[n];
      LastWrites(s[..n], key, value)[key(s[n]) := value(s[n])]
  }

  /** The dict holds the value of the last element written under each key. */
  lemma {:induction false} LastWritesLast<K(!new)>(s: seq<Path>, key: Path -> K, value: Path -> string, i: nat)
    requires i < |s|
    requires forall j :: i < j < |s| ==> key(s[j]) != key(s[i])
    ensures key(s[i]) in LastWrites(s, key, value) && LastWrites(s, key, value)[key(s[i])] == value(s[i])
  {
    var n := |s| - 1;
    if i < n {
      var t := s[..n];
      forall j | i < j < n ensures key(t[j]) != key(t[i]) {
        assert t[j] == s[j] && t[i] == s[i];
      }
      LastWritesLast(t, key, value, i);
      assert t[i] == s[i];
      assert key(s[n]) != key(s[i]);
    }
  }

  /** `forced_date_key or get_date_key(...)`: the inherited key when there is
      a non-empty one under `k`, `own` otherwise. */
  function InheritedKey<K>(stems: map<K, string>, k: K, own: string): (r: string)
    ensures k in stems && stems[k] != "" ==> r == stems[k]
    ensures (k !in stems || stems[k] == "") ==> r == own
  {
    if k in stems && stems[k] != "" then stems[k] else own
  }

  function Sources(rs: seq<FileRecord>): (r: seq<Path>)
    ensures |r| == |rs| && forall i :: 0 <= i < |rs| ==> r[i] == rs[i].source
  {
    seq(|rs|, i requires 0 <= i < |rs| => rs[i].source)
  }

  /** The files of the first pass, those that are not sidecars. */
  function Primaries(s: seq<Path>, isSidecar: Path -> bool): (r: seq<Path>)
    ensures forall p :: p in r <==> p in s && !isSidecar(p)
  {
    Seqs.Filter(s, (p: Path) => !isSidecar(p))
  }

  /** Primary files and sidecars split the files between them. */
  lemma {:induction false} PrimariesAndSidecars(s: seq<Path>, isSidecar: Path -> bool)
    ensures multiset(Primaries(s, isSidecar)) + multiset(Seqs.Filter(s, isSidecar)) == multiset(s)
  {
    if |s| > 0 {
      PrimariesAndSidecars(s[1..], isSidecar);
      assert s == [s[0]] + s[1..];
    }
  }

  /** The two passes of `collect_plan` over the sorted files: each primary file
      with its own date key, then each sidecar with the key its primary file
      left in the stem map, or its own. */
  function PlanPasses<K(==,!new)>(sorted: seq<Path>, isSidecar: Path -> bool, key: Path -> K, ownKey: Path -> string)
    : (r: seq<FileRecord>)
    ensures Sources(r) == Primaries(sorted, isSidecar) + Seqs.Filter(sorted, isSidecar)
    ensures multiset(Sources(r)) == multiset(sorted) && |r| == |sorted|
  {
    var primaries := Primaries(sorted, isSidecar);
    var sidecars := Seqs.Filter(sorted, isSidecar);
    var stems := LastWrites(primaries, key, ownKey);
    var first := Records(primaries, ownKey);
    var second := Records(sidecars, p => InheritedKey(stems, key(p), ownKey(p)));
    PrimariesAndSidecars(sorted, isSidecar);
    SourcesConcat(first, second);
    assert multiset(primaries + sidecars) == multiset(sorted);
    assert |multiset(primaries + sidecars)| == |multiset(sorted)|;
    first + second
  }

  /** One record per path, in order, with the date key `keyOf` gives it. */
  function Records(paths: seq<Path>, keyOf: Path -> string): (r: seq<FileRecord>)
    ensures Sources(r) == paths
    ensures forall i :: 0 <= i < |r| ==> r[i].dateKey == keyOf(paths[i])
  {
    seq(|paths|, i requires 0 <= i < |paths| => FileRecord(paths[i], keyOf(paths[i])))
  }

  lemma SourcesConcat(a: seq<FileRecord>, b: seq<FileRecord>)
    ensures Sources(a + b) == Sources(a) + Sources(b)
  {
  }

  /** The date key of each record of the plan. */
  lemma PlanPassesKeys<K(!new)>(sorted: seq<Path>, isSidecar: Path -> bool, key: Path -> K, ownKey: Path -> string, k: nat)
    requires k < |sorted|
    ensures var rec := PlanPasses(sorted, isSidecar, key, ownKey)[k];
            var primaries := Primaries(sorted, isSidecar);
            && (!isSidecar(rec.source) ==> rec.dateKey == ownKey(rec.source))
            && (isSidecar(rec.source) ==>
                  rec.dateKey == InheritedKey(LastWrites(primaries, key, ownKey), key(rec.source), ownKey(rec.source)))
  {
    var primaries := Primaries(sorted, isSidecar);
    var sidecars := Seqs.Filter(sorted, isSidecar);
    var r := PlanPasses(sorted, isSidecar, key, ownKey);
    assert Sources(r)[k] == r[k].source;
    if k < |primaries| {
      assert primaries[k] in primaries;
    } else {
      assert sidecars[k - |primaries|] in sidecars;
    }
  }

  /** `iter_files`' test: an image, video or sidecar suffix. */
  predicate IsSupportedPath(p: Path) {
    Media.IsImage(Name(p)) || Media.IsVideo(Name(p)) || Media.IsSidecar(Name(p))
  }

  /** `sorted(iter_files(input_dir))`, given every file found under the input
      directory in any order. */
  function PlanOrder(found: seq<Path>): (r: seq<Path>)
    ensures multiset(r) == multiset(Seqs.Filter(found, IsSupportedPath))
  {
    SortBy(Seqs.Filter(found, IsSupportedPath), PathLt)
  }

  /** The plan visits the supported files in path order. */
  lemma PlanOrderSorted(found: seq<Path>)
    ensures SortedBy(PlanOrder(found), PathLt)
  {
    var supported := Seqs.Filter(found, IsSupportedPath);
    PathLtStrict(supported);
    SortBySorted(supported, PathLt);
  }

  /** `collect_plan` over the files found under the input directory, where
      `ownKey` gives the date key of a file's own estimate: the records of the
      supported primary files in sorted order, then those of the sidecars in
      sorted order, and the number of supported files. */
  function CollectPlan(found: seq<Path>, ownKey: Path -> string): (r: (seq<FileRecord>, nat))
    ensures r.1 == |r.0| == |PlanOrder(found)|
    ensures multiset(Sources(r.0)) == multiset(PlanOrder(found))
    ensures Sources(r.0) == Primaries(PlanOrder(found), IsSidecarPath) + Seqs.Filter(PlanOrder(found), IsSidecarPath)
  {
    var files := PlanOrder(found);
    (PlanPasses(files, IsSidecarPath, StemKey, ownKey), |files|)
  }

  /** The plan has one record per supported file found. */
  lemma CollectPlanCounts(found: seq<Path>, ownKey: Path -> string)
    ensures var r := CollectPlan(found, ownKey);
            && r.1 == |r.0| == |Seqs.Filter(found, IsSupportedPath)|
            && multiset(Sources(r.0)) == multiset(Seqs.Filter(found, IsSupportedPath))
  {
    var files := PlanOrder(found);
    assert |multiset(files)| == |Seqs.Filter(found, IsSupportedPath)|;
  }

  /** A primary file keeps its own date key; a sidecar whose parent and stem
      no primary file shares keeps its own too. */
  lemma CollectPlanKeys(found: seq<Path>, ownKey: Path -> string, k: nat)
    requires k < |CollectPlan(found, ownKey).0|
    ensures var rec := CollectPlan(found, ownKey).0[k];
            && (!IsSidecarPath(rec.source) ==> rec.dateKey == ownKey(rec.source))
            && (IsSidecarPath(rec.source)
                && (forall q :: q in Primaries(PlanOrder(found), IsSidecarPath) ==> StemKey(q) != StemKey(rec.source))
                ==> rec.dateKey == ownKey(rec.source))
  {
    PlanPassesKeys(PlanOrder(found), IsSidecarPath, StemKey, ownKey, k);
  }

  /** A sidecar takes the date key of the last primary file, in sorted order,
      with its parent and stem, unless that key is empty. */
  lemma SidecarInheritsLastPrimary(found: seq<Path>, ownKey: Path -> string, k: nat, i: nat)
    requires k < |CollectPlan(found, ownKey).0|
    requires var primaries := Primaries(PlanOrder(found), IsSidecarPath);
             && i < |primaries| && ownKey(primaries[i]) != ""
             && (forall j :: i < j < |primaries| ==> StemKey(primaries[j]) != StemKey(primaries[i]))
    requires var rec := CollectPlan(found, ownKey).0[k];
             IsSidecarPath(rec.source) && StemKey(rec.source) == StemKey(Primaries(PlanOrder(found), IsSidecarPath)[i])
    ensures CollectPlan(found, ownKey).0[k].dateKey == ownKey(Primaries(PlanOrder(found), IsSidecarPath)[i])
  {
    var primaries := Primaries(PlanOrder(found), IsSidecarPath);
    PlanPassesKeys(PlanOrder(found), IsSidecarPath, StemKey, ownKey, k);
    LastWritesLast(primaries, StemKey, ownKey, i);
  }

  // ---------------------------------------------------------------------------
  // Copy or skip

  /** The output tree: the files that exist and the directories that exist. */
  datatype Disk = Disk(files: set<Path>, dirs: seq<Path>)

  /** `Path.exists()`: a file or a directory. */
  predicate Exists(d: Disk, p: Path) {
    p in d.files || p in d.dirs
  }

  /** A sub-directory of the quarter folder whose name starts with the date key. */
  predicate IsDateDir(d: Path, quarterDir: Path, dateKey: string) {
    |d| > 0 && Parent(d) == quarterDir && Text.StartsWith(Name(d), dateKey)
  }

  lemma PathLtStrict(s: seq<Path>)
    ensures StrictOn(s, PathLt)
  {
    forall a | a in s ensures !PathLt(a, a) { PathLtTotal(a, a); }
    forall a, b, c | a in s && b in s && c in s && PathLt(a, b) && PathLt(b, c) ensures PathLt(a, c) {
      PathLtTransitive(a, b, c);
    }
  }

  /** `sorted(paths)[0]`: the least path, if any. */
  function FirstSorted(s: seq<Path>): (r: Option<Path>)
    ensures r.None? <==> |s| == 0
    ensures r.Some? ==> r.value in s && forall p :: p in s ==> !PathLt(p, r.value)
  {
    if |s| == 0 then None
    else
      var sorted := SortBy(s, PathLt);
      PathLtStrict(s);
      SortBySorted(s, PathLt);
      assert sorted[0] in multiset(s);
      assert forall p :: p in s ==> p in multiset(sorted);
      Some(sorted[0])
  }

  /** The directory a record goes to: the first existing date directory of its
      quarter folder in sorted order, or a new one named by the date key. */
  function TargetDir(dirs: seq<Path>, quarterDir: Path, dateKey: string): (r: Path)
    ensures (exists d :: d in dirs && IsDateDir(d, quarterDir, dateKey)) ==>
              && r in dirs && IsDateDir(r, quarterDir, dateKey)
              && forall d :: d in dirs && IsDateDir(d, quarterDir, dateKey) ==> !PathLt(d, r)
    ensures (forall d :: d in dirs ==> !IsDateDir(d, quarterDir, dateKey)) ==> r == quarterDir + [dateKey]
  {
    var candidates := Seqs.Filter(dirs, d => IsDateDir(d, quarterDir, dateKey));
    match FirstSorted(candidates)
    case Some(d) => d
    case None => quarterDir + [dateKey]
  }

  /** `mkdir(exist_ok=True)`. */
  function MakeDir(dirs: seq<Path>, d: Path): (r: seq<Path>)
    ensures d in r && forall x :: x in dirs ==> x in r
  {
    if d in dirs then dirs else dirs + [d]
  }

  datatype Mode = Copy | Move

  /** The run so far: the tree, the counts, the date keys seen, the entries of
      the two logs, and which source each written target came from. */
  datatype CopyState = CopyState(disk: Disk, copied: nat, skipped: nat, dateFolders: set<string>,
                                 skippedEntries: seq<(FileRecord, Path, Option<Path>)>,
                                 copiedEntries: seq<(FileRecord, Path)>, destSource: map<Path, Path>)

  /** The file a record would be written to, given the directories that exist. */
  function TargetFile(dirs: seq<Path>, outputDir: Path, quarterKey: string, rec: FileRecord): Path {
    TargetDir(dirs, outputDir + [quarterKey], rec.dateKey) + [Name(rec.source)]
  }

  /** One iteration of `copy_by_plan`: nothing when the date key has no month
      (where Python raises); otherwise the record is skipped when its target
      exists and written there when it does not. The two directories the step
      creates are shorter than the target, so whether the target exists is
      decided by the tree before the step. */
  function CopyStep(st: CopyState, rec: FileRecord, outputDir: Path, mode: Mode): (r: Option<CopyState>)
    ensures r.None? <==> QuarterKey(rec.dateKey).None?
    ensures r.Some? ==>
              var target := TargetFile(st.disk.dirs, outputDir, QuarterKey(rec.dateKey).value, rec);
              && r.value.dateFolders == st.dateFolders + {rec.dateKey}
              && (Exists(st.disk, target) ==>
                    && r.value.skipped == st.skipped + 1 && r.value.copied == st.copied
                    && r.value.skippedEntries == st.skippedEntries
                                                 + [(rec, target, if target in st.destSource then Some(st.destSource[target]) else None)]
                    && r.value.copiedEntries == st.copiedEntries && r.value.destSource == st.destSource
                    && r.value.disk.files == st.disk.files)
              && (!Exists(st.disk, target) ==>
                    && r.value.copied == st.copied + 1 && r.value.skipped == st.skipped
                    && r.value.copiedEntries == st.copiedEntries + [(rec, target)]
                    && r.value.skippedEntries == st.skippedEntries
                    && r.value.destSource == st.destSource[target := rec.source]
                    && target in r.value.disk.files
                    && (mode == Copy ==> r.value.disk.files == st.disk.files + {target})
                    && (mode == Move ==> r.value.disk.files == (st.disk.files - {rec.source}) + {target}))
  {
    match QuarterKey(rec.dateKey)
    case None => None
    case Some(quarterKey) =>
      var quarterDir := outputDir + [quarterKey];
      var targetDir := TargetDir(st.disk.dirs, quarterDir, rec.dateKey);
      var dirs := MakeDir(MakeDir(st.disk.dirs, quarterDir), targetDir);
      var target := targetDir + [Name(rec.source)];
      var folders := st.dateFolders + {rec.dateKey};
      if Exists(st.disk, target) then
        var from := if target in st.destSource then Some(st.destSource[target]) else None;
        Some(st.(disk := Disk(st.disk.files, dirs), skipped := st.skipped + 1, dateFolders := folders,
                 skippedEntries := st.skippedEntries + [(rec, target, from)]))
      else
        var files := (if mode == Move then st.disk.files - {rec.source} else st.disk.files) + {target};
        Some(st.(disk := Disk(files, dirs), copied := st.copied + 1, dateFolders := folders,
                 copiedEntries := st.copiedEntries + [(rec, target)],
                 destSource := st.destSource[target := rec.source]))
  }

  /** `copy_by_plan` from the tree `disk`: the records one after another;
      nothing when some date key has no month. */
  function CopyByPlan(records: seq<FileRecord>, outputDir: Path, mode: Mode, disk: Disk): (r: Option<CopyState>)
    ensures r.None? <==> exists rec :: rec in records && QuarterKey(rec.dateKey).None?
    ensures r.Some? ==> && r.value.copied + r.value.skipped == |records|
                        && |r.value.copiedEntries| == r.value.copied
                        && |r.value.skippedEntries| == r.value.skipped
    ensures r.Some? ==> r.value.dateFolders == set rec | rec in records :: rec.dateKey
    ensures r.Some? ==> r.value.destSource.Keys == set e | e in r.value.copiedEntries :: e.1
  {
    if |records| == 0 then Some(CopyState(disk, 0, 0, {}, [], [], map[]))
    else
      var n := |records| - 1;
      assert forall x :: x in records <==> x in records[..n] || x == records[n];
      match CopyByPlan(records[..n], outputDir, mode, disk)
      case None => None
      case Some(st) =>
        CopyStepTallied(st, records[..n], records[n], outputDir, mode);
        CopyStep(st, records[n], outputDir, mode)
  }

  /** The bookkeeping `copy_by_plan` keeps after handling `records`. */
  ghost predicate Tallied(st: CopyState, records: seq<FileRecord>) {
    && st.copied + st.skipped == |records|
    && |st.copiedEntries| == st.copied
    && |st.skippedEntries| == st.skipped
    && st.dateFolders == (set rec | rec in records :: rec.dateKey)
    && st.destSource.Keys == (set e | e in st.copiedEntries :: e.1)
  }

  /** One more record keeps the bookkeeping. */
  lemma CopyStepTallied(st: CopyState, done: seq<FileRecord>, rec: FileRecord, outputDir: Path, mode: Mode)
    requires Tallied(st, done)
    ensures CopyStep(st, rec, outputDir, mode).Some? ==>
              Tallied(CopyStep(st, rec, outputDir, mode).value, done + [rec])
  {
    var r := CopyStep(st, rec, outputDir, mode);
    if r.Some? {
      FoldersGrow(st.dateFolders, done, rec);
      var target := TargetFile(st.disk.dirs, outputDir, QuarterKey(rec.dateKey).value, rec);
      if !Exists(st.disk, target) {
        KeysGrow(st.destSource, st.copiedEntries, rec, target);
      }
    }
  }

  lemma FoldersGrow(folders: set<string>, done: seq<FileRecord>, rec: FileRecord)
    requires folders == (set x | x in done :: x.dateKey)
    ensures folders + {rec.dateKey} == (set x | x in done + [rec] :: x.dateKey)
  {
    assert forall x :: x in done + [rec] <==> x in done || x == rec;
  }

  lemma KeysGrow(destSource: map<Path, Path>, entries: seq<(FileRecord, Path)>, rec: FileRecord, target: Path)
    requires destSource.Keys == (set e | e in entries :: e.1)
    ensures destSource[target := rec.source].Keys == (set e | e in entries + [(rec, target)] :: e.1)
  {
    assert forall e :: e in entries + [(rec, target)] <==> e in entries || e == (rec, target);
  }

  /** Copy invariant: every target written exists, and no two are equal. */
  ghost predicate TargetsWritten(st: CopyState) {
    && (forall e :: e in st.copiedEntries ==> e.1 in st.disk.files)
    && (forall i, j :: 0 <= i < j < |st.copiedEntries| ==> st.copiedEntries[i].1 != st.copiedEntries[j].1)
  }

  /** In copy mode every target written is still there at the end, and no two
      records are written to the same target: a second record for a target is
      always skipped. */
  lemma {:induction false} CopiedTargetsDistinct(records: seq<FileRecord>, outputDir: Path, disk: Disk)
    requires CopyByPlan(records, outputDir, Copy, disk).Some?
    ensures TargetsWritten(CopyByPlan(records, outputDir, Copy, disk).value)
  {
    if |records| > 0 {
      var n := |records| - 1;
      var prev := CopyByPlan(records[..n], outputDir, Copy, disk);
      CopyByPlanLast(records, outputDir, disk);
      CopiedTargetsDistinct(records[..n], outputDir, disk);
      CopyStepKeepsTargets(prev.value, records[n], outputDir);
    }
  }

  /** A plan that copies through is its front followed by the last record's step. */
  lemma CopyByPlanLast(records: seq<FileRecord>, outputDir: Path, disk: Disk)
    requires |records| > 0 && CopyByPlan(records, outputDir, Copy, disk).Some?
    ensures var prev := CopyByPlan(records[..|records| - 1], outputDir, Copy, disk);
            && prev.Some?
            && CopyByPlan(records, outputDir, Copy, disk) == CopyStep(prev.value, records[|records| - 1], outputDir, Copy)
  {
  }

  lemma CopyStepKeepsTargets(st: CopyState, rec: FileRecord, outputDir: Path)
    requires TargetsWritten(st) && CopyStep(st, rec, outputDir, Copy).Some?
    ensures TargetsWritten(CopyStep(st, rec, outputDir, Copy).value)
  {
    var r := CopyStep(st, rec, outputDir, Copy).value;
    var target := TargetFile(st.disk.dirs, outputDir, QuarterKey(rec.dateKey).value, rec);
    if !Exists(st.disk, target) {
      var m := |st.copiedEntries|;
      assert r.copiedEntries[m] == (rec, target);
      forall i, j | 0 <= i < j < |r.copiedEntries| ensures r.copiedEntries[i].1 != r.copiedEntries[j].1 {
        assert r.copiedEntries[i] == st.copiedEntries[i];
        if j < m {
          assert r.copiedEntries[j] == st.copiedEntries[j];
        } else {
          assert st.copiedEntries[i] in st.copiedEntries;
        }
      }
    }
  }
}

=== FILE: path_candidates.dfy ===
/** The path-pattern extractor (`path_inferred_candidates`) after its regular
    expressions have run: the matches arrive as raw calendar fields, tagged with
    the scope they were found in and the pattern family that found them, in the
    order the extractor discovers them. */
module PathCandidates {
  import opened Wrappers
  import opened Calendar
  import opened Candidates
  import Text
  import opened Order
  import opened Seqs

  /** The four texts the extractor scans: stem, name, parent name, full path. */
  datatype Scope = FilenameScope | BasenameScope | ParentScope | FullpathScope

  function ScopeName(s: Scope): string {
    match s
    case FilenameScope => "filename"
    case BasenameScope => "basename"
    case ParentScope => "parent"
    case FullpathScope => "fullpath"
  }

  /** The seven pattern families, finest first. */
  datatype Family =
    | CompactStamp | DelimitedStamp
    | CompactDate | DelimitedDate
    | CompactMonth | DelimitedMonth
    | YearOnly

  function Label(f: Family): string {
    match f
    case CompactStamp => "YYYYMMDD_HHMMSS"
    case DelimitedStamp => "YYYY-MM-DD HH:MM:SS"
    case CompactDate => "YYYYMMDD"
    case DelimitedDate => "YYYY-MM-DD"
    case CompactMonth => "YYYYMM"
    case DelimitedMonth => "YYYY-MM"
    case YearOnly => "YYYY"
  }

  /** One regular-expression hit: the groups it captured, as integers. Fields a
      family does not capture are ignored. */
  datatype RawMatch = RawMatch(scope: Scope, family: Family,
                               year: int, month: int, day: int, hour: int, minute: int, second: int)

  /** The arguments `_build_datetime` receives for a hit: date families get
      midnight, month families the first day, the year family January 1st. */
  function MatchWall(m: RawMatch): Wall {
    match m.family
    case CompactStamp | DelimitedStamp => Wall(m.year, m.month, m.day, m.hour, m.minute, m.second, 0)
    case CompactDate | DelimitedDate => Wall(m.year, m.month, m.day, 0, 0, 0, 0)
    case CompactMonth | DelimitedMonth => Wall(m.year, m.month, 1, 0, 0, 0, 0)
    case YearOnly => Wall(m.year, 1, 1, 0, 0, 0, 0)
  }

  /** `f"path:{scope_name}:{label}"`. */
  function SourceLabel(scope: Scope, family: Family): string {
    "path:" + ScopeName(scope) + ":" + Label(family)
  }

  /** `_build_datetime` followed by `push`: a calendar-invalid hit yields nothing,
      a valid one a candidate at that wall clock in the local zone. */
  function BuildCandidate(m: RawMatch, local: int): (r: Option<TimeCandidate>)
    requires ValidOffset(local)
    ensures r.Some? <==> ValidWall(MatchWall(m))
    ensures r.Some? ==> r.value.timestamp == DateTime(MatchWall(m), Some(local))
                        && r.value.source == SourceLabel(m.scope, m.family)
                        && r.value.originSource.None?
  {
    var w := MatchWall(m);
    if !ValidWall(w) then None
    else
      Some(TimeCandidate(SourceLabel(m.scope, m.family), DateTime(w, Some(local)),
                         "Path inferred by " + Label(m.family) + " on " + ScopeName(m.scope), None))
  }

  /** The outcome of every hit, in discovery order. */
  function Outcomes(ms: seq<RawMatch>, local: int): (r: seq<Option<TimeCandidate>>)
    requires ValidOffset(local)
    ensures |r| == |ms|
    ensures forall i :: 0 <= i < |ms| ==> r[i] == BuildCandidate(ms[i], local)
  {
    seq(|ms|, i requires 0 <= i < |ms| => BuildCandidate(ms[i], local))
  }

  /** The list `entries` after every hit has been tried. */
  function Entries(ms: seq<RawMatch>, local: int): (r: seq<TimeCandidate>)
    requires ValidOffset(local)
    ensures forall c :: c in r <==> Some(c) in Outcomes(ms, local)
  {
    Somes(Outcomes(ms, local))
  }

  /** Every entry comes from a calendar-valid hit. */
  lemma EntriesFromHits(ms: seq<RawMatch>, local: int, c: TimeCandidate)
    requires ValidOffset(local) && c in Entries(ms, local)
    ensures exists i :: 0 <= i < |ms| && BuildCandidate(ms[i], local) == Some(c) && ValidWall(MatchWall(ms[i]))
  {
    var o := Outcomes(ms, local);
    var i :| 0 <= i < |o| && o[i] == Some(c);
  }

  // ---------------------------------------------------------------------------
  // Precision keys and coarser-period suppression.

  /** `path_precision_level`: 4 for date-time labels, 3 for dates, 2 for months,
      1 for years, 0 otherwise. Unlike `InferPathPrecision`, this also knows the
      delimited date and month labels. */
  function PrecisionLevel(source: string): (r: nat)
    ensures r <= 4
  {
    if Text.Contains(source, "YYYYMMDD_HHMMSS") || Text.Contains(source, "YYYY-MM-DD HH:MM:SS") then 4
    else if Text.EndsWith(source, ":YYYYMMDD") || Text.EndsWith(source, ":YYYY-MM-DD") then 3
    else if Text.EndsWith(source, ":YYYYMM") || Text.EndsWith(source, ":YYYY-MM") then 2
    else if Text.EndsWith(source, ":YYYY") then 1
    else 0
  }

  datatype Key = Key(level: nat, year: int, month: int, day: int, hour: int, minute: int, second: int)

  /** The level a key records: labels of no known family count as date-times. */
  function KeyLevel(source: string): (r: nat)
    ensures 1 <= r <= 4
    ensures 1 <= PrecisionLevel(source) ==> r == PrecisionLevel(source)
  {
    var l := PrecisionLevel(source);
    if l == 0 then 4 else l
  }

  /** `precision_key`: the level and the calendar fields that level resolves. */
  function PrecisionKey(c: TimeCandidate): (r: Key)
    ensures r.level == KeyLevel(c.source)
    ensures r.year == c.timestamp.wall.year
  {
    var w := c.timestamp.wall;
    match PrecisionLevel(c.source)
    case 1 => Key(1, w.year, 0, 0, 0, 0, 0)
    case 2 => Key(2, w.year, w.month, 0, 0, 0, 0)
    case 3 => Key(3, w.year, w.month, w.day, 0, 0, 0)
    case _ => Key(4, w.year, w.month, w.day, w.hour, w.minute, w.second)
  }

  /** Two candidates share a key exactly when they have the same key level and
      agree on every calendar field that level resolves: the year always, the
      month from level 2, the day from level 3, and the time of day at level 4. */
  lemma PrecisionKeyEq(a: TimeCandidate, b: TimeCandidate)
    ensures var l := KeyLevel(a.source);
            var u, v := a.timestamp.wall, b.timestamp.wall;
            PrecisionKey(a) == PrecisionKey(b) <==>
              && l == KeyLevel(b.source)
              && u.year == v.year
              && (l >= 2 ==> u.month == v.month)
              && (l >= 3 ==> u.day == v.day)
              && (l == 4 ==> u.hour == v.hour && u.minute == v.minute && u.second == v.second)
  {
  }

  /** `same_timeline_coarser`: `coarse` is a year, month or date hit and `fine` a
      strictly finer hit inside the same period. */
  predicate SameTimelineCoarser(coarse: TimeCandidate, fine: TimeCandidate) {
    var pc := PrecisionLevel(coarse.source);
    var pf := PrecisionLevel(fine.source);
    if pc <= 0 || pf <= pc then false
    else
      var a := coarse.timestamp.wall;
      var b := fine.timestamp.wall;
      if pc == 1 then a.year == b.year
      else if pc == 2 then a.year == b.year && a.month == b.month
      else if pc == 3 then a.year == b.year && a.month == b.month && a.day == b.day
      else false
  }

  /** A candidate that some other candidate of `u` refines. Self-comparison never
      holds, so Python's `other is not cand` test is implied. */
  predicate Refined(c: TimeCandidate, u: seq<TimeCandidate>) {
    exists d :: d in u && SameTimelineCoarser(c, d)
  }

  /** `key=lambda c: c.timestamp.timestamp()`. */
  predicate InstantLt(a: TimeCandidate, b: TimeCandidate) {
    Instant(a.timestamp) < Instant(b.timestamp)
  }

  predicate KeysDiffer(a: TimeCandidate, b: TimeCandidate) {
    PrecisionKey(a) != PrecisionKey(b)
  }

  /** `path_inferred_candidates`: deduplicate by precision key (first wins), drop
      refined candidates, sort by instant. */
  function PathInferredCandidates(ms: seq<RawMatch>, local: int): (r: seq<TimeCandidate>)
    requires ValidOffset(local)
    ensures forall i, j :: 0 <= i < j < |r| ==> Instant(r[i].timestamp) <= Instant(r[j].timestamp)
  {
    var u := DedupByKey(Entries(ms, local), PrecisionKey);
    var f := Filter(u, c => !Refined(c, u));
    SortBySorted(f, InstantLt);
    var r := SortBy(f, InstantLt);
    assert forall i, j :: 0 <= i < j < |r| ==> !InstantLt(r[j], r[i]);
    r
  }

  /** Every survivor comes from a calendar-valid hit and is the first entry with its
      precision key; no two survivors share a key; none is a coarser same-period
      match of another; and they ascend by instant. */
  lemma PathInferredCandidatesFacts(ms: seq<RawMatch>, local: int)
    requires ValidOffset(local)
    ensures var r := PathInferredCandidates(ms, local);
            && (forall c :: c in r ==> exists i :: 0 <= i < |ms| && BuildCandidate(ms[i], local) == Some(c))
            && (forall c :: c in r ==> FirstOfKey(Entries(ms, local), PrecisionKey, c))
            && (forall i, j :: 0 <= i < |r| && 0 <= j < |r| && i != j ==> PrecisionKey(r[i]) != PrecisionKey(r[j]))
            && (forall c, d :: c in r && d in r ==> !SameTimelineCoarser(c, d))
            && (forall i, j :: 0 <= i < j < |r| ==> Instant(r[i].timestamp) <= Instant(r[j].timestamp))
  {
    PathInferredOrigins(ms, local);
    PathInferredKeysDistinct(ms, local);
  }

  /** The survivors before sorting: first entries per key that no other refines. */
  function Survivors(ms: seq<RawMatch>, local: int): (f: seq<TimeCandidate>)
    requires ValidOffset(local)
    ensures SortBy(f, InstantLt) == PathInferredCandidates(ms, local)
    ensures forall c :: c in f ==> FirstOfKey(Entries(ms, local), PrecisionKey, c)
    ensures forall c, d :: c in f && d in f ==> !SameTimelineCoarser(c, d)
  {
    var es := Entries(ms, local);
    var u := DedupByKey(es, PrecisionKey);
    DedupKeepsFirst(es, PrecisionKey);
    Filter(u, c => !Refined(c, u))
  }

  lemma PathInferredOrigins(ms: seq<RawMatch>, local: int)
    requires ValidOffset(local)
    ensures var r := PathInferredCandidates(ms, local);
            && (forall c :: c in r ==> exists i :: 0 <= i < |ms| && BuildCandidate(ms[i], local) == Some(c))
            && (forall c :: c in r ==> FirstOfKey(Entries(ms, local), PrecisionKey, c))
            && (forall c, d :: c in r && d in r ==> !SameTimelineCoarser(c, d))
  {
    var f := Survivors(ms, local);
    var r := PathInferredCandidates(ms, local);
    forall c | c in r ensures c in f { assert c in multiset(r); }
    forall c | c in r ensures exists i :: 0 <= i < |ms| && BuildCandidate(ms[i], local) == Some(c) {
      EntriesFromHits(ms, local, c);
    }
  }

  lemma PathInferredKeysDistinct(ms: seq<RawMatch>, local: int)
    requires ValidOffset(local)
    ensures var r := PathInferredCandidates(ms, local);
            forall i, j :: 0 <= i < |r| && 0 <= j < |r| && i != j ==> PrecisionKey(r[i]) != PrecisionKey(r[j])
  {
    var es := Entries(ms, local);
    var u := DedupByKey(es, PrecisionKey);
    var f := Filter(u, c => !Refined(c, u));
    assert SortBy(f, InstantLt) == PathInferredCandidates(ms, local);
    DedupKeysDistinct(es, PrecisionKey);
    FilterKeysDistinct(u, c => !Refined(c, u), PrecisionKey);
    assert DistinctBy(f, KeysDiffer);
    SortByDistinctBy(f, InstantLt, KeysDiffer);
  }

  /** The extractor yields something exactly when some hit is calendar-valid. */
  lemma PathInferredNonEmpty(ms: seq<RawMatch>, local: int)
    requires ValidOffset(local)
    ensures |PathInferredCandidates(ms, local)| > 0 <==> exists i :: 0 <= i < |ms| && ValidWall(MatchWall(ms[i]))
  {
    var es := Entries(ms, local);
    var u := DedupByKey(es, PrecisionKey);
    var f := Filter(u, c => !Refined(c, u));
    var r := PathInferredCandidates(ms, local);
    assert |r| == |f| && multiset(r) == multiset(f);
    if i :| 0 <= i < |ms| && ValidWall(MatchWall(ms[i])) {
      var c := BuildCandidate(ms[i], local).value;
      assert Outcomes(ms, local)[i] == Some(c);
      assert c in es;
      DedupCoversKeys(es, PrecisionKey);
      var top := Finest(u);
      assert !Refined(top, u);
      assert top in f;
    }
    if |r| > 0 {
      PathInferredCandidatesFacts(ms, local);
      assert r[0] in r;
    }
  }

  /** An element of `u` of the highest precision level. */
  function Finest(u: seq<TimeCandidate>): (c: TimeCandidate)
    requires |u| > 0
    ensures c in u
    ensures forall d :: d in u ==> PrecisionLevel(d.source) <= PrecisionLevel(c.source)
  {
    if |u| == 1 then u[0]
    else
      var rest := Finest(u[1..]);
      assert forall d :: d in u ==> d == u[0] || d in u[1..];
      if PrecisionLevel(u[0].source) >= PrecisionLevel(rest.source) then u[0] else rest
  }

  /** A survivor is exactly a deduplicated entry that no other deduplicated entry refines. */
  lemma PathInferredSurvivors(ms: seq<RawMatch>, local: int, c: TimeCandidate)
    requires ValidOffset(local)
    ensures var u := DedupByKey(Entries(ms, local), PrecisionKey);
            c in PathInferredCandidates(ms, local) <==> c in u && !Refined(c, u)
  {
    var u := DedupByKey(Entries(ms, local), PrecisionKey);
    var f := Filter(u, c => !Refined(c, u));
    assert multiset(PathInferredCandidates(ms, local)) == multiset(f);
    assert c in PathInferredCandidates(ms, local) <==> c in multiset(f);
  }

  // ---------------------------------------------------------------------------
  // The labels the extractor writes, as the two precision readers see them.

  /** The level `path_precision_level` assigns each family. */
  function FamilyLevel(f: Family): nat {
    match f
    case CompactStamp | DelimitedStamp => 4
    case CompactDate | DelimitedDate => 3
    case CompactMonth | DelimitedMonth => 2
    case YearOnly => 1
  }

  /** The precision `infer_path_precision` assigns each family: the delimited date
      and month labels end in `:YYYY-MM-DD` / `:YYYY-MM`, which it does not test for. */
  function FamilyPrecision(f: Family): Option<Precision> {
    match f
    case CompactStamp | DelimitedStamp => Some(DatetimePrecision)
    case CompactDate => Some(DatePrecision)
    case CompactMonth => Some(MonthPrecision)
    case YearOnly => Some(YearPrecision)
    case DelimitedDate | DelimitedMonth => None
  }

  lemma ScopeNameChars(scope: Scope)
    ensures '.' !in ScopeName(scope) && '_' !in ScopeName(scope) && ' ' !in ScopeName(scope)
  {
  }



  lemma LabelChars(f: Family)
    ensures '.' !in Label(f)
    ensures '_' in Label(f) <==> f == CompactStamp
    ensures ' ' in Label(f) <==> f == DelimitedStamp
  {
    assert Label(CompactStamp)[8] == '_';
    assert Label(DelimitedStamp)[10] == ' ';
  }

  /** What sets a label apart from the other labels lies in its pattern name:
      the prefix `a` (`path:` and the scope name) holds none of the characters
      the readers look for. */
  predicate PlainPrefix(a: string) {
    Text.StartsWith(a, "path:") && '.' !in a && '_' !in a && ' ' !in a
  }

  lemma ScopePrefixPlain(scope: Scope, f: Family)
    ensures PlainPrefix("path:" + ScopeName(scope))
    ensures SourceLabel(scope, f) == ("path:" + ScopeName(scope)) + (":" + Label(f))
  {
    ScopeNameChars(scope);
  }

  /** The date-time pattern names occur in a label only in their own family's label. */
  lemma LabelStampTests(a: string, f: Family)
    requires PlainPrefix(a)
    ensures Text.Contains(a + (":" + Label(f)), "YYYYMMDD_HHMMSS") <==> f == CompactStamp
    ensures Text.Contains(a + (":" + Label(f)), "YYYY-MM-DD HH:MM:SS") <==> f == DelimitedStamp
  {
    LabelCompactTest(a, f);
    LabelDelimitedTest(a, f);
  }

  lemma LabelCompactTest(a: string, f: Family)
    requires PlainPrefix(a)
    ensures Text.Contains(a + (":" + Label(f)), "YYYYMMDD_HHMMSS") <==> f == CompactStamp
  {
    var b := ":" + Label(f);
    assert a + b == (a + ":") + Label(f);
    if f == CompactStamp {
      Text.ContainsEnd(a + ":", Label(f));
    } else {
      LabelChars(f);
      assert '_' !in b;
      Text.MissingCharNotInConcat(a, b, "YYYYMMDD_HHMMSS", 8);
    }
  }

  lemma LabelDelimitedTest(a: string, f: Family)
    requires PlainPrefix(a)
    ensures Text.Contains(a + (":" + Label(f)), "YYYY-MM-DD HH:MM:SS") <==> f == DelimitedStamp
  {
    var b := ":" + Label(f);
    assert a + b == (a + ":") + Label(f);
    if f == DelimitedStamp {
      Text.ContainsEnd(a + ":", Label(f));
    } else {
      LabelChars(f);
      assert ' ' !in b;
      Text.MissingCharNotInConcat(a, b, "YYYY-MM-DD HH:MM:SS", 10);
    }
  }

  /** No dotted pattern occurs in a label. */
  lemma LabelHasNoDots(a: string, f: Family)
    requires PlainPrefix(a)
    ensures var s := a + (":" + Label(f));
            && !Text.Contains(s, ".YYYYMMDD.") && !Text.Contains(s, ".YYYY-MM-DD.")
            && !Text.Contains(s, ".YYYYMM.") && !Text.Contains(s, ".YYYY-MM.") && !Text.Contains(s, ".YYYY.")
  {
    var b := ":" + Label(f);
    LabelChars(f);
    assert '.' !in b;
    Text.MissingCharNotInConcat(a, b, ".YYYYMMDD.", 0);
    Text.MissingCharNotInConcat(a, b, ".YYYY-MM-DD.", 0);
    Text.MissingCharNotInConcat(a, b, ".YYYYMM.", 0);
    Text.MissingCharNotInConcat(a, b, ".YYYY-MM.", 0);
    Text.MissingCharNotInConcat(a, b, ".YYYY.", 0);
  }

  /** The last and third-to-last characters of `:` and a pattern name. */
  function Tail(f: Family): (r: (char, char))
    ensures var b := ":" + Label(f); r == (b[|b| - 1], b[|b| - 3])
  {
    match f
    case CompactStamp => ('S', 'M')
    case DelimitedStamp => ('S', ':')
    case CompactDate => ('D', 'M')
    case DelimitedDate => ('D', '-')
    case CompactMonth => ('M', 'Y')
    case DelimitedMonth => ('M', '-')
    case YearOnly => ('Y', 'Y')
  }

  /** Those two characters tell any two pattern names apart. */
  lemma TailInjective(f: Family, g: Family)
    ensures Tail(f) == Tail(g) ==> f == g
  {
  }

  /** A label ends with a `:`-prefixed pattern name exactly when that is its
      own family's name. */
  lemma LabelEnding(a: string, f: Family, g: Family)
    ensures Text.EndsWith(a + (":" + Label(f)), ":" + Label(g)) <==> f == g
  {
    var b, t := ":" + Label(f), ":" + Label(g);
    if f == g {
      Text.EndsWithConcat(a, b, b);
    } else {
      TailInjective(f, g);
      Text.EndsWithTails(a + b, b, t);
    }
  }

  /** Which of the date and month endings a label has. */
  lemma LabelEndings(a: string, f: Family)
    ensures var s := a + (":" + Label(f));
            && (Text.EndsWith(s, ":YYYYMMDD") <==> f == CompactDate)
            && (Text.EndsWith(s, ":YYYY-MM-DD") <==> f == DelimitedDate)
            && (Text.EndsWith(s, ":YYYYMM") <==> f == CompactMonth)
            && (Text.EndsWith(s, ":YYYY-MM") <==> f == DelimitedMonth)
            && (Text.EndsWith(s, ":YYYY") <==> f == YearOnly)
  {
    EndingSpellings();
    LabelEnding(a, f, CompactDate);
    LabelEnding(a, f, DelimitedDate);
    LabelEnding(a, f, CompactMonth);
    LabelEnding(a, f, DelimitedMonth);
    LabelEnding(a, f, YearOnly);
  }

  /** The date and month endings, spelled out. */
  lemma EndingSpellings()
    ensures ":" + Label(CompactDate) == ":YYYYMMDD"
    ensures ":" + Label(DelimitedDate) == ":YYYY-MM-DD"
    ensures ":" + Label(CompactMonth) == ":YYYYMM"
    ensures ":" + Label(DelimitedMonth) == ":YYYY-MM"
    ensures ":" + Label(YearOnly) == ":YYYY"
  {
  }

  /** Both precision readers agree with the family tables on a label with a plain prefix. */
  lemma LabelPrecision(a: string, f: Family)
    requires PlainPrefix(a)
    ensures PrecisionLevel(a + (":" + Label(f))) == FamilyLevel(f)
    ensures InferPathPrecision(a + (":" + Label(f))) == FamilyPrecision(f)
  {
    var s := a + (":" + Label(f));
    assert Text.StartsWith(s, "path:") by { assert s[..5] == a[..5]; }
    LabelHasNoDots(a, f);
    LabelStampTests(a, f);
    LabelEndings(a, f);
  }

  /** Both precision readers agree with the family tables on every label the
      extractor writes. */
  lemma PathLabelPrecision(scope: Scope, f: Family)
    ensures PrecisionLevel(SourceLabel(scope, f)) == FamilyLevel(f)
    ensures InferPathPrecision(SourceLabel(scope, f)) == FamilyPrecision(f)
  {
    ScopePrefixPlain(scope, f);
    LabelPrecision("path:" + ScopeName(scope), f);
  }
}

=== FILE: seqs.dfy ===
/** List building blocks shared by the components: first-wins deduplication by a
    key (a dict filled with `if key not in d: d[key] = x`) and filtering. */
module Seqs {
  import opened Order

  /** No earlier element shares the key of element `k`. */
  predicate FirstAt<T, K(==)>(es: seq<T>, key: T -> K, k: int)
    requires 0 <= k < |es|
  {
    forall k' :: 0 <= k' < k ==> key(es[k']) != key(es[k])
  }

  /** `c` is the first element of `es` with its key. */
  ghost predicate FirstOfKey<T, K>(es: seq<T>, key: T -> K, c: T) {
    exists k :: 0 <= k < |es| && es[k] == c && FirstAt(es, key, k)
  }

  /** No two positions of `s` hold the same key. */
  ghost predicate KeysDistinct<T, K>(s: seq<T>, key: T -> K) {
    forall i, j :: 0 <= i < |s| && 0 <= j < |s| && i != j ==> key(s[i]) != key(s[j])
  }

  /** The first element of every key, in the order the keys first appear. */
  function DedupByKey<T, K(==)>(es: seq<T>, key: T -> K): (r: seq<T>)
  {
    if |es| == 0 then []
    else
      var n := |es| - 1;
      if FirstAt(es, key, n) then DedupByKey(es[..n], key) + [es[n]] else DedupByKey(es[..n], key)
  }

  /** Each kept element is the first element of the input with its key. */
  lemma {:induction false} DedupKeepsFirst<T, K>(es: seq<T>, key: T -> K)
    ensures forall c :: c in DedupByKey(es, key) ==> c in es && FirstOfKey(es, key, c)
  {
    if |es| > 0 {
      var n := |es| - 1;
      var q := es[..n];
      DedupKeepsFirst(q, key);
      forall c | c in DedupByKey(q, key) ensures c in es && FirstOfKey(es, key, c) {
        var k :| 0 <= k < |q| && q[k] == c && FirstAt(q, key, k);
        assert es[k] == c;
        assert forall k' :: 0 <= k' < k ==> q[k'] == es[k'];
      }
      if FirstAt(es, key, n) {
        assert FirstOfKey(es, key, es[n]);
      }
    }
  }

  /** No two kept elements share a key. */
  lemma {:induction false} DedupKeysDistinct<T, K>(es: seq<T>, key: T -> K)
    ensures KeysDistinct(DedupByKey(es, key), key)
  {
    if |es| > 0 {
      var n := |es| - 1;
      var q := es[..n];
      var rest := DedupByKey(q, key);
      DedupKeysDistinct(q, key);
      if FirstAt(es, key, n) {
        DedupKeepsFirst(q, key);
        forall c | c in rest ensures key(c) != key(es[n]) {
          var k :| 0 <= k < |q| && q[k] == c;
          assert es[k] == c;
        }
        AppendKeysDistinct(rest, es[n], key);
      }
    }
  }

  /** Every key of the input is kept. */
  lemma {:induction false} DedupCoversKeys<T, K>(es: seq<T>, key: T -> K)
    ensures forall e :: e in es ==> exists c :: c in DedupByKey(es, key) && key(c) == key(e)
  {
    if |es| > 0 {
      var n := |es| - 1;
      var q := es[..n];
      var rest := DedupByKey(q, key);
      var r := DedupByKey(es, key);
      DedupCoversKeys(q, key);
      assert forall c :: c in rest ==> c in r;
      assert forall x :: x in es ==> x in q || x == es[n];
      if FirstAt(es, key, n) {
        assert es[n] in r;
      } else {
        var k' :| 0 <= k' < n && key(es[k']) == key(es[n]);
        assert es[k'] in q;
      }
    }
  }

  lemma AppendKeysDistinct<T, K>(s: seq<T>, x: T, key: T -> K)
    requires KeysDistinct(s, key)
    requires forall y :: y in s ==> key(y) != key(x)
    ensures KeysDistinct(s + [x], key)
  {
    var r := s + [x];
    forall i, j | 0 <= i < |r| && 0 <= j < |r| && i != j
      ensures key(r[i]) != key(r[j])
    {
      if i < |s| && j < |s| {
        assert r[i] == s[i] && r[j] == s[j];
      } else if i == |s| {
        assert r[j] in s;
      } else {
        assert r[i] in s;
      }
    }
  }

  /** `[c for c in s if keep(c)]`. */
  function Filter<T(!new)>(s: seq<T>, keep: T -> bool): (r: seq<T>)
    ensures forall c :: c in r <==> c in s && keep(c)
    ensures |r| <= |s|
  {
    if |s| == 0 then []
    else
      var rest := Filter(s[1..], keep);
      assert forall c :: c in s <==> c == s[0] || c in s[1..];
      if keep(s[0]) then [s[0]] + rest else rest
  }

  /** Filtering keeps keys distinct. */
  lemma {:induction false} FilterKeysDistinct<T(!new), K>(s: seq<T>, keep: T -> bool, key: T -> K)
    requires KeysDistinct(s, key)
    ensures KeysDistinct(Filter(s, keep), key)
  {
    if |s| > 0 {
      var tail := s[1..];
      var rest := Filter(tail, keep);
      assert KeysDistinct(tail, key) by {
        forall i, j | 0 <= i < |tail| && 0 <= j < |tail| && i != j
          ensures key(tail[i]) != key(tail[j])
        {
          assert tail[i] == s[i + 1] && tail[j] == s[j + 1];
        }
      }
      FilterKeysDistinct(tail, keep, key);
      if keep(s[0]) {
        var r := [s[0]] + rest;
        forall i, j | 0 <= i < |r| && 0 <= j < |r| && i != j
          ensures key(r[i]) != key(r[j])
        {
          if i > 0 && j > 0 {
            assert r[i] == rest[i - 1] && r[j] == rest[j - 1];
          } else {
            var y := if i == 0 then r[j] else r[i];
            assert y in rest;
            var k :| 0 <= k < |tail| && tail[k] == y;
            assert s[k + 1] == y;
          }
        }
      }
    }
  }
}

=== FILE: text.dfy ===
/** Character and string helpers shared by every component: Python's `str.strip`,
    `str.isdigit`, decimal formatting, `startswith`/`endswith`/`in`, and the
    suffix/stem split of a path name. */
module Text {

  /** The characters for which Python's `str.isspace` holds (and which
      `str.strip()` with no argument removes). */
  predicate IsSpace(c: char) {
    c == ' ' || ('\t' <= c <= '\r') || ('\U{1C}' <= c <= '\U{1F}')
    || c == '\U{85}' || c == '\U{A0}' || c == '\U{1680}'
    || ('\U{2000}' <= c <= '\U{200A}') || c == '\U{2028}' || c == '\U{2029}'
    || c == '\U{202F}' || c == '\U{205F}' || c == '\U{3000}'
  }


  function StripLeft(s: string): (r: string)
    ensures |r| <= |s| && r == s[|s| - |r|..]
    ensures |r| > 0 ==> !IsSpace(r[0])
    ensures forall i :: 0 <= i < |s| - |r| ==> IsSpace(s[i])
  {
    if |s| > 0 && IsSpace(s[0]) then StripLeft(s[1..]) else s
  }

  function StripRight(s: string): (r: string)
    ensures |r| <= |s| && r == s[..|r|]
    ensures |r| > 0 ==> !IsSpace(r[|r| - 1])
    ensures forall i :: |r| <= i < |s| ==> IsSpace(s[i])
  {
    if |s| > 0 && IsSpace(s[|s| - 1]) then StripRight(s[..|s| - 1]) else s
  }

  /** `r` is a slice of `s` with only whitespace outside it. */
  ghost predicate StrippedFrom(s: string, r: string) {
    exists i :: 0 <= i <= |s| - |r| && SpaceAround(s, i, r)
  }

  /** `r` sits at `i` in `s`, and everything before and after it is whitespace. */
  ghost predicate SpaceAround(s: string, i: int, r: string)
    requires 0 <= i <= |s| - |r|
  {
    && r == s[i..i + |r|]
    && (forall k :: 0 <= k < i ==> IsSpace(s[k]))
    && (forall k :: i + |r| <= k < |s| ==> IsSpace(s[k]))
  }

  /** Python's `s.strip()`: the slice of `s` left once the surrounding
      whitespace is removed. */
  function Strip(s: string): (r: string)
    ensures |r| > 0 ==> !IsSpace(r[0]) && !IsSpace(r[|r| - 1])
    ensures |r| <= |s|
    ensures StrippedFrom(s, r)
  {
    var l := StripLeft(s);
    var r := StripRight(l);
    StripParts(s, l, r);
    r
  }

  /** Whitespace before a suffix `l` of `s`, and after a prefix `r` of `l`,
      leaves `r` as the middle slice of `s`. */
  lemma StripParts(s: string, l: string, r: string)
    requires |l| <= |s| && l == s[|s| - |l|..]
    requires |r| <= |l| && r == l[..|r|]
    requires forall k :: 0 <= k < |s| - |l| ==> IsSpace(s[k])
    requires forall k :: |r| <= k < |l| ==> IsSpace(l[k])
    ensures SpaceAround(s, |s| - |l|, r)
  {
    var i := |s| - |l|;
    assert r == s[i..i + |r|];
    forall k | i + |r| <= k < |s|
      ensures IsSpace(s[k])
    {
      assert s[k] == l[k - i];
    }
  }

  /** Python's `s.replace(c, "")` for a single character. */
  function RemoveChar(s: string, c: char): (r: string)
    ensures c !in r
    ensures forall x :: x in r <==> x in s && x != c
  {
    if |s| == 0 then "" else (if s[0] == c then "" else [s[0]]) + RemoveChar(s[1..], c)
  }

  /** Stripping leaves alone a string that neither starts nor ends with whitespace. */
  lemma StripUnchanged(s: string)
    requires |s| > 0 ==> !IsSpace(s[0]) && !IsSpace(s[|s| - 1])
    ensures Strip(s) == s
  {
  }

  lemma {:induction false} RemoveAbsent(s: string, c: char)
    requires c !in s
    ensures RemoveChar(s, c) == s
  {
    if |s| > 0 {
      assert s[1..] + [] == s[1..];
      RemoveAbsent(s[1..], c);
      assert [s[0]] + s[1..] == s;
    }
  }

  predicate IsDigit(c: char) {
    '0' <= c <= '9'
  }

  /** Python's `s.isdigit()` restricted to ASCII digits: non-empty and all digits. */
  predicate IsDigits(s: string) {
    |s| > 0 && forall i :: 0 <= i < |s| ==> IsDigit(s[i])
  }

  predicate AllDigits(s: string) {
    forall i :: 0 <= i < |s| ==> IsDigit(s[i])
  }

  lemma DigitsLackChar(s: string, c: char)
    requires AllDigits(s) && !IsDigit(c)
    ensures c !in s
  {
  }

  function DigitValue(c: char): nat
    requires IsDigit(c)
  {
    (c as int) - ('0' as int)
  }

  /** The number a string of decimal digits denotes (`int(s)`); leading zeros allowed. */
  function DecimalValue(s: string): nat
    requires AllDigits(s)
  {
    if |s| == 0 then 0 else DecimalValue(s[..|s| - 1]) * 10 + DigitValue(s[|s| - 1])
  }

  function Pow10(n: nat): nat
    ensures Pow10(n) >= 1
  {
    if n == 0 then 1 else 10 * Pow10(n - 1)
  }

  function DigitChar(d: nat): (c: char)
    requires d < 10
    ensures IsDigit(c) && DigitValue(c) == d
  {
    (('0' as int) + d) as char
  }

  /** The shortest decimal spelling of `n` (`str(n)` for a non-negative int). */
  function Digits(n: nat): (r: string)
    ensures AllDigits(r) && |r| > 0
    ensures DecimalValue(r) == n
    ensures n < 10 ==> |r| == 1
    decreases n
  {
    if n < 10 then [DigitChar(n)] else Digits(n / 10) + [DigitChar(n % 10)]
  }

  lemma {:induction false} DigitsLength(n: nat, w: nat)
    requires n < Pow10(w)
    requires w >= 1
    ensures |Digits(n)| <= w
  {
    if n >= 10 {
      DigitsLength(n / 10, w - 1);
    }
  }

  function Zeros(k: nat): (r: string)
    ensures |r| == k && AllDigits(r)
    ensures forall i :: 0 <= i < k ==> r[i] == '0'
  {
    if k == 0 then "" else "0" + Zeros(k - 1)
  }

  lemma {:induction false} ZerosValue(k: nat, s: string)
    requires AllDigits(s)
    ensures AllDigits(Zeros(k) + s) && DecimalValue(Zeros(k) + s) == DecimalValue(s)
    decreases |s|
  {
    if |s| == 0 {
      assert Zeros(k) + s == Zeros(k);
      ZerosValueOnly(k);
    } else {
      var t := s[..|s| - 1];
      assert (Zeros(k) + s)[..|Zeros(k) + s| - 1] == Zeros(k) + t;
      ZerosValue(k, t);
    }
  }

  lemma {:induction false} ZerosValueOnly(k: nat)
    ensures DecimalValue(Zeros(k)) == 0
  {
    if k > 0 {
      assert Zeros(k)[..k - 1] == Zeros(k - 1);
      ZerosValueOnly(k - 1);
    }
  }

  /** Python's `s.zfill(w)` for a digit string: left-pad with `0` to at least `w` characters. */
  function ZeroFill(s: string, w: nat): (r: string)
    ensures |r| == if |s| >= w then |s| else w
    ensures AllDigits(s) ==> AllDigits(r) && DecimalValue(r) == DecimalValue(s)
    ensures r[|r| - |s|..] == s
  {
    if |s| >= w then s
    else
      var r := Zeros(w - |s|) + s;
      if AllDigits(s) then ZerosValue(w - |s|, s); r else r
  }

  /** `f"{n:0{w}d}"` for a non-negative `n`. */
  function Pad(n: nat, w: nat): (r: string)
    ensures AllDigits(r) && DecimalValue(r) == n
    ensures w >= 1 && n < Pow10(w) ==> |r| == w
  {
    if w >= 1 && n < Pow10(w) then DigitsLength(n, w); ZeroFill(Digits(n), w) else ZeroFill(Digits(n), w)
  }

  lemma {:induction false} DecimalValueConcat(a: string, b: string)
    requires AllDigits(a) && AllDigits(b)
    ensures AllDigits(a + b)
    ensures DecimalValue(a + b) == DecimalValue(a) * Pow10(|b|) + DecimalValue(b)
    decreases |b|
  {
    if |b| == 0 {
      assert a + b == a;
    } else {
      var b' := b[..|b| - 1];
      assert (a + b)[..|a + b| - 1] == a + b';
      assert (a + b)[|a + b| - 1] == b[|b| - 1];
      DecimalValueConcat(a, b');
      var x, p, y, d := DecimalValue(a), Pow10(|b'|), DecimalValue(b'), DigitValue(b[|b| - 1]);
      assert DecimalValue(a + b) == (x * p + y) * 10 + d;
      assert DecimalValue(b) == y * 10 + d && Pow10(|b|) == p * 10;
      ShiftDigit(x, p, y, d);
    }
  }

  /** Appending a digit to `x` shifted by `p` places and followed by `y`. */
  lemma ShiftDigit(x: int, p: int, y: int, d: int)
    ensures (x * p + y) * 10 + d == x * (p * 10) + (y * 10 + d)
  {
  }

  /** `f"{n:02d}"` for `n < 100`. */
  function Pad2(n: nat): (r: string)
    requires n < 100
    ensures |r| == 2 && AllDigits(r) && DecimalValue(r) == n
  {
    var a, b := [DigitChar(n / 10)], [DigitChar(n % 10)];
    assert a[..0] == [] && b[..0] == [];
    DecimalValueConcat(a, b);
    a + b
  }

  /** `f"{n:03d}"` for `n < 1000`. */
  function Pad3(n: nat): (r: string)
    requires n < 1000
    ensures |r| == 3 && AllDigits(r) && DecimalValue(r) == n
  {
    var a := [DigitChar(n / 100)];
    assert a[..0] == [];
    DecimalValueConcat(a, Pad2(n % 100));
    assert Pow10(2) == 100 by { assert Pow10(1) == 10; }
    a + Pad2(n % 100)
  }

  /** `f"{n:04d}"` for `n < 10000`. */
  function Pad4(n: nat): (r: string)
    requires n < 10000
    ensures |r| == 4 && AllDigits(r) && DecimalValue(r) == n
  {
    DecimalValueConcat(Pad2(n / 100), Pad2(n % 100));
    assert Pow10(2) == 100 by { assert Pow10(1) == 10; }
    Pad2(n / 100) + Pad2(n % 100)
  }

  predicate StartsWith(s: string, p: string) {
    |p| <= |s| && s[..|p|] == p
  }

  predicate EndsWith(s: string, p: string) {
    |p| <= |s| && s[|s| - |p|..] == p
  }

  /** Whether `a + b` ends with `t` is decided by `b` alone. */
  lemma EndsWithConcat(a: string, b: string, t: string)
    ensures EndsWith(b, t) ==> EndsWith(a + b, t)
    ensures EndsWith(a + b, t) ==> if |t| <= |b| then EndsWith(b, t) else EndsWith(t, b)
  {
    var s := a + b;
    if EndsWith(s, t) && |t| > |b| {
      assert s[|s| - |b|..] == b;
      assert t[|t| - |b|..] == s[|s| - |b|..];
    }
    if EndsWith(b, t) {
      assert s[|s| - |t|..] == b[|b| - |t|..];
    }
    if EndsWith(s, t) && |t| <= |b| {
      assert s[|s| - |t|..] == b[|b| - |t|..];
    }
  }

  /** A string ending with `t` agrees with it `k` places from the end. */
  lemma EndsWithCharAt(s: string, t: string, k: nat)
    requires k < |t| && k < |s|
    ensures EndsWith(s, t) ==> s[|s| - 1 - k] == t[|t| - 1 - k]
  {
    if EndsWith(s, t) {
      assert s[|s| - |t|..][|t| - 1 - k] == s[|s| - 1 - k];
    }
  }

  /** A string that ends with `b` ends with no `t` whose last or third-to-last
      character differs from `b`'s. */
  lemma EndsWithTails(s: string, b: string, t: string)
    requires EndsWith(s, b) && |b| >= 3 && |t| >= 3
    requires (b[|b| - 1], b[|b| - 3]) != (t[|t| - 1], t[|t| - 3])
    ensures !EndsWith(s, t)
  {
    EndsWithCharAt(s, b, 0);
    EndsWithCharAt(s, b, 2);
    EndsWithCharAt(s, t, 0);
    EndsWithCharAt(s, t, 2);
  }

  predicate OccursAt(s: string, p: string, i: int) {
    0 <= i <= |s| - |p| && s[i..i + |p|] == p
  }

  /** Python's `p in s` for strings. */
  predicate Contains(s: string, p: string) {
    exists i | 0 <= i <= |s| - |p| :: OccursAt(s, p, i)
  }

  /** A needle holding a character the haystack lacks is not found. */
  lemma MissingCharNotContained(s: string, p: string, k: nat)
    requires k < |p| && p[k] !in s
    ensures !Contains(s, p)
  {
    forall i | 0 <= i <= |s| - |p|
      ensures !OccursAt(s, p, i)
    {
      assert s[i + k] in s;
      assert s[i..i + |p|][k] == s[i + k];
    }
  }

  /** A string contains whatever it ends with. */
  lemma ContainsEnd(a: string, b: string)
    ensures Contains(a + b, b)
  {
    assert OccursAt(a + b, b, |a|);
  }

  /** A needle holding a character neither half has is not found in the whole. */
  lemma MissingCharNotInConcat(a: string, b: string, p: string, k: nat)
    requires k < |p| && p[k] !in a && p[k] !in b
    ensures !Contains(a + b, p)
  {
    MissingCharNotContained(a + b, p, k);
  }

  /** ASCII `str.lower()`. */
  function LowerChar(c: char): char {
    if 'A' <= c <= 'Z' then ((c as int) + 32) as char else c
  }

  function Lower(s: string): (r: string)
    ensures |r| == |s|
    ensures forall i :: 0 <= i < |s| ==> r[i] == LowerChar(s[i])
  {
    if |s| == 0 then "" else [LowerChar(s[0])] + Lower(s[1..])
  }

  /** Index of the last `.` in `s`, or -1 (`str.rfind('.')`). */
  function LastDot(s: string): (i: int)
    ensures -1 <= i < |s|
    ensures i >= 0 ==> s[i] == '.'
    ensures forall j :: i < j < |s| ==> s[j] != '.'
  {
    if |s| == 0 then -1 else if s[|s| - 1] == '.' then |s| - 1 else LastDot(s[..|s| - 1])
  }

  /** `PurePath(name).suffix`: from the last dot, unless that dot leads the name or ends it. */
  function Suffix(name: string): (r: string)
    ensures r == "" || (r[0] == '.' && EndsWith(name, r) && |r| >= 2 && |r| < |name|)
    ensures r != "" ==> '.' !in r[1..]
    ensures r == "" ==> forall i :: 0 < i < |name| - 1 && name[i] == '.' ==> '.' in name[i + 1..]
  {
    var i := LastDot(name);
    if 0 < i < |name| - 1 then name[i..] else ""
  }

  /** `PurePath(name).stem`: the name without its suffix. */
  function Stem(name: string): (r: string)
    ensures r + Suffix(name) == name
  {
    var i := LastDot(name);
    if 0 < i < |name| - 1 then name[..i] else name
  }
}

=== FILE: wrappers.dfy ===
/** Optional values: Python's `None` next to a present value. */
module Wrappers {

  datatype Option<+T> = None | Some(value: T) {

    /** The wrapped value, or `default` when there is none. */
    function GetOr(default: T): T {
      match this
      case Some(v) => v
      case None => default
    }
  }

  /** The present values of `s`, in order (a loop that appends on success). */
  function Somes<T(!new)>(s: seq<Option<T>>): (r: seq<T>)
    ensures |r| <= |s|
    ensures forall x :: x in r <==> Some(x) in s
    ensures (forall i :: 0 <= i < |s| ==> s[i].None?) ==> r == []
  {
    if |s| == 0 then []
    else
      var rest := Somes(s[1..]);
      assert forall x :: Some(x) in s <==> s[0] == Some(x) || Some(x) in s[1..];
      match s[0]
      case None => rest
      case Some(x) => [x] + rest
  }
}
